=== FILE: README.md ===
# CosyVoice_app core, modelled in Dafny

CosyVoice_app is a desktop voice-cloning application. This project models the
part of it that keeps track of state and makes decisions, and proves what that
part promises. The Qt widgets, the threads and the speech engine are not
modelled.

- **Model downloads.** The download service (`download_service.dfy`) keeps a
  task map and a progress map per model id. It allows at most one running
  download per model and has a six-entry model registry. The background
  download worker (`download_worker.dfy`) cancels cooperatively, polls the
  transfer a bounded number of times and chooses the final outcome. As
  written, its progress emit is rejected by the signal's declared types; the
  worker is modelled both as written and corrected (see "## Findings"). The model
  card (`model_card.dfy`) maps a model's status to its button action, label
  and progress bar.
- **Configuration.** `config.dfy` models the thirty-field `AppConfig` record,
  `from_dict` and `validate`. `config_manager.dfy` models the manager:
  default, user and environment layering, changed-key tracking,
  `set`/`update` with observer notification, and observer registration.
- **Version check** (`version.dfy`). Dotted version comparison with zero
  padding, the stripping of a leading "v", and the shape of the update result.
- **Cache manager** (`cache.dfy`) and the shared size formatter
  (`size_format.dfy`). The five cache directories, the scan totals, and the
  rules for clearing one cache or all of them.
- **Usage statistics** (`statistics.dfy`). Launch and usage-day counting,
  sessions, per-model generation counts, the derived display values, and reset.
- **File naming.** The file service (`file_service.dfy`) covers save checks,
  unique names, relative paths and output paths. The upload file manager
  (`file_manager.dfy`) covers safe names, upload validation and the reported
  file type. Both use the string operations in `common.dfy`.
- **Error handling** (`error_handler.dfy`). The exception hierarchy, level
  classification, the per-type counter, dialog titles and the
  handler wrappers.
- **Voice generation.** The adapter registry and the generation branching
  (`voice_adapter.dfy`). The audio generation worker's staged run with
  progress and cancellation (`generation_worker.dfy`).
- **System information** (`system_info.dfy`). The 30-second cache, collection
  with its fallback, the core count, GPU detection and the formatted GPU entry.
- **Feedback** (`feedback.dfy`). The mailto URL and the e-mail body.

The model follows the form of the code. Services that update fields in place
are classes with `modifies` clauses. Loops are methods with invariants, proved
against specification functions. Pure computations are functions and lemmas.
Clocks, the file system, the network and the probes into libraries are passed
in as parameters or described as values.

The download code works as follows, and the model follows it:

- The code has four model statuses (not downloaded, downloading, downloaded,
  error). It has no separate connecting, verifying or cancelled states.
- A cancelled download reaches the service through the failure path, as
  "Error: Download cancelled". It is not a distinct cancelled outcome.
- Only `cosyvoice3_2512` gets a full integrity check. The other models count
  as downloaded when their directory exists.
- When nothing has been received yet, the ETA is "00:00:00" rather than
  unknown.

## Model

| member | source | states |
|---|---|---|
| DownloadService.RegistryConsistent | backend/model_download_service.py:97-142 | the six registry ids are distinct, and they are exactly the ids the status check and the worker's model-type map know |
| DownloadService.StartedProgress | backend/model_download_service.py:235-240 | an accepted start stores a record that is downloading, has zero counters, the "0 MB/s" speed and "00:00:00" ETA, no error and the start time |
| DownloadService.RemainingSeconds | backend/model_download_service.py:375-377 | the ETA in whole seconds is the floor of the remaining bytes divided by the measured rate, and 0 when nothing has been received |
| DownloadService.EtaTextRoundTrip | backend/model_download_service.py:378 | below 100 hours the HH:MM:SS text (hours = s div 3600, minutes = (s mod 3600) div 60, seconds = s mod 60) reads back as the same number of seconds |
| DownloadService.AfterProgress | backend/model_download_service.py:360-378 | a progress report stores current, total and percentage and changes nothing else, except the speed when time has passed and the percentage is positive and the ETA only while below 100% |
| DownloadService.AfterFinish | backend/model_download_service.py:392-401 | a completion ends the download; success pins 100% and "Download complete", failure stores the message and shows "Error: " followed by it |
| DownloadService.CancellationReachesServiceAsFailure | ui/download_worker.py:90-92 | a cancelled download reaches the service as a failure with the message "Download cancelled", so the record reads "Error: Download cancelled" and then "Cancelled", and keeps the error message |
| DownloadService.AfterCancel | backend/model_download_service.py:296-298 | cancelling stops the record and shows "Cancelling...", and changes no other field |
| DownloadService.CheckModelStatus | backend/model_download_service.py:163-205 | NOT_DOWNLOADED without a path manager or for an unknown id; DOWNLOADED exactly when the integrity check passes for cosyvoice3_2512, or the directory exists for the others; ERROR exactly when a path getter or the integrity check raises; never DOWNLOADING |
| DownloadService.DownloadedIdsMembers | backend/model_download_service.py:435-441 | an id is listed exactly when it is one of the given models and its status is DOWNLOADED |
| DownloadService.ModelDownloadService.constructor | backend/model_download_service.py:75-95 | a new service has no managers, no tasks and no progress records |
| DownloadService.ModelDownloadService.SetDownloadManager | backend/model_download_service.py:144-146 | the download manager is set |
| DownloadService.ModelDownloadService.SetPathManager | backend/model_download_service.py:148-150 | the path manager is the one given |
| DownloadService.ModelDownloadService.GetModelInfo | backend/model_download_service.py:156-161 | the result is the first registry entry with the id, and it is None exactly when the id is not registered |
| DownloadService.ModelDownloadService.StartDownload | backend/model_download_service.py:207-272 | a start is accepted exactly when no task exists for the id, the id is registered and a download manager is set; a refused start changes neither map; an accepted one adds the fresh record and exactly one new running worker for that id |
| DownloadService.ModelDownloadService.CancelDownload | backend/model_download_service.py:274-305 | false without a task; otherwise the worker is cancelled and no longer running with its emitted signals unchanged, the record shows "Cancelling...", and the task stays in the map |
| DownloadService.ModelDownloadService.CleanupCache | backend/model_download_service.py:443-453 | false without a download manager; otherwise true exactly when the manager's clean-up call did not raise; the service's state is untouched |
| DownloadService.ModelDownloadService.DownloadProgressView | backend/model_download_service.py:307-341 | an id without a record reads as the "Not started" snapshot with zero counters; otherwise exactly the stored fields |
| DownloadService.ModelDownloadService.OnDownloadProgress | backend/model_download_service.py:356-381 | only an existing record is updated, and the report is relayed to the UI either way |
| DownloadService.ModelDownloadService.OnDownloadFinished | backend/model_download_service.py:388-410 | the record is finished as AfterFinish says, the task is removed and the outcome relayed |
| DownloadService.ModelDownloadService.OnDownloadStatusUpdate | backend/model_download_service.py:420-428 | only an existing record's status text changes, and the status is relayed |
| DownloadService.ModelDownloadService.GetDownloadedModels | backend/model_download_service.py:435-441 | the registry ids whose status is DOWNLOADED, in registry order |
| DownloadService.AtMostOneDownloadPerModel | backend/model_download_service.py:219-221 | a second start for the same id is refused while the first runs, still refused after a cancel, and accepted once the worker has reported completion |
| DownloadService.StartWithoutManager | backend/model_download_service.py:229-232 | without a download manager nothing starts and the id still reads as "Not started" |
| DownloadWorker.ModelTypeOf | ui/download_worker.py:70-81 | exactly the six known model ids map to a model type |
| DownloadWorker.ModelTypeOfInjective | ui/download_worker.py:70-77 | no two ids share a model type |
| DownloadWorker.TruncDiv | ui/download_worker.py:49 | int() of a quotient with a positive divisor truncates toward zero: the floor for a non-negative dividend, minus the floor of the negation otherwise |
| DownloadWorker.Percentage | ui/download_worker.py:48-51 | 0 when total is not positive; otherwise current·100/total rounded down for a non-negative current, and between 0 and 100 while current does not exceed total |
| DownloadWorker.Round | ui/download_worker.py:150-177 | one round: cancel/stop land first; the loop ends as completed exactly when the transfer finished, as cancelled exactly when the flag is then set, with an error exactly when the status query raised; the callback's refusal ends the loop exactly when a report is reached (a status came back whose value grew past the last one, or every tenth poll) with the worker stopped; a report reached with the worker running ends the loop with the progress emit's `TypeError` exactly in the program as written, and is forwarded (the two progress signals appended, the last value updated) exactly in the corrected program (see ## Findings); otherwise nothing is emitted and the last value is kept |
| DownloadWorker.RunLoop | ui/download_worker.py:146-177 | the polling loop runs rounds until one ends it and never goes past 600 polls; it exits on completion only when the transfer reports complete, on cancellation only with the flag set, at the limit only after 600 polls, on a refused callback only with the worker stopped, and on the emit's `TypeError` only in the program as written; signals are only appended |
| DownloadWorker.AsWrittenProgressRaises | ui/download_worker.py:13-60 | as written, the loop never emits a progress signal; it ends with the emit's `TypeError` exactly when the corrected loop would have forwarded a report, and the run then ends with finished(false, <error text>) and "Error: <error text>" |
| DownloadWorker.LoopOutcome | ui/download_worker.py:179-197 | the loop's result is a raise, carrying the error's text, exactly when reading the status or emitting progress raised, and true exactly when the loop neither raised nor was stopped by the callback, the worker is not cancelled and the transfer succeeded |
| DownloadWorker.FinalReport | ui/download_worker.py:90-98 | cancellation beats success and reports (false, "Download cancelled"); otherwise success reports (true, "") and failure (false, "Download failed") |
| DownloadWorker.FinalSignals | ui/download_worker.py:84-103 | exactly two signals, a finished report then a status line; success exactly when the transfer returned true and the worker is not cancelled; a raise reports its message and "Error: <message>"; cancellation reports "Download cancelled" and "Cancelled"; success "" and "Download complete"; failure "Download failed" twice |
| DownloadWorker.ModelDownloadWorker.constructor | ui/download_worker.py:25-33 | a new worker is running, not cancelled, and has emitted nothing |
| DownloadWorker.ModelDownloadWorker.Cancel | ui/download_worker.py:199-203 | sets the cancellation flag and clears the running flag |
| DownloadWorker.ModelDownloadWorker.Stop | ui/download_worker.py:205-207 | clears only the running flag |
| DownloadWorker.ModelDownloadWorker.ProgressCallback | ui/download_worker.py:44-63 | returns false and emits nothing once cancelled or stopped; otherwise, as written, raises the progress emit's `TypeError` having emitted nothing, and in the corrected program emits the progress and size signals and returns true |
| DownloadWorker.ModelDownloadWorker.PollRound | ui/download_worker.py:150-177 | one pass of the loop body leaves the flags, signals, poll count and last value exactly as Round describes and returns its exit, for the program as written and the corrected one |
| DownloadWorker.ModelDownloadWorker.DownloadWithProgress | ui/download_worker.py:105-197 | announces "Connecting to server...", then ends in the state RunLoop describes, after at most 600 polls; the result is true only when not cancelled and the transfer succeeded |
| DownloadWorker.ModelDownloadWorker.Run | ui/download_worker.py:35-103 | announces "Initializing download..."; an unknown id ends as a failure with "Unknown model type: <id>"; for a known id the final flags and signals are exactly those of the polling loop started after "Connecting to server...", followed by FinalSignals of the loop's outcome, so success is reported exactly when the loop neither raised nor was refused, the worker is not cancelled and the transfer succeeded; as written, any forwarded report makes the loop raise (see ## Findings) |
| DownloadWorker.CancelAtFirstCheck | ui/download_worker.py:150 | a cancellation that arrives before the first check ends the loop before any status is polled, emitting nothing |
| DownloadWorker.StoppedWorkerStopsAtFirstReport | ui/download_worker.py:163-167 | a stopped worker whose polled progress has grown forwards nothing and the loop returns false |
| ModelCard.BarValue | ui/model_card_widget.py:209-292 | the bar is empty when not downloaded, full when downloaded, and shows the given progress while downloading or in error |
| ModelCard.Prefix | ui/model_card_widget.py:292 | s[:n]: exactly the first n characters of s when s is longer, all of s otherwise |
| ModelCard.ProgressLabel | ui/model_card_widget.py:209-292 | "<progress>%" while downloading, "COMPLETE" when downloaded, empty when not downloaded, and in error the first 30 characters of the message, or "FAILED" when it is empty |
| ModelCard.ModelCardWidget.constructor | ui/model_card_widget.py:27-37 | a new card keeps its id, name, size and description, starts NOT_DOWNLOADED with progress 0, and shows what that status shows |
| ModelCard.ModelCardWidget.OnDownloadClicked | ui/model_card_widget.py:187-194 | the button emits cancel exactly when DOWNLOADING, delete exactly when DOWNLOADED, and download otherwise, ERROR included |
| ModelCard.ModelCardWidget.UpdateStatus | ui/model_card_widget.py:196-292 | the given status and progress are always stored, and the label, button caption (DOWNLOAD / CANCEL / DELETE / RETRY), bar and progress text follow the status |
| ModelCard.ButtonNamesClick | ui/model_card_widget.py:187-292 | on a card whose widgets follow its status, the caption CANCEL means a click cancels, DELETE that it deletes, and DOWNLOAD or RETRY that it starts a download |
| Config.PyEqReflexive | backend/config_manager.py:96-108 | Python equality, as the membership checks use it, holds between a value and itself |
| Config.NamedFields | backend/config_manager.py:33-70 | the seven validated positions carry the attribute names they stand for |
| Config.With | backend/config_manager.py:385 | setting one attribute changes that field only |
| Config.NamesDistinct | backend/config_manager.py:29-76 | no two of the 30 dataclass fields share a name |
| Config.FindFrom | backend/config_manager.py:87 | the first position from the start point holding the name, or none when no later position holds it |
| Config.FieldNamed | backend/config_manager.py:87 | a name resolves to the field carrying it, and to nothing when no field carries it |
| Config.FieldNamedExactly | backend/config_manager.py:87 | a name resolves to a field exactly when it is that field's name |
| Config.FromDict | backend/config_manager.py:84-89 | a field named in the dictionary takes the dictionary's value, any other field its default, and other keys are dropped |
| Config.Zip | backend/config_manager.py:78-81 | the keys of the built dictionary are exactly the given field names |
| Config.ZipEntry | backend/config_manager.py:78-81 | with distinct names every name maps to its own value |
| Config.ToDictEntries | backend/config_manager.py:78-81 | to_dict has exactly the field names as keys, each mapped to its field's value |
| Config.FromDictToDict | backend/config_manager.py:78-89 | from_dict(to_dict(c)) == c |
| Config.MembershipIssues | backend/config_manager.py:95-109 | the four membership checks report in check order, each at most once |
| Config.RangeIssues | backend/config_manager.py:111-119 | the pitch shift is reported exactly when outside [0, 12], and each concurrency limit exactly when below 1, in check order |
| Config.Validate | backend/config_manager.py:91-121 | validation raises (None) exactly when a range-checked field is not a number |
| Config.MembershipReportsApplicable | backend/config_manager.py:95-109 | a membership issue is reported exactly when its rule is broken: sample rate outside the six rates, device, quality or log level outside its list |
| Config.ValidateReportsApplicable | backend/config_manager.py:91-121 | validate() reports exactly the issues whose rule is broken |
| Config.ValidateAcceptsExactlyWellFormed | backend/config_manager.py:91-121 | validate() returns no errors if and only if every rule holds, stated independently of the checking code |
| Config.ValidateInCheckOrder | backend/config_manager.py:91-121 | errors come out in the order the checks run, each at most once |
| Config.SampleRateCheck | backend/config_manager.py:96 | list membership with Python equality is "a number equal to one of the six rates" |
| Config.StringCheck | backend/config_manager.py:100-108 | against a list of strings, Python equality is plain membership |
| Config.DefaultsAreValid | backend/config_manager.py:33-76 | the built-in defaults pass validation |
| ConfigManagement.EnvValue | backend/config_manager.py:261-265 | an environment value is taken as text, except enable_vllm, which becomes true exactly when its lower-cased text is true, 1, yes or on |
| ConfigManagement.EnvOverrides | backend/config_manager.py:259-268 | only the variables that are set contribute, each under its configuration key |
| ConfigManagement.EnvOverridesEntry | backend/config_manager.py:259-265 | a set variable contributes its own converted value |
| ConfigManagement.EnvMappingsDistinct | backend/config_manager.py:251-257 | the five environment variables map to five different keys |
| ConfigManagement.DefaultLayer | backend/config_manager.py:214-229 | the default file's entries when it loads, otherwise the built-in defaults as a dictionary |
| ConfigManagement.UserLayer | backend/config_manager.py:231-244 | the user file's entries when it loads, otherwise nothing |
| ConfigManagement.LoadConfig | backend/config_manager.py:185-203 | each field comes from the environment if set there, else from the user file, else from the default layer, else its built-in default |
| ConfigManagement.LoadWithoutSources | backend/config_manager.py:185-203 | with no files and no environment the loaded configuration is the built-in default |
| ConfigManagement.EnvironmentWins | backend/config_manager.py:196-200 | a set COSYVOICE_DEVICE decides the device, whatever the files say |
| ConfigManagement.ChangedFrom | backend/config_manager.py:330-332 | the keys from a position on whose values differ, in key order |
| ConfigManagement.NothingChangedFrom | backend/config_manager.py:330-332 | nothing differs between a list of values and itself |
| ConfigManagement.ChangedKeys | backend/config_manager.py:324-334 | a field name is listed exactly when its two values differ, and the list follows the field order |
| ConfigManagement.NoChangesFromItself | backend/config_manager.py:324-334 | a configuration has no changed keys against itself |
| ConfigManagement.UpdateChanges | backend/config_manager.py:406-415 | every key recorded as changed names a field |
| ConfigManagement.LastValueFor | backend/config_manager.py:408-411 | there is no last value for a name exactly when no update names it |
| ConfigManagement.ApplyUpdatesResult | backend/config_manager.py:408-416 | after the updates each field holds the value of the last update naming it, or its old value |
| ConfigManagement.LastChangeContribution | backend/config_manager.py:408-413 | with distinct keys, the last update is recorded exactly when it changes its field from the original value |
| ConfigManagement.UpdateChangesExactly | backend/config_manager.py:406-415 | for a dictionary of updates, a key is recorded as changed exactly when it names a field and its value differs from that field's original value |
| ConfigManagement.NotifyAll | backend/config_manager.py:348-352 | one notification per observer, in registration order, each with the changed keys |
| ConfigManagement.RemoveFirst | backend/config_manager.py:345 | list.remove drops exactly one occurrence of a present element and leaves the list unchanged otherwise |
| ConfigManagement.RemoveFirstCutsOne | backend/config_manager.py:345 | removal cuts out one position holding the element and keeps the order of the rest |
| ConfigManagement.UniqueRemoved | backend/config_manager.py:336-346 | in a duplicate-free observer list, unregistering removes the observer entirely and keeps the list duplicate-free |
| ConfigManagement.ConfigManager.constructor | backend/config_manager.py:155-183 | a new manager holds the layered configuration and has no observers |
| ConfigManagement.ConfigManager.RegisterObserver | backend/config_manager.py:336-340 | an observer is appended unless already present, so the list never has duplicates |
| ConfigManagement.ConfigManager.UnregisterObserver | backend/config_manager.py:342-346 | an observer is removed when present, and is absent afterwards |
| ConfigManagement.ConfigManager.Get | backend/config_manager.py:363-368 | the field's value, or the default for an unknown key or a missing configuration |
| ConfigManagement.ConfigManager.Set | backend/config_manager.py:370-397 | false and no change for an unknown key or a missing configuration; otherwise only that field is stored, and observers hear of that key only when asked to and the value changed |
| ConfigManagement.ConfigManager.Update | backend/config_manager.py:399-436 | every known key is applied in order and unknown ones are skipped; the result is true exactly when validation then passes, the applied values stay even when it fails, and observers hear only of changed keys, only on success |
| ConfigManagement.UpdateStoresEachValue | backend/config_manager.py:408-411 | each field named in a dictionary of updates ends with its new value, whether or not validation passes |
| ConfigManagement.LastIsOnly | backend/config_manager.py:408 | in a dictionary the last update under a name is its only one |
| Version.ParseComponent | backend/version_service.py:142-143 | a component parses exactly when it is a non-empty digit string |
| Version.ParseParts | backend/version_service.py:142-143 | the list parses exactly when every component does, and then holds each component's number in order |
| Version.PadZeros | backend/version_service.py:145-148 | padding keeps the parts as a prefix, reaches the longer length, and adds only zeros |
| Version.CompareVersions | backend/version_service.py:139-154 | an update is reported only when both versions parse; any unparsable component makes the answer false |
| Version.ListGreaterMeaning | backend/version_service.py:150 | on lists of equal length Python's > holds exactly when the lists agree up to a position where the left one is larger |
| Version.ListGreaterIrreflexive | backend/version_service.py:150 | no list is greater than itself |
| Version.ListGreaterAsymmetric | backend/version_service.py:150 | two lists are never each greater than the other |
| Version.CompareVersionsMeaning | backend/version_service.py:139-154 | the update flag holds exactly when both versions parse and, after zero padding, agree up to a component where latest is larger |
| Version.SameVersionNoUpdate | backend/version_service.py:146-150 | the same version never reports an update |
| Version.CompareVersionsAsymmetric | backend/version_service.py:139-154 | if latest is newer than current, current is not newer than latest |
| Version.TrailingZeroNoUpdate | backend/version_service.py:146-150 | versions that differ only by a trailing ".0" ("1.0" against "1.0.0") report no update in either direction |
| Version.VersionText | backend/version_service.py:142 | the dotted text of a non-empty list is not empty |
| Version.ParseVersionText | backend/version_service.py:142-143 | parsing the dotted text of any non-empty list of numbers gives the list back |
| Version.ParseComponentOfNat | backend/version_service.py:142 | int(str(n)) == n |
| Version.NoUpdateInfo | backend/version_service.py:156-164 | no update, the latest version is the current one, and the URL and notes are empty |
| Version.StripV | backend/version_service.py:127-128 | exactly one leading 'v' is dropped, and a tag without one is unchanged |
| Version.FetchedVersion | backend/version_service.py:114-137 | a failed request gives no version; otherwise the tag without its 'v' |
| Version.CheckForUpdates | backend/version_service.py:76-112 | the no-update answer without an owner or repository or without a fetched version; otherwise the fetched version, the comparison's flag, the releases/latest URL and the fixed notes text |
| Version.UpdateOffersNewerVersion | backend/version_service.py:97-108 | an update is offered only for a version that parses, differs from the current one and is not older than it, with the repository's release URL |
| Cache.CacheDirectories | backend/cache_manager.py:96-129 | five directories in scan order, Logs, Temp, Download Cache, Generated Audio and ModelScope Cache, each at the path the path manager reports |
| Cache.OnlyGeneratedAudioKept | backend/cache_manager.py:96-129 | of the five, only "Generated Audio" is not clearable, and the names are distinct |
| Cache.CountedFilesBound | backend/cache_manager.py:200-210 | every walked entry is counted at most once, and all are counted exactly when each is a regular file whose size can be read |
| Cache.CountedSizeOfUnmeasurable | backend/cache_manager.py:204-210 | entries that are not regular files or cannot be read add nothing |
| Cache.DirectorySize | backend/cache_manager.py:186-215 | the size is the sum of the measurable files' sizes and the count their number |
| Cache.InfoOf | backend/cache_manager.py:160-171 | the recorded entry keeps the directory's name, path, flag and description, with its measured size, file count and formatted size |
| Cache.ScanItems | backend/cache_manager.py:147-173 | only existing directories are listed, at most one per configured directory, all of them when all exist and none when none do |
| Cache.ExistingIndices | backend/cache_manager.py:147-157 | the positions of the configured directories whose path exists: each position is in range and exists, every existing one is listed, and the positions strictly increase |
| Cache.ScanItemsAreExistingInOrder | backend/cache_manager.py:147-173 | the scan's k-th item is the entry of the k-th existing directory, so it lists exactly the existing directories, once each and in configuration order |
| Cache.ScanTurn | backend/cache_manager.py:152-175 | one turn of the scan loop: a missing directory leaves the items and totals unchanged; an existing one appends its entry, measured by the directory-size walk and formatted by _format_size, and adds its size and file count to the totals |
| Cache.ScanDirectories | backend/cache_manager.py:147-175 | the items are the existing directories in configuration order; the totals are the sums of the items' sizes and file counts; the callback receives (i+1, total) for every configured directory, skipped ones included |
| Cache.ScanCache | backend/cache_manager.py:131-180 | the summary holds the scanned items, their summed totals and the formatted total size |
| Cache.FindCache | backend/cache_manager.py:232-236 | the first configured directory with the name, or none when no directory has it |
| Cache.ClearCache | backend/cache_manager.py:217-267 | for the first entry with the name: false exactly when it is unknown or not clearable; true without deleting anything exactly when its path does not exist; for an existing path, true exactly when recreating the directory succeeds (failures to delete single entries are only logged and do not change the result) |
| Cache.ClearCacheMessages | backend/cache_manager.py:248-249 | the callback hears "Clearing <name>..." once, exactly when the cache is known and clearable |
| Cache.GeneratedAudioNeverCleared | backend/cache_manager.py:117-244 | with the configured directories, clearing "Generated Audio" is always refused |
| Cache.Attempted | backend/cache_manager.py:295-300 | no more entries are attempted than configured |
| Cache.AttemptedMembers | backend/cache_manager.py:298-300 | exactly the clearable, non-excluded entries are attempted |
| Cache.NoneExcluded | backend/cache_manager.py:292-300 | when no clearable name is excluded, no clearable entry is left out |
| Cache.AttemptedCount | backend/cache_manager.py:292-305 | the callback's total counts every clearable entry, excluded ones included, so current ends at total exactly when no clearable entry is excluded |
| Cache.SuccessCount | backend/cache_manager.py:308-311 | no more successes than attempts |
| Cache.ClearAllProgress | backend/cache_manager.py:302-305 | one callback call per attempted entry |
| Cache.ClearTurn | backend/cache_manager.py:295-311 | one turn of the loop: an entry that is not clearable or is excluded is skipped with nothing changed; otherwise the callback hears its message, number and total, and one success or one failure is counted |
| Cache.ClearAllCache | backend/cache_manager.py:269-318 | the successes are the attempted entries that clear, success_count + failed_count equals the number attempted, and the callback hears (message, i, total) for the i-th attempted entry with total the clearable count |
| SizeFormat.Pow1024 | backend/cache_manager.py:347-349 | every power of 1024 is at least 1 |
| SizeFormat.UnitIndex | backend/cache_manager.py:343-349 | the unit the dividing loop stops at is the largest index up to TB whose power of 1024 does not exceed the size |
| SizeFormat.UnitIndexUnique | backend/cache_manager.py:343-349 | any index k with 1024^k <= n < 1024^(k+1), or k at TB, is that unit |
| SizeFormat.FormatSize | backend/cache_manager.py:338-351 | _format_size, written identically in the system information service (backend/system_info_service.py:356-369): "0 B" exactly for 0; otherwise the size divided by 1024 once per unit step, with the unit the loop stops at |
| SizeFormat.ScaledValueRange | backend/cache_manager.py:347-351 | a non-zero size is shown as at least 1 of its unit, and below 1024 unless the unit is TB |
| Statistics.Keys | backend/statistics_service.py:39 | one model id per stored count, in insertion order |
| Statistics.CountOf | backend/statistics_service.py:223-225 | a model has a positive count only when it has an entry |
| Statistics.Increment | backend/statistics_service.py:222-225 | counting a use either keeps the number of entries or appends the new id with count 1 |
| Statistics.IncrementCounts | backend/statistics_service.py:223-225 | the model's count grows by exactly one, starting from 0, and no other count changes |
| Statistics.IncrementTotal | backend/statistics_service.py:223-225 | the sum of all counts grows by exactly one |
| Statistics.IncrementKeys | backend/statistics_service.py:223-224 | a known id keeps its place and a new one is appended at the end |
| Statistics.IncrementKeepsDistinct | backend/statistics_service.py:223-225 | the model ids stay distinct |
| Statistics.FirstMaxIndex | backend/statistics_service.py:267 | the first entry holding the largest count |
| Statistics.MostUsedModel | backend/statistics_service.py:265-267 | "None" when there are no counts; otherwise a model with a maximal count, the first such in insertion order |
| Statistics.FirstWord | backend/statistics_service.py:156 | s.split()[0]: none exactly when the text is all whitespace; otherwise a non-empty word without whitespace that stands right after the leading whitespace and is followed by whitespace or the end of the text |
| Statistics.WordPrefix | backend/statistics_service.py:156 | the longest whitespace-free prefix of the text: whitespace or the end follows it |
| Statistics.DaysInMonth | backend/statistics_service.py:155-157 | 28 to 31 days; February has 29 exactly in leap years |
| Statistics.MonthField | backend/statistics_service.py:155-157 | a month strptime's %m accepts lies in 1 to 12 |
| Statistics.MonthFieldExactly | backend/statistics_service.py:155-157 | %m reads m exactly from m's decimal text, zero-padded or not, for m in 1 to 12 |
| Statistics.DayField | backend/statistics_service.py:155-157 | a day strptime's %d accepts lies in 1 to 31 |
| Statistics.DayFieldExactly | backend/statistics_service.py:155-157 | %d reads d exactly from d's decimal text, zero-padded or not, or a single digit after a space, for d in 1 to 31 |
| Statistics.YearField | backend/statistics_service.py:155-157 | four digits read as a year from 0 to 9999 |
| Statistics.YearFieldOfPad4 | backend/statistics_service.py:155-158 | a year written with four zero-padded digits reads back unchanged |
| Statistics.ParseDate | backend/statistics_service.py:155-157 | strptime with "%Y-%m-%d" yields only dates that exist: a year from 1 to 9999, a month from 1 to 12, and a day within that month |
| Statistics.Pad4 | backend/statistics_service.py:158 | four digits |
| Statistics.RenderDate | backend/statistics_service.py:158 | strftime("%Y-%m-%d") has the shape of four digits, '-', two digits, '-', two digits |
| Statistics.ParseRenderDate | backend/statistics_service.py:155-158 | a date rendered with "%Y-%m-%d" parses back to the same date |
| Statistics.LaunchDay | backend/statistics_service.py:155-158 | the first word of the stored launch time, parsed with strptime and re-rendered as "%Y-%m-%d", has that shape |
| Statistics.LaunchDayIdempotent | backend/statistics_service.py:155-158 | re-reading a date this yields gives that date again, so unpadded and padded spellings of one day compare equal after it |
| Statistics.FirstWordOfWord | backend/statistics_service.py:156 | a word without whitespace is its own first word |
| Statistics.DateTextIsWord | backend/statistics_service.py:146-147 | a "%Y-%m-%d" text is non-empty and has no whitespace |
| Statistics.LaunchDayOfStamp | backend/statistics_service.py:146-158 | a launch time that record_launch writes for a real date reads back as that date's "%Y-%m-%d" text |
| Statistics.WordPrefixUpTo | backend/statistics_service.py:156 | the first word ends at the first whitespace |
| Statistics.WordPrefixWhole | backend/statistics_service.py:156 | a text without whitespace is wholly its first word |
| Statistics.AverageDuration | backend/statistics_service.py:279 | "N/A" exactly when nothing has been generated; otherwise the total duration divided by the number generated |
| Statistics.Formatted | backend/statistics_service.py:240-280 | the formatted view shows the most-used model, the average, the launch count, usage days and the two launch dates |
| Statistics.StatisticsService.constructor | backend/statistics_service.py:106-121 | the statistics file's contents, or defaults when it is missing or unreadable, with no session open |
| Statistics.StatisticsService.RecordLaunch | backend/statistics_service.py:141-179 | the first launch sets the first launch date and one usage day; later launches add a day only when today's date differs from the last launch date; every launch adds one to the launch count, stamps the last launch and opens a session; generation counters stay; a last launch date that does not parse changes nothing |
| Statistics.StatisticsService.CountUsageDay | backend/statistics_service.py:154-161 | fails, changing nothing, exactly when the last launch's date does not parse; otherwise adds one usage day exactly when today's date differs from it, and changes nothing else |
| Statistics.StatisticsService.RecordShutdown | backend/statistics_service.py:181-205 | without an open session nothing happens; otherwise the session's length is added to the usage time, stored as the last session duration, and the session closes |
| Statistics.StatisticsService.RecordAudioGeneration | backend/statistics_service.py:207-233 | one more generation and its duration; the model's count grows by one only for a non-empty model id; launch and session data stay |
| Statistics.StatisticsService.GetFormattedStatistics | backend/statistics_service.py:240-280 | the formatted view of the current counters |
| Statistics.StatisticsService.GetModelUsageStats | backend/statistics_service.py:334-337 | a copy holding the same counts, which later recording cannot alter |
| Statistics.StatisticsService.ResetStatistics | backend/statistics_service.py:282-307 | on success every counter takes its default; a failing backup leaves everything as it was; the session is untouched |
| FileService.DefaultSaveName | backend/file_service.py:63-70 | the proposed save name always ends in ".wav": "voice_<timestamp>.wav" when no name is given, a ".wav" name unchanged, any other name with its extension replaced by ".wav" |
| FileService.DefaultSaveNameIdempotent | backend/file_service.py:63-70 | proposing a name from an already proposed name gives it back unchanged |
| FileService.SaveFile | backend/file_service.py:94-128 | success exactly when the source exists, the target is free or overwriting is allowed, and the copy raises nothing; the missing-source and existing-target refusals carry their messages and change no file; on success the target is added to the existing paths |
| FileService.SaveThenSaveAgain | backend/file_service.py:109-124 | after a successful save the target exists and every earlier path still exists, and saving again without overwrite is refused with "Target file already exists" |
| FileService.CleanStem | backend/file_service.py:143-144 | the cleaned stem holds only alphanumerics and "._-" |
| FileService.CandidateInjective | backend/file_service.py:146-152 | the names tried for different counter values are different |
| FileService.CandidatePathInjective | backend/file_service.py:150-151 | joined to the save directory, different counter values still give different paths |
| FileService.TriedCount | backend/file_service.py:149-152 | the first n names tried give n distinct paths |
| FileService.GenerateUniqueFilename | backend/file_service.py:130-154 | the returned name does not exist in the save directory, it is the k-th candidate for some k, and every earlier candidate exists |
| FileService.OutputFileName | backend/file_service.py:235 | the output file name ends in ".wav" |
| FileService.CreateOutputPath | backend/file_service.py:222-236 | the output path ends in ".wav" |
| FileService.OutputPathInSaveDirectory | backend/file_service.py:234-236 | for a relative prefix, the output path starts with the save directory and strips back to exactly the output file name |
| FileService.OutputPathIsWav | backend/file_service.py:234-236 | the output path's extension as os.path.splitext sees it is ".wav" |
| FileManager.SupportedAudioExtensions | backend/file_manager.py:28-30 | five extensions, each a dot followed by at least one character |
| FileManager.SafeFilename | backend/file_manager.py:32-45 | the stored name is the sanitized base name, "_", the timestamp, then the lowercased extension |
| FileManager.SafeFilenameExtension | backend/file_manager.py:35-43 | the stored name's extension is the original's extension lowercased |
| FileManager.ValidationMessage | backend/file_manager.py:52-67 | the success message is shown exactly for an accepted upload; an empty file name gets "没有选择文件" |
| FileManager.ValidateFile | backend/file_manager.py:47-67 | accepted exactly when the name is non-empty, its lowercased extension is allowed and the size is at most the limit; an empty name is rejected first, then a disallowed extension, then an oversize file |
| FileManager.SafeFilenameKeepsFormat | backend/file_manager.py:32-67 | validating the stored name gives the same outcome as validating the original name |
| FileManager.FileType | backend/file_manager.py:81 | the reported type is the extension without its dot, uppercased, and empty when there is no extension |
| FileManager.UpperOfLower | backend/file_manager.py:36-81 | uppercasing a lowercased text equals uppercasing it directly |
| FileManager.SafeFilenameKeepsFileType | backend/file_manager.py:32-81 | the stored upload reports the same file type as the original name |
| FileManager.LowerIdempotent | backend/file_manager.py:36 | lowercasing twice is lowercasing once |
| FileManager.LowerKeepsExtensionShape | backend/file_manager.py:36 | a lowercased extension is still a dot followed by a dot-free, separator-free text |
| Common.StripRoot | backend/file_manager.py:84-89 | get_relative_path, the same in the file manager and in the file service (backend/file_service.py:167-170): a path outside the root comes back unchanged; inside it, the result is a suffix of the path after the root with every leading separator removed and no separator left at its head |
| Common.StripRootOfJoined | backend/file_manager.py:86-88 | root, separators, then a relative part strips back to exactly that relative part |
| Common.NatToString | backend/version_service.py:142-143 | str(n): at least one character, all digits, no leading zero from 10 on, and one character exactly below 10 |
| Common.DigitsValueOfNatToString | backend/version_service.py:142-143 | int() of str(n) is n again |
| Common.IntToString | backend/version_service.py:142-143 | str(i): the digits of a non-negative value, or a minus sign followed by the digits of its magnitude |
| Common.Pad2 | backend/model_download_service.py:378 | the "02d" format: a zero and the digit below 10, str(n) otherwise |
| Common.Pad2Digits | backend/model_download_service.py:378 | a value below 100 renders as exactly two digits that read back as that value |
| Common.Split | backend/version_service.py:142-143 | str.split with one separator: never empty, and no part holds the separator |
| Common.JoinSplit | backend/feedback_service.py:178 | joining the parts of a split with the separator gives back the original text |
| Common.LastIndexOf | backend/file_service.py:143 | the last index of a character, or -1 exactly when it does not occur, and no occurrence after it |
| Common.LastIndexOfBelow | backend/file_service.py:143 | when no occurrence lies at or after a bound, the last index is below it |
| Common.LastIndexOfAt | backend/file_service.py:143 | an occurrence with none after it is the last index |
| Common.SplitExt | backend/file_service.py:143 | os.path.splitext: root and extension concatenate to the path, and a non-empty extension is a dot followed by a dot-free, separator-free text |
| Common.SplitExtOfStemAndExt | backend/file_manager.py:35-43 | a stem ending in neither a dot nor a separator, followed by an extension, splits back into exactly that stem and extension |
| Common.PathJoin | backend/file_service.py:236 | os.path.join of two parts: an absolute name replaces the directory, otherwise the directory, a separator if it has none at its end, then the name |
| Common.JoinPrefix | backend/file_service.py:236 | the directory part of a join ends with a separator, is empty for an empty directory, and otherwise extends the directory by at most one character |
| Common.PathJoinKeepsExtension | backend/file_service.py:236 | joining a name to a directory keeps the name's extension |
| Common.LStrip | backend/file_service.py:168 | str.lstrip: a suffix of the text whose first character is not stripped, with every removed character one of the stripped set |
| Common.LStripSeparators | backend/file_service.py:168 | separators followed by a text that does not start with one strip to exactly that text |
| Common.KeepSafeChars | backend/file_service.py:144 | the filtered name is no longer than the input and holds only alphanumerics and "._-" |
| Common.KeepSafeCharsOfSafe | backend/file_manager.py:39 | a name made only of safe characters is kept whole |
| Common.KeepSafeCharsAppend | backend/file_manager.py:39 | filtering a concatenation concatenates the filtered parts |
| Common.KeepSafeCharsOfChar | backend/file_manager.py:39 | one character is kept exactly when it is safe |
| Common.KeepSafeCharsIdempotent | backend/file_manager.py:39 | filtering twice is filtering once |
| Common.Lower | backend/file_manager.py:36 | str.lower on ASCII: same length, each character lowercased |
| Common.Upper | backend/file_manager.py:81 | str.upper on ASCII: same length, each character uppercased |
| Common.Strip | backend/system_info_service.py:182 | str.strip: the text with only whitespace removed around it, and no whitespace left at either end |
| Common.StripStart | backend/system_info_service.py:182 | a suffix of the text with only whitespace removed before it and none at its head |
| Common.StripEnd | backend/system_info_service.py:182 | a prefix of the text with only whitespace removed after it and none at its end |
| Common.StripAround | backend/system_info_service.py:182 | stripping the head and then the end leaves the middle of the text with only whitespace before and after it |
| Common.Repeat | backend/feedback_service.py:110 | "s" * n has n times the length of s |
| Common.SplitWithoutSeparator | backend/feedback_service.py:192 | a text without the separator splits into itself alone |
| Common.SplitAppend | backend/version_service.py:142-143 | splitting around one separator splits the two sides separately and concatenates the parts |
| ErrorHandling.AppErrorIsRoot | backend/error_handler.py:19-103 | every exception class of the application (those of lines 19-103 and StartupError, line 413) derives from AppError, and no other exception does |
| ErrorHandling.Classify | backend/error_handler.py:152-161 | critical exactly for the GPU-resource, memory and disk-space errors; warning exactly for the UI errors including audio generation; error for everything else, foreign exceptions included |
| ErrorHandling.ClassifyRange | backend/error_handler.py:152-161 | handling never yields the info or fatal level |
| ErrorHandling.DialogTitle | backend/error_handler.py:193-200 | one title per level, with critical and fatal sharing "严重错误" |
| ErrorHandling.DialogTitlesDistinct | backend/error_handler.py:193-200 | two levels share a title exactly when they are equal or both critical-or-fatal |
| ErrorHandling.AppErrorText | backend/error_handler.py:29-35 | str of an AppError is the message, then a "\n详情: <details>" line when details are set, then a "\n建议: <hint>" line when a hint is set; it equals the message exactly when neither is set |
| ErrorHandling.ErrorDialog | backend/error_handler.py:190-219 | the dialog has the level's title and the bare message, and a details block exactly when the exception is an AppError with details or a hint set |
| ErrorHandling.CountOne | backend/error_handler.py:167-168 | the count for the exception's type name goes up by one from its previous value or from zero; every other count and key is unchanged |
| ErrorHandling.ErrorHandler.constructor | backend/error_handler.py:132-135 | no counts and no parent window |
| ErrorHandling.ErrorHandler.SetParentWidget | backend/error_handler.py:137-139 | a parent window is set and the counts are unchanged |
| ErrorHandling.ErrorHandler.HandleException | backend/error_handler.py:141-175 | the type's count goes up by one, the signal carries str(exc) and the classified level, and a dialog for that level is shown exactly when asked for and a parent window is set |
| ErrorHandling.ErrorHandler.ShowError | backend/error_handler.py:356-369 | the "AppError" count goes up by one, the signal carries AppError's text at the error level, and the "错误" dialog with the message is shown exactly when a parent window is set, with a details block exactly when details or a hint are set |
| ErrorHandling.LogAndRaiseError | backend/error_handler.py:394-408 | the raised exception is of the given application class, derives from AppError, carries the three texts, and reads as AppError's text |
| ErrorHandling.StartupRequirementErrors | backend/error_handler.py:418-466 | one StartupError per missing package, none exactly when PyQt6, PyTorch and librosa are all installed, in that order, each with its install command and the requirements-file hint |
| ErrorHandling.ErrorHandler.GetErrorStatistics | backend/error_handler.py:221-223 | the counts as they stand |
| ErrorHandling.ErrorHandler.ResetStatistics | backend/error_handler.py:225-227 | the counts are emptied and the parent window is kept |
| ErrorHandling.CountAllCountsOccurrences | backend/error_handler.py:167-168 | after handling a sequence of exceptions, a type name has a count exactly when it occurred, and the count is the number of its occurrences |
| ErrorHandling.SafeExecute | backend/error_handler.py:278-286 | the call's value when it returns, the default when it raises |
| ErrorHandling.ErrorContext.constructor | backend/error_handler.py:331-336 | the context, dialog and reraise settings are kept together with the handler |
| ErrorHandling.ErrorContext.Exit | backend/error_handler.py:341-351 | without an exception nothing is counted and nothing is suppressed; with one its type is counted and it is suppressed exactly when reraise is off |
| ErrorHandling.HandleErrors | backend/error_handler.py:245-265 | a returned value passes through with no count; an exception is counted, then raised again when reraise is on and turned into None otherwise |
| VoiceAdapter.OrderAfter | backend/voice_generation_adapter.py:385-388 | the dictionary's key order after one more registration: the name is present, nothing else is added, the first key stays first, and keys stay distinct |
| VoiceAdapter.DefaultAfter | backend/voice_generation_adapter.py:391-393 | a default is always set afterwards, and an existing default is never replaced |
| VoiceAdapter.RegisterAllFirstIsDefault | backend/voice_generation_adapter.py:385-394 | after any sequence of registrations the default is the first name registered, which heads the key order, and the keys are exactly the names registered, each once |
| VoiceAdapter.VoiceAdapterFactory.constructor | backend/voice_generation_adapter.py:380-381 | no adapters and no default |
| VoiceAdapter.VoiceAdapterFactory.RegisterAdapter | backend/voice_generation_adapter.py:385-394 | the adapter is stored under its name, replacing an earlier one; the first name registered becomes the default; the registry invariant is kept |
| VoiceAdapter.VoiceAdapterFactory.GetAdapter | backend/voice_generation_adapter.py:397-420 | a named lookup succeeds exactly when the name is registered; an unnamed one succeeds exactly when a default is set and registered; each returns the stored adapter |
| VoiceAdapter.VoiceAdapterFactory.GetAvailableAdapters | backend/voice_generation_adapter.py:449-452 | each registered name once, and the first of them is the default |
| VoiceAdapter.VoiceAdapterFactory.CreateBestAdapter | backend/voice_generation_adapter.py:423-446 | the returned adapter is available; the CosyVoice adapter is registered as "cosyvoice" when the service is available, the mock adapter as "mock" otherwise |
| VoiceAdapter.DefaultAlwaysResolves | backend/voice_generation_adapter.py:407-420 | once something is registered, asking for the default returns the first adapter registered |
| VoiceAdapter.PreprocessAudio | backend/voice_generation_adapter.py:232-248 | the reference audio is used unchanged and reported as preprocessed |
| VoiceAdapter.PostprocessAudio | backend/voice_generation_adapter.py:250-280 | a zero shift returns the clip unchanged and successfully; otherwise success exactly when the pitch shift succeeds, with its output path, and every failure returns the original path |
| VoiceAdapter.ReferenceForService | backend/voice_generation_adapter.py:159-167 | the service always receives the request's own reference audio |
| VoiceAdapter.Generate | backend/voice_generation_adapter.py:143-230 | "CosyVoice服务不可用" when the service is unavailable; success exactly when available and the clone succeeds; the metadata records preprocessing and whether the pitch was shifted; the output is the clone's clip, or the shifted one when shifting runs; a failed clone reports its message or "生成失败", a raised one its text |
| VoiceAdapter.PitchFailureKeepsClip | backend/voice_generation_adapter.py:185-193 | a failed pitch shift still succeeds, with the unshifted clip |
| VoiceAdapter.MockGenerate | backend/voice_generation_adapter.py:323-366 | success exactly when the placeholder file is written, with the temporary path and a 5-second, 24000 Hz metadata record; otherwise the write error's text |
| GenerationWorker.Effective | ui/audio_generation_worker.py:37-38 | a worker cancelled before it starts sees the flag set at every read |
| GenerationWorker.PreprocessReference | ui/audio_generation_worker.py:167-188 | the adapter's preprocessed path when it reports success, the original reference in every other case, a raised exception included |
| GenerationWorker.ProgressSignal | ui/audio_generation_worker.py:264-268 | one progress signal exactly when the percentage lies in 0..100, carrying that percentage and text |
| GenerationWorker.LoopProgress | ui/audio_generation_worker.py:222-226 | the loop's j-th signal is progress 40 + 5j with the text "Generating audio... <p>%" |
| GenerationWorker.LoopIterations | ui/audio_generation_worker.py:222-224 | the loop runs all nine steps exactly when the flag is still clear at its last read, and otherwise stops at the first read that sees it set |
| GenerationWorker.GeneratedOutput | ui/audio_generation_worker.py:190-246 | an output path only when the request can be built, the loop ran to the end and the adapter succeeded with a non-empty path, which is the one returned |
| GenerationWorker.RunSignalsWellFormed | ui/audio_generation_worker.py:42-119 | every run starts with the started signal and then emits progress percentages that never decrease, from 10 up to at most 100, ending in exactly one finished or error signal |
| GenerationWorker.LoadStageWellFormed | ui/audio_generation_worker.py:59-119 | what follows the 20% signal rises from 20 on and ends in exactly one finished or error signal |
| GenerationWorker.PreprocessStageWellFormed | ui/audio_generation_worker.py:71-119 | what follows the 30% signal rises from 40 on and ends in exactly one finished or error signal |
| GenerationWorker.GenerationStageWellFormed | ui/audio_generation_worker.py:83-119 | the run from the 40% signal on rises from 40 and ends in exactly one finished or error signal |
| GenerationWorker.LoopProgressInOrder | ui/audio_generation_worker.py:222-226 | the loop's signals rise from 40 to at most 80 and none ends the run |
| GenerationWorker.OutputStageWellFormed | ui/audio_generation_worker.py:95-114 | what follows generation rises from 90 and ends in exactly one finished or error signal |
| GenerationWorker.PrependToTail | ui/audio_generation_worker.py:42-119 | non-terminal rising signals placed before a well-formed tail keep the run well formed |
| GenerationWorker.LastOfRun | ui/audio_generation_worker.py:42-114 | the error a run ends with is that of the first failing check in source order: invalid input, cancellation, no adapter, cancellation, no reference, cancellation, then the generation and output checks |
| GenerationWorker.RunFinishesIff | ui/audio_generation_worker.py:42-115 | with a request that can be built, a run finishes exactly when every stage succeeds, the adapter returns an existing non-empty path and no cancellation is seen, and the finished signal carries that path |
| GenerationWorker.CancelErrorOnlyWhenCancelled | ui/audio_generation_worker.py:55-108 | "Generation cancelled" is reported only when the user cancelled |
| GenerationWorker.CancelledBeforeStart | ui/audio_generation_worker.py:46-57 | a worker cancelled before it runs emits started, the 10% signal, then the input error or the cancellation error |
| GenerationWorker.AsWrittenNeverFinishes | ui/audio_generation_worker.py:205-246 | as written, the request construction always raises, so no run emits a finished signal |
| GenerationWorker.AsWrittenGenerationFails | ui/audio_generation_worker.py:83-93 | as written, a run that reaches generation uncancelled ends with "Audio generation failed" right after the 40% signal |
| GenerationWorker.AudioGenerationWorker.constructor | ui/audio_generation_worker.py:26-38 | the inputs are kept, the worker is running, not cancelled, and has emitted nothing |
| GenerationWorker.AudioGenerationWorker.Cancel | ui/audio_generation_worker.py:270-274 | the cancelled flag is set and the running flag cleared; nothing is emitted |
| GenerationWorker.AudioGenerationWorker.Stop | ui/audio_generation_worker.py:276-278 | only the running flag is cleared |
| GenerationWorker.AudioGenerationWorker.UpdateProgress | ui/audio_generation_worker.py:264-268 | the emitted signals grow by the progress signal for the percentage, and by nothing outside 0..100 |
| GenerationWorker.AudioGenerationWorker.ReadCancelled | ui/audio_generation_worker.py:223 | one more read of the flag, which a cancellation scheduled for this read sets first |
| GenerationWorker.AudioGenerationWorker.GenerateAudio | ui/audio_generation_worker.py:190-246 | when the request cannot be built (the program as written, see ## Findings) returns nothing and emits nothing without reading the flag; when it can, emits the loop's progress signals up to where it saw the cancellation and returns the adapter's path only when the loop ran to the end |
| GenerationWorker.AudioGenerationWorker.Run | ui/audio_generation_worker.py:42-119 | the emitted signals grow by exactly the run's signal sequence for the environment and the cancellation schedule, both for the program as written (the request cannot be built, see ## Findings) and for the corrected one |
| GenerationWorker.AudioGenerationWorker.RunValidationStage | ui/audio_generation_worker.py:48-57 | emits exactly the input check: the input error, the cancellation error, or the 20% signal followed by the load stage |
| GenerationWorker.AudioGenerationWorker.RunLoadStage | ui/audio_generation_worker.py:59-69 | emits exactly the load stage: the adapter error, the cancellation error, or the 30% signal followed by the preprocessing stage |
| GenerationWorker.AudioGenerationWorker.RunPreprocessStage | ui/audio_generation_worker.py:71-81 | emits exactly the preprocessing stage: the preprocessing error, the cancellation error, or the generation stage |
| GenerationWorker.AudioGenerationWorker.RunGenerationStage | ui/audio_generation_worker.py:83-93 | emits exactly the 40% signal, the loop's progress signals (none as written, where the request cannot be built, see ## Findings), then the output stage read after the generation step |
| GenerationWorker.AudioGenerationWorker.RunOutputStage | ui/audio_generation_worker.py:95-114 | emits exactly the generation failure or cancellation, or the 90% signal followed by the missing-file error, or the 100% signal followed by the cancellation or the finished signal, for the flag read that follows the generation step |
| SystemInformation.CpuCores | backend/system_info_service.py:205-210 | at least one core: the reported count when it is positive, 1 when there is no answer or 0 |
| SystemInformation.NvidiaGpu | backend/system_info_service.py:245-265 | the type is "NVIDIA" exactly when pynvml counts a device; the name and memory keep their defaults when asking for them raised; with no device the defaults are returned |
| SystemInformation.DetectGpu | backend/system_info_service.py:232-304 | no GPU is reported exactly when pynvml counts none, the macOS chip is not an Apple one and torch has neither CUDA nor MPS, and then the defaults come back; an NVIDIA device found by pynvml always wins |
| SystemInformation.ComputeBackend | backend/system_info_service.py:306-320 | "Not Available" exactly when torch is missing |
| SystemInformation.MemoryOf | backend/system_info_service.py:322-335 | without psutil the memory figures are "0 B" and 0 percent |
| SystemInformation.DiskOf | backend/system_info_service.py:337-354 | without psutil the disk figures are "0 B" and 0 percent |
| SystemInformation.CollectSystemInfo | backend/system_info_service.py:122-161 | a fresh record when collection raises; otherwise at least one core, memory and disk totals set, and the default GPU fields whenever no GPU is found |
| SystemInformation.FormattedGpu | backend/system_info_service.py:387 | "None" exactly when the type is "None"; otherwise the type, " - ", then the name |
| SystemInformation.FormattedInfo | backend/system_info_service.py:371-397 | the "GPU" entry reads "None" exactly when the GPU type is the text "None" (the probes' default; the empty type a failed collection leaves reads otherwise), and the "CPU" entry is the brand with the core count |
| SystemInformation.NoGpuFormatsAsNone | backend/system_info_service.py:239-304 | when no probe finds a GPU the record holds the defaults and the "GPU" entry reads "None" |
| SystemInformation.FailedCollectionGpuText | backend/system_info_service.py:159-161 | after a failed collection the empty type makes the "GPU" entry read " - " rather than "None" |
| SystemInformation.SystemInfoService.constructor | backend/system_info_service.py:82-91 | an empty cache, timestamp 0 and a 30-second lifetime |
| SystemInformation.SystemInfoService.GetSystemInfo | backend/system_info_service.py:95-120 | a cached record younger than the lifetime is returned unchanged unless a refresh is forced; otherwise a fresh collection is cached with the call's time |
| SystemInformation.SystemInfoService.GetFormattedInfo | backend/system_info_service.py:371-397 | the entries of the record get_system_info answers; a fresh cache is kept with its timestamp, otherwise it is refilled and stamped now |
| Feedback.BuildMailtoUrl | backend/feedback_service.py:180-194 | "mailto:" and the address, then a "?" and the quoted subject and body parameters that are non-empty, joined by "&"; no "?" when both are empty |
| Feedback.QueryRoundTrip | backend/feedback_service.py:184-192 | when quoting never yields "&", splitting the query on "&" gives back exactly the parameters put in |
| Feedback.Rule | backend/feedback_service.py:110 | the rule line is sixty "=" characters |
| Feedback.RepeatChar | backend/feedback_service.py:110 | every character of a repeated one-character text is that character |
| Feedback.RecentLogs | backend/feedback_service.py:166 | the last 100 lines, or all of them when there are fewer |
| Feedback.FeedbackSection | backend/feedback_service.py:116-119 | the feedback section is present exactly when the message is non-empty |
| Feedback.AppSection | backend/feedback_service.py:129-138 | the application section is present exactly when reading the configuration did not raise |
| Feedback.StatLines | backend/feedback_service.py:148-149 | one line per statistics entry, in order |
| Feedback.StatsSection | backend/feedback_service.py:141-152 | the statistics section is present exactly when asked for and the statistics were obtained |
| Feedback.LogSection | backend/feedback_service.py:155-170 | the log section is present exactly when asked for and the log file exists; a readable file gives the heading, the last 100 lines joined, and a blank line |
| Feedback.BodyPartsAroundMiddle | backend/feedback_service.py:109-176 | the body is the four header lines, the sections, then the five footer lines |
| Feedback.AppendStatistics | backend/feedback_service.py:147-150 | the lines appended are the heading, one line per entry and a blank line |
| Feedback.BuildEmailBody | backend/feedback_service.py:99-178 | the body is the sections' lines in order, joined with newlines |
| Feedback.BodyLayout | backend/feedback_service.py:109-176 | the body has at least 14 lines, begins with the header and ends with the footer, and its fifth line is "Feedback:" exactly when there is a message, followed by the message |
| Feedback.FeedbackService.constructor | backend/feedback_service.py:36-44 | the feedback address is set |
| Feedback.FeedbackService.SendFeedback | backend/feedback_service.py:48-97 | true exactly when neither building the mail nor `webbrowser.open` raised, whatever `webbrowser.open` returns (lines 206-209 discard it); the URL handed over addresses the feedback address with the subject, or the default subject when none is given |

## Left out

- Qt signals, slots and threads. Emitted signals are recorded as sequences of values. Each worker runs sequentially, and the other thread is described by when its flag changes become visible.
- Locks and the double-checked singletons (`__new__`, and the `get_*_service`, `get_error_handler`, `setup_error_handler` and `get_voice_adapter` accessors). Each service is an explicitly constructed object.
- The download manager and the path manager are not part of this model. The actual transfer, its status query, the model directories and the integrity check of `cosyvoice3_2512` are inputs.
- `ModelDownloadService.get_available_models` is not modelled: it returns the registry unchanged. What the download manager's `cleanup_incomplete_downloads` removes is not part of this model; `CleanupCache` keeps only whether that call raised.
- Floating-point text: the "%.2f MB/s" speed text (the model keeps bytes and elapsed time), the worker's "%.1fMB / %.1fMB" status line, "%.2f" size strings (the scaled value is kept as an exact real), and the statistics hours, minutes and averages.
- More floating-point text: the system information percentages and the GPU memory in GB, the megabyte figures in the upload-size message, and `generation_time` of a generation result.
- DownloadWorker.Percentage: states the intended floor of current·100/total. The source computes it in floating point, which can give one less for exact multiples (29 of 100 gives 28). No IEEE arithmetic is modelled.
- Durations and clocks are whole seconds (microseconds in the download service). Dates and timestamps are strings passed in.
- File and network I/O. YAML/JSON load and save are left out: `ConfigManager.reload`, `reset_to_default`, `import_config`, `export_config` and `save_user_config`, and the statistics file's load, save and `export_statistics`. The update check's HTTP request is a parameter, as are the file copy in `save_file` and directory deletion in the cache manager; only their outcomes are modelled.
- Probing through subprocess, psutil, torch and pynvml. Their answers are probe values. CPU brand and frequency texts are taken as given, and torch raising in the middle of a branch is not modelled.
- `webbrowser.open` is a parameter: whether it raises. The boolean it returns is discarded by `_open_email_client` (backend/feedback_service.py:206-209), so whether a mail client actually opened is never observed, and send_feedback reports success without one. `urllib.parse.quote` (percent-encoding, section 2.1 of RFC 3986) is a function parameter.
- Letter classes are ASCII only: `isalnum`, `lower` and `upper` ignore other Unicode letters and digits. Whitespace is Python's full `str.isspace` set. `os.path.splitext` and `os.path.join` follow POSIX rules with "/" as the separator.
- Statistics.ParseDate: `\d` in strptime's year and day patterns also matches non-ASCII decimal digits; only the ASCII digits 0 to 9 are read.
- Statistics.RenderDate: years below 1000 are written with four zero-padded digits; whether `%Y` pads them depends on the platform's C library.
- The save dialog itself, `FileService.format_file_size` and `get_file_info`, and the fields of the file manager's `_get_file_info` other than `file_type`: they are dialogs, floating point or `os.stat`.
- ConfigManagement.ConfigManager.constructor: construction always succeeds. In the source, `__init__` validates the loaded configuration without a guard (backend/config_manager.py:205-206), so a non-numeric range field (a user file with `default_pitch_shift: "abc"`) raises `TypeError` out of the constructor. That is exactly the case where `Config.Validate` returns None.
- FileManager.ValidationMessage: the unsupported-format and too-large messages keep only their first sentence. The list of supported extensions joined with ", " and the size figures that follow are not rendered.
- Config issue message texts. An issue records the rule it breaks, not Python's rendering of the value. `hasattr` is limited to the record's fields, and `get` of a name that is not a field returns the default.
- GenerationWorker.AudioGenerationWorker.Run: the outer `except` of the worker's `run` is not modelled, since every modelled step catches its own exceptions. The two reads of the cancelled flag in one condition (ui/audio_generation_worker.py:88-89) are treated as one read.
- DownloadWorker.ProgressTypeError: the text of PyQt's `TypeError` for the rejected progress emit follows PyQt's message format; only that it is one fixed text is used.
- Version.ParseComponent: Python's `int()` also accepts surrounding whitespace, a leading sign, underscores between digits and non-ASCII decimal digits (" 1", "+1", "1_0"); such components are parse failures here.
- The error handler's logging, and the `show_warning` and `show_info` helpers, which only show a message box. The GPU probe at the end of `check_startup_requirements` only logs, and importing a package is a parameter (whether it is installed). `show_error` ignores its `parent` argument and uses the shared handler's parent window, modelled as the handler object it is called on.
- `CVCloneAdapter.get_service_status`, the adapters' names, and the mock adapter's delay are not modelled.
- The model manager controller (ui/model_download_controller.py) is not part of this model. That includes its "download all" check, which compares an enum with a string.
- Styling of the model card (colours and style sheets) is not modelled.

## Findings

| source | as written | input that shows it | evidently intended | confidence | as-written member | corrected member |
|---|---|---|---|---|---|---|
| ui/audio_generation_worker.py:205-216 | `_generate_audio` passes `model_type` and `language` to `GenerationRequest`, which declares neither (backend/voice_generation_adapter.py:33-45). The constructor raises `TypeError`, the except at lines 244-246 returns None, and the run ends with "Audio generation failed". | any valid input with an available adapter and no cancellation | the request is built and the adapter's output path is returned | not executed | GenerationWorker.AsWrittenNeverFinishes | GenerationWorker.RunFinishesIff |
| ui/download_worker.py:13, 58-60 | the progress signal is declared `pyqtSignal(str, int, str, int)`, but the callback emits the integer `total` in the third slot. PyQt checks the declared types on emit and raises `TypeError`, which `_download_with_progress` re-raises (lines 195-197), so `run` ends with finished(model_id, False, <error text>) and "Error: <error text>" (lines 100-103). | a download whose first status reports progress 5 of total 10 on the first poll, with the worker running | the third slot declared `int`, so the report is forwarded and the download goes on | not executed | DownloadWorker.AsWrittenProgressRaises | DownloadWorker.Round |

=== FILE: cache.dfy ===
/** The cache manager: the five configured cache directories, the scan that
    totals their sizes, and the rules for clearing one cache or all of them.
    The file system is a value: which paths exist, and for each directory the
    entries a recursive walk finds. Deleting directory contents is not
    modelled beyond its outcome. */
module Cache {
  import opened Common
  import opened SizeFormat

  datatype CacheDirectory = CacheDirectory(name: string, path: string, description: string, canClear: bool)

  /** What a recursive walk of a directory finds for one name: a regular
      file whose size can be read (Some) or not (None), or anything else. */
  datatype FileEntry = RegularFile(size: Option<nat>) | NotAFile

  /** The part of the file system the cache manager looks at. A directory
      with no entry in `walk` has no files. */
  datatype Disk = Disk(existing: set<string>, walk: map<string, seq<FileEntry>>)

  function Walk(disk: Disk, path: string): seq<FileEntry>
  {
    if path in disk.walk then disk.walk[path] else []
  }

  /** The configured directories, in scan order, given the paths the path
      manager reports for them. */
  function CacheDirectories(logPath: string, tempPath: string, downloadCachePath: string,
                            voicePath: string, modelscopeCachePath: string): (dirs: seq<CacheDirectory>)
    ensures |dirs| == 5
    ensures dirs[0].name == "Logs" && dirs[0].path == logPath
    ensures dirs[1].name == "Temp" && dirs[1].path == tempPath
    ensures dirs[2].name == "Download Cache" && dirs[2].path == downloadCachePath
    ensures dirs[3].name == "Generated Audio" && dirs[3].path == voicePath
    ensures dirs[4].name == "ModelScope Cache" && dirs[4].path == modelscopeCachePath
  {
    [ CacheDirectory("Logs", logPath, "Application log files", true),
      CacheDirectory("Temp", tempPath, "Temporary files", true),
      CacheDirectory("Download Cache", downloadCachePath, "Model download cache", true),
      CacheDirectory("Generated Audio", voicePath, "Generated audio files", false),
      CacheDirectory("ModelScope Cache", modelscopeCachePath, "ModelScope model download cache", true) ]
  }

  /** Only the generated audio is kept from clearing; the names are distinct. */
  lemma OnlyGeneratedAudioKept(a: string, b: string, c: string, d: string, e: string)
    ensures var dirs := CacheDirectories(a, b, c, d, e);
      forall i :: 0 <= i < |dirs| ==> (!dirs[i].canClear <==> dirs[i].name == "Generated Audio")
    ensures var dirs := CacheDirectories(a, b, c, d, e);
      forall i, j :: 0 <= i < j < |dirs| ==> dirs[i].name != dirs[j].name
  {
  }

  // ---------------------------------------------------------------------
  // Directory size

  predicate Measurable(e: FileEntry) { e.RegularFile? && e.size.Some? }

  /** Total size of the files the walk can measure. */
  function CountedSize(entries: seq<FileEntry>): nat
    decreases |entries|
  {
    if entries == [] then 0
    else
      var last := entries[|entries| - 1];
      CountedSize(entries[..|entries| - 1]) + (if Measurable(last) then last.size.value else 0)
  }

  /** Number of files the walk can measure. */
  function CountedFiles(entries: seq<FileEntry>): nat
    decreases |entries|
  {
    if entries == [] then 0
    else CountedFiles(entries[..|entries| - 1]) + (if Measurable(entries[|entries| - 1]) then 1 else 0)
  }

  /** Every entry is counted at most once, and all of them are counted
      exactly when every entry is a regular file whose size can be read. */
  lemma {:induction false} CountedFilesBound(entries: seq<FileEntry>)
    ensures CountedFiles(entries) <= |entries|
    ensures CountedFiles(entries) == |entries| <==> forall i :: 0 <= i < |entries| ==> Measurable(entries[i])
    decreases |entries|
  {
    if entries != [] {
      var init := entries[..|entries| - 1];
      CountedFilesBound(init);
      assert forall i :: 0 <= i < |init| ==> init[i] == entries[i];
    }
  }

  /** A walk that finds nothing measurable contributes nothing. */
  lemma {:induction false} CountedSizeOfUnmeasurable(entries: seq<FileEntry>)
    requires forall i :: 0 <= i < |entries| ==> !Measurable(entries[i])
    ensures CountedSize(entries) == 0 && CountedFiles(entries) == 0
    decreases |entries|
  {
    if entries != [] {
      CountedSizeOfUnmeasurable(entries[..|entries| - 1]);
    }
  }

  /** _calculate_directory_size over the entries of the walk. */
  method DirectorySize(entries: seq<FileEntry>) returns (totalSize: nat, fileCount: nat)
    ensures totalSize == CountedSize(entries)
    ensures fileCount == CountedFiles(entries)
  {
    totalSize, fileCount := 0, 0;
    var i := 0;
    while i < |entries|
      invariant 0 <= i <= |entries|
      invariant totalSize == CountedSize(entries[..i])
      invariant fileCount == CountedFiles(entries[..i])
    {
      assert entries[..i + 1][..i] == entries[..i];
      if Measurable(entries[i]) {
        totalSize := totalSize + entries[i].size.value;
        fileCount := fileCount + 1;
      }
      i := i + 1;
    }
    assert entries[..i] == entries;
  }

  // ---------------------------------------------------------------------
  // Scanning

  datatype CacheInfo = CacheInfo(
    path: string,
    name: string,
    sizeBytes: nat,
    sizeFormatted: SizeText,
    fileCount: nat,
    canClear: bool,
    description: string)

  datatype CacheSummary = CacheSummary(
    totalSizeBytes: nat,
    totalSizeFormatted: SizeText,
    totalFiles: nat,
    cacheItems: seq<CacheInfo>)

  /** The entry the scan records for an existing directory. */
  function InfoOf(dir: CacheDirectory, disk: Disk): (info: CacheInfo)
    ensures info.path == dir.path && info.name == dir.name
    ensures info.canClear == dir.canClear && info.description == dir.description
    ensures info.sizeBytes == CountedSize(Walk(disk, dir.path))
    ensures info.fileCount == CountedFiles(Walk(disk, dir.path))
    ensures info.sizeFormatted == SizeTextOf(info.sizeBytes)
  {
    var entries := Walk(disk, dir.path);
    CacheInfo(dir.path, dir.name, CountedSize(entries), SizeTextOf(CountedSize(entries)),
      CountedFiles(entries), dir.canClear, dir.description)
  }

  /** The directories that exist, in configuration order, each with its sizes. */
  function ScanItems(dirs: seq<CacheDirectory>, disk: Disk): (items: seq<CacheInfo>)
    ensures |items| <= |dirs|
    ensures forall k :: 0 <= k < |items| ==> items[k].path in disk.existing
    ensures (forall i :: 0 <= i < |dirs| ==> dirs[i].path in disk.existing) ==> |items| == |dirs|
    ensures (forall i :: 0 <= i < |dirs| ==> dirs[i].path !in disk.existing) ==> items == []
    decreases |dirs|
  {
    if dirs == [] then []
    else
      var init := dirs[..|dirs| - 1];
      var last := dirs[|dirs| - 1];
      assert forall i :: 0 <= i < |init| ==> init[i] == dirs[i];
      ScanItems(init, disk) + (if last.path in disk.existing then [InfoOf(last, disk)] else [])
  }

  /** The positions of the configured directories that exist, in increasing order. */
  function ExistingIndices(dirs: seq<CacheDirectory>, disk: Disk): (idx: seq<nat>)
    ensures forall k :: 0 <= k < |idx| ==> idx[k] < |dirs| && dirs[idx[k]].path in disk.existing
    ensures forall i :: 0 <= i < |dirs| && dirs[i].path in disk.existing ==> i in idx
    ensures forall k, l :: 0 <= k < l < |idx| ==> idx[k] < idx[l]
    decreases |dirs|
  {
    if dirs == [] then []
    else
      var n := |dirs| - 1;
      var init := dirs[..n];
      assert forall i :: 0 <= i < n ==> init[i] == dirs[i];
      ExistingIndices(init, disk) + (if dirs[n].path in disk.existing then [n] else [])
  }

  /** The scan lists exactly the existing directories, each once and in
      configuration order: its k-th item is the entry of the k-th existing one. */
  lemma {:induction false} ScanItemsAreExistingInOrder(dirs: seq<CacheDirectory>, disk: Disk)
    ensures |ScanItems(dirs, disk)| == |ExistingIndices(dirs, disk)|
    ensures forall k :: 0 <= k < |ScanItems(dirs, disk)| ==>
              ScanItems(dirs, disk)[k] == InfoOf(dirs[ExistingIndices(dirs, disk)[k]], disk)
    decreases |dirs|
  {
    if dirs != [] {
      var n := |dirs| - 1;
      var init := dirs[..n];
      ScanItemsAreExistingInOrder(init, disk);
      var items, pre := ScanItems(dirs, disk), ScanItems(init, disk);
      var idx, pidx := ExistingIndices(dirs, disk), ExistingIndices(init, disk);
      assert items == pre + (if dirs[n].path in disk.existing then [InfoOf(dirs[n], disk)] else []);
      assert idx == pidx + (if dirs[n].path in disk.existing then [n] else []);
      forall k | 0 <= k < |items|
        ensures items[k] == InfoOf(dirs[idx[k]], disk)
      {
        if k < |pre| {
          assert items[k] == pre[k] && idx[k] == pidx[k];
          assert init[pidx[k]] == dirs[pidx[k]];
        }
      }
    }
  }

  function SumSizes(items: seq<CacheInfo>): nat
    decreases |items|
  {
    if items == [] then 0 else SumSizes(items[..|items| - 1]) + items[|items| - 1].sizeBytes
  }

  function SumFiles(items: seq<CacheInfo>): nat
    decreases |items|
  {
    if items == [] then 0 else SumFiles(items[..|items| - 1]) + items[|items| - 1].fileCount
  }

  lemma ScanItemsStep(dirs: seq<CacheDirectory>, disk: Disk, i: nat)
    requires i < |dirs|
    ensures ScanItems(dirs[..i + 1], disk) ==
      ScanItems(dirs[..i], disk) + (if dirs[i].path in disk.existing then [InfoOf(dirs[i], disk)] else [])
  {
    assert dirs[..i + 1][..i] == dirs[..i];
  }

  lemma SumStep(items: seq<CacheInfo>, info: CacheInfo)
    ensures SumSizes(items + [info]) == SumSizes(items) + info.sizeBytes
    ensures SumFiles(items + [info]) == SumFiles(items) + info.fileCount
  {
    assert (items + [info])[..|items|] == items;
  }

  /** One turn of the scan loop: a directory that exists is measured and its
      entry appended, adding its size and file count to the totals; a
      missing one is skipped. */
  method ScanTurn(dirs: seq<CacheDirectory>, disk: Disk, i: nat,
                  items: seq<CacheInfo>, totalSize: nat, totalFiles: nat)
    returns (items': seq<CacheInfo>, totalSize': nat, totalFiles': nat)
    requires i < |dirs| && items == ScanItems(dirs[..i], disk)
    requires totalSize == SumSizes(items) && totalFiles == SumFiles(items)
    ensures items' == ScanItems(dirs[..i + 1], disk)
    ensures totalSize' == SumSizes(items') && totalFiles' == SumFiles(items')
  {
    var dir := dirs[i];
    ScanItemsStep(dirs, disk, i);
    if dir.path in disk.existing {
      var size, count := DirectorySize(Walk(disk, dir.path));
      var formatted := FormatSize(size);
      var info := CacheInfo(dir.path, dir.name, size, formatted, count, dir.canClear, dir.description);
      assert info == InfoOf(dir, disk);
      SumStep(items, info);
      items', totalSize', totalFiles' := items + [info], totalSize + size, totalFiles + count;
    } else {
      items', totalSize', totalFiles' := items, totalSize, totalFiles;
    }
  }

  /** The loop of scan_cache: visits every configured directory in order,
      reporting (i + 1, total) to the progress callback before looking at it,
      skips the missing ones, and totals the sizes and file counts of the rest. */
  method ScanDirectories(dirs: seq<CacheDirectory>, disk: Disk)
    returns (items: seq<CacheInfo>, totalSize: nat, totalFiles: nat, progress: seq<(int, int)>)
    ensures items == ScanItems(dirs, disk)
    ensures totalSize == SumSizes(items) && totalFiles == SumFiles(items)
    ensures |progress| == |dirs|
    ensures forall i :: 0 <= i < |dirs| ==> progress[i] == (i + 1, |dirs|)
  {
    items, totalSize, totalFiles := [], 0, 0;
    progress := [];
    var i := 0;
    while i < |dirs|
      invariant 0 <= i <= |dirs|
      invariant items == ScanItems(dirs[..i], disk)
      invariant totalSize == SumSizes(items) && totalFiles == SumFiles(items)
      invariant |progress| == i
      invariant forall j :: 0 <= j < i ==> progress[j] == (j + 1, |dirs|)
    {
      progress := progress + [(i + 1, |dirs|)];
      items, totalSize, totalFiles := ScanTurn(dirs, disk, i, items, totalSize, totalFiles);
      i := i + 1;
    }
    assert dirs[..i] == dirs;
  }

  /** scan_cache: the scanned items, their totals and the formatted total. */
  method ScanCache(dirs: seq<CacheDirectory>, disk: Disk) returns (summary: CacheSummary, progress: seq<(int, int)>)
    ensures summary.cacheItems == ScanItems(dirs, disk)
    ensures summary.totalSizeBytes == SumSizes(summary.cacheItems)
    ensures summary.totalFiles == SumFiles(summary.cacheItems)
    ensures summary.totalSizeFormatted == SizeTextOf(summary.totalSizeBytes)
    ensures |progress| == |dirs|
    ensures forall i :: 0 <= i < |dirs| ==> progress[i] == (i + 1, |dirs|)
  {
    var items, totalSize, totalFiles;
    items, totalSize, totalFiles, progress := ScanDirectories(dirs, disk);
    var formatted := FormatSize(totalSize);
    summary := CacheSummary(totalSize, formatted, totalFiles, items);
  }

  // ---------------------------------------------------------------------
  // Clearing one cache

  /** How clear_cache ends. */
  datatype ClearOutcome =
    | UnknownCache
    | NotClearable
    | NothingToClear       // the path does not exist: true, nothing deleted
    | Cleared(path: string)
    | RecreateFailed(path: string)

  /** The outcomes clear_cache reports as true. */
  predicate Succeeded(o: ClearOutcome) { o.NothingToClear? || o.Cleared? }

  /** The first configured directory with the given name. */
  function FindCache(dirs: seq<CacheDirectory>, name: string): (r: Option<nat>)
    ensures r.Some? ==> r.value < |dirs| && dirs[r.value].name == name
    ensures r.Some? ==> forall j :: 0 <= j < r.value ==> dirs[j].name != name
    ensures r.None? ==> forall j :: 0 <= j < |dirs| ==> dirs[j].name != name
    decreases |dirs|
  {
    if dirs == [] then None
    else if dirs[0].name == name then Some(0)
    else
      match FindCache(dirs[1..], name)
      case None => None
      case Some(k) => Some(k + 1)
  }

  /** clear_cache: `failing` holds the paths whose directory cannot be
      recreated after its contents are deleted (the one error that makes an
      existing, clearable cache report false; failures to delete single
      entries are only logged). */
  function ClearCache(dirs: seq<CacheDirectory>, disk: Disk, failing: set<string>, name: string): (o: ClearOutcome)
    ensures o == UnknownCache <==> forall j :: 0 <= j < |dirs| ==> dirs[j].name != name
    ensures o == NotClearable ==> exists j :: 0 <= j < |dirs| && dirs[j].name == name && !dirs[j].canClear
    ensures Succeeded(o) ==> exists j :: 0 <= j < |dirs| && dirs[j].name == name && dirs[j].canClear
    ensures o.Cleared? ==> o.path in disk.existing && o.path !in failing
    ensures o == NothingToClear ==> exists j :: 0 <= j < |dirs| && dirs[j].name == name && dirs[j].path !in disk.existing
    ensures o.RecreateFailed? ==> o.path in disk.existing && o.path in failing
    ensures forall k :: FindCache(dirs, name) == Some(k) ==>
              && (!dirs[k].canClear <==> o == NotClearable)
              && (dirs[k].canClear && dirs[k].path !in disk.existing <==> o == NothingToClear)
              && ((dirs[k].canClear && dirs[k].path in disk.existing && dirs[k].path !in failing)
                    <==> o == Cleared(dirs[k].path))
              && ((dirs[k].canClear && dirs[k].path in disk.existing && dirs[k].path in failing)
                    <==> o == RecreateFailed(dirs[k].path))
  {
    match FindCache(dirs, name)
    case None => UnknownCache
    case Some(k) =>
      var dir := dirs[k];
      if !dir.canClear then NotClearable
      else if dir.path !in disk.existing then NothingToClear
      else if dir.path in failing then RecreateFailed(dir.path)
      else Cleared(dir.path)
  }

  /** The progress message clear_cache and clear_all_cache report. */
  function ClearingMessage(name: string): string
  {
    "Clearing " + name + "..."
  }

  /** The messages clear_cache sends its callback: one, once the cache is
      known and clearable, before the path is looked at. */
  function ClearCacheMessages(dirs: seq<CacheDirectory>, disk: Disk, failing: set<string>, name: string): (msgs: seq<string>)
    ensures msgs == [] <==> ClearCache(dirs, disk, failing, name) in {UnknownCache, NotClearable}
    ensures msgs != [] ==> msgs == [ClearingMessage(name)]
  {
    match FindCache(dirs, name)
    case None => []
    case Some(k) => if dirs[k].canClear then [ClearingMessage(name)] else []
  }

  /** With the configured directories, the generated audio is never cleared. */
  lemma GeneratedAudioNeverCleared(a: string, b: string, c: string, d: string, e: string, disk: Disk, failing: set<string>)
    ensures ClearCache(CacheDirectories(a, b, c, d, e), disk, failing, "Generated Audio") == NotClearable
  {
    var dirs := CacheDirectories(a, b, c, d, e);
    assert dirs[0].name != "Generated Audio" && dirs[1].name != "Generated Audio" && dirs[2].name != "Generated Audio";
    assert FindCache(dirs, "Generated Audio") == Some(3);
  }

  // ---------------------------------------------------------------------
  // Clearing all caches

  /** The entries clear_all_cache attempts: clearable and not excluded. */
  function Attempted(dirs: seq<CacheDirectory>, exclude: seq<string>): (r: seq<CacheDirectory>)
    ensures |r| <= |dirs|
    decreases |dirs|
  {
    if dirs == [] then []
    else
      var init := dirs[..|dirs| - 1];
      var last := dirs[|dirs| - 1];
      Attempted(init, exclude) + (if last.canClear && last.name !in exclude then [last] else [])
  }

  /** Exactly the clearable, non-excluded entries are attempted. */
  lemma {:induction false} AttemptedMembers(dirs: seq<CacheDirectory>, exclude: seq<string>)
    ensures forall d :: d in Attempted(dirs, exclude) <==> d in dirs && d.canClear && d.name !in exclude
    decreases |dirs|
  {
    if dirs != [] {
      var init := dirs[..|dirs| - 1];
      AttemptedMembers(init, exclude);
      assert dirs == init + [dirs[|dirs| - 1]];
    }
  }

  lemma AttemptedStep(dirs: seq<CacheDirectory>, exclude: seq<string>, i: nat)
    requires i < |dirs|
    ensures dirs[i].canClear && dirs[i].name !in exclude ==>
      Attempted(dirs[..i + 1], exclude) == Attempted(dirs[..i], exclude) + [dirs[i]]
    ensures !(dirs[i].canClear && dirs[i].name !in exclude) ==>
      Attempted(dirs[..i + 1], exclude) == Attempted(dirs[..i], exclude)
  {
    assert dirs[..i + 1][..i] == dirs[..i];
  }

  /** sum(1 for config in dirs if config["can_clear"]): the total the
      clear-all callback reports, excluded entries included. */
  function ClearableCount(dirs: seq<CacheDirectory>): nat
    decreases |dirs|
  {
    if dirs == [] then 0
    else ClearableCount(dirs[..|dirs| - 1]) + (if dirs[|dirs| - 1].canClear then 1 else 0)
  }

  /** The clearable entries left out by the exclusion list. */
  function ExcludedClearable(dirs: seq<CacheDirectory>, exclude: seq<string>): nat
    decreases |dirs|
  {
    if dirs == [] then 0
    else
      var last := dirs[|dirs| - 1];
      ExcludedClearable(dirs[..|dirs| - 1], exclude) + (if last.canClear && last.name in exclude then 1 else 0)
  }

  lemma {:induction false} NoneExcluded(dirs: seq<CacheDirectory>, exclude: seq<string>)
    requires forall i :: 0 <= i < |dirs| && dirs[i].canClear ==> dirs[i].name !in exclude
    ensures ExcludedClearable(dirs, exclude) == 0
    decreases |dirs|
  {
    if dirs != [] {
      NoneExcluded(dirs[..|dirs| - 1], exclude);
    }
  }

  /** The callback's `current` ends at the clearable count minus the excluded
      clearable entries: it reaches `total` iff no clearable entry is excluded. */
  lemma {:induction false} AttemptedCount(dirs: seq<CacheDirectory>, exclude: seq<string>)
    ensures |Attempted(dirs, exclude)| + ExcludedClearable(dirs, exclude) == ClearableCount(dirs)
    ensures |Attempted(dirs, exclude)| == ClearableCount(dirs) <==>
      forall i :: 0 <= i < |dirs| && dirs[i].canClear ==> dirs[i].name !in exclude
    decreases |dirs|
  {
    if dirs != [] {
      var init := dirs[..|dirs| - 1];
      AttemptedCount(init, exclude);
      assert forall i :: 0 <= i < |init| ==> init[i] == dirs[i];
      if forall i :: 0 <= i < |init| && init[i].canClear ==> init[i].name !in exclude {
        NoneExcluded(init, exclude);
      }
    }
  }

  /** How many of the attempted entries clear successfully. */
  function SuccessCount(dirs: seq<CacheDirectory>, disk: Disk, failing: set<string>, attempted: seq<CacheDirectory>): (n: nat)
    ensures n <= |attempted|
    decreases |attempted|
  {
    if attempted == [] then 0
    else
      var last := attempted[|attempted| - 1];
      SuccessCount(dirs, disk, failing, attempted[..|attempted| - 1]) +
        (if Succeeded(ClearCache(dirs, disk, failing, last.name)) then 1 else 0)
  }

  /** The calls the clear-all callback receives for the attempted entries. */
  function ClearAllProgress(attempted: seq<CacheDirectory>, total: nat): (r: seq<(string, int, int)>)
    ensures |r| == |attempted|
  {
    seq(|attempted|, k requires 0 <= k < |attempted| => (ClearingMessage(attempted[k].name), k + 1, total))
  }

  lemma ClearAllProgressStep(attempted: seq<CacheDirectory>, dir: CacheDirectory, total: nat)
    ensures ClearAllProgress(attempted + [dir], total) ==
      ClearAllProgress(attempted, total) + [(ClearingMessage(dir.name), |attempted| + 1, total)]
  {
    var longer := ClearAllProgress(attempted + [dir], total);
    var shorter := ClearAllProgress(attempted, total);
    forall k | 0 <= k < |attempted|
      ensures longer[k] == shorter[k]
    {
      assert (attempted + [dir])[k] == attempted[k];
    }
  }

  lemma SuccessCountStep(dirs: seq<CacheDirectory>, disk: Disk, failing: set<string>,
                         attempted: seq<CacheDirectory>, dir: CacheDirectory)
    ensures SuccessCount(dirs, disk, failing, attempted + [dir]) ==
      SuccessCount(dirs, disk, failing, attempted) + (if Succeeded(ClearCache(dirs, disk, failing, dir.name)) then 1 else 0)
  {
    assert (attempted + [dir])[..|attempted|] == attempted;
  }

  /** One turn of clear_all_cache over the entry at `i`: a clearable entry
      that is not excluded is announced to the callback, cleared, and counted
      as a success or a failure; any other entry is skipped. */
  method ClearTurn(dirs: seq<CacheDirectory>, disk: Disk, failing: set<string>, exclude: seq<string>,
                   i: nat, total: nat, current: nat, ghost attempted: seq<CacheDirectory>,
                   successCount: nat, failedCount: nat, progress: seq<(string, int, int)>)
    returns (current': nat, successCount': nat, failedCount': nat, progress': seq<(string, int, int)>,
             ghost attempted': seq<CacheDirectory>)
    requires i < |dirs| && current == |attempted|
    requires attempted == Attempted(dirs[..i], exclude)
    requires successCount == SuccessCount(dirs, disk, failing, attempted)
    requires successCount + failedCount == |attempted|
    requires progress == ClearAllProgress(attempted, total)
    ensures attempted' == Attempted(dirs[..i + 1], exclude) && current' == |attempted'|
    ensures successCount' == SuccessCount(dirs, disk, failing, attempted')
    ensures successCount' + failedCount' == |attempted'|
    ensures progress' == ClearAllProgress(attempted', total)
  {
    var dir := dirs[i];
    AttemptedStep(dirs, exclude, i);
    if dir.canClear && dir.name !in exclude {
      current' := current + 1;
      ClearAllProgressStep(attempted, dir, total);
      SuccessCountStep(dirs, disk, failing, attempted, dir);
      progress' := progress + [(ClearingMessage(dir.name), current', total)];
      if Succeeded(ClearCache(dirs, disk, failing, dir.name)) {
        successCount', failedCount' := successCount + 1, failedCount;
      } else {
        successCount', failedCount' := successCount, failedCount + 1;
      }
      attempted' := attempted + [dir];
    } else {
      current', successCount', failedCount', progress', attempted' := current, successCount, failedCount, progress, attempted;
    }
  }

  /** clear_all_cache: clears every clearable, non-excluded entry in order,
      reporting (message, current, total) before each, and counts the
      successes and failures. */
  method ClearAllCache(dirs: seq<CacheDirectory>, disk: Disk, failing: set<string>, exclude: seq<string>)
    returns (successCount: nat, failedCount: nat, progress: seq<(string, int, int)>)
    ensures var attempted := Attempted(dirs, exclude);
      && successCount == SuccessCount(dirs, disk, failing, attempted)
      && successCount + failedCount == |attempted|
      && progress == ClearAllProgress(attempted, ClearableCount(dirs))
  {
    successCount, failedCount := 0, 0;
    progress := [];
    var total := ClearableCount(dirs);
    var current := 0;
    ghost var attempted: seq<CacheDirectory> := [];
    var i := 0;
    while i < |dirs|
      invariant 0 <= i <= |dirs|
      invariant attempted == Attempted(dirs[..i], exclude) && current == |attempted|
      invariant successCount == SuccessCount(dirs, disk, failing, attempted)
      invariant successCount + failedCount == |attempted|
      invariant progress == ClearAllProgress(attempted, total)
    {
      current, successCount, failedCount, progress, attempted :=
        ClearTurn(dirs, disk, failing, exclude, i, total, current, attempted, successCount, failedCount, progress);
      i := i + 1;
    }
    assert dirs[..i] == dirs;
  }
}

=== FILE: common.dfy ===
/** Shared value types and the small string operations the services rely on
    (Python's str.split / join / startswith / lstrip, os.path.splitext,
    integer formatting and parsing). Whitespace is Python's full str.isspace
    set; the letter and digit classes are ASCII only. */
module Common {

  datatype Option<T> = None | Some(value: T)

  // ---------------------------------------------------------------------
  // Decimal digits

  predicate IsDigit(c: char) { '0' <= c <= '9' }

  predicate AllDigits(s: string) { forall i :: 0 <= i < |s| ==> IsDigit(s[i]) }

  function DigitChar(d: nat): (c: char)
    requires d < 10
    ensures IsDigit(c) && (c as int) - ('0' as int) == d
  {
    (('0' as int) + d) as char
  }

  /** Python's str(n) for a non-negative integer. */
  function NatToString(n: nat): (s: string)
    ensures |s| >= 1 && AllDigits(s)
    ensures n >= 10 ==> s[0] != '0'
    ensures |s| == 1 <==> n < 10
    decreases n
  {
    if n < 10 then [DigitChar(n)] else NatToString(n / 10) + [DigitChar(n % 10)]
  }

  /** Python's str(i) for any integer: a minus sign, then the digits. */
  function IntToString(i: int): (s: string)
    ensures |s| >= 1
    ensures i >= 0 ==> s == NatToString(i)
    ensures i < 0 ==> s == "-" + NatToString(-i)
  {
    if i < 0 then "-" + NatToString(-i) else NatToString(i)
  }

  /** The value of a string of decimal digits. */
  function DigitsValue(s: string): nat
    requires AllDigits(s)
    decreases |s|
  {
    if s == [] then 0
    else DigitsValue(s[..|s| - 1]) * 10 + ((s[|s| - 1] as int) - ('0' as int))
  }

  lemma {:induction false} DigitsValueOfNatToString(n: nat)
    ensures DigitsValue(NatToString(n)) == n
    decreases n
  {
    if n >= 10 {
      var s := NatToString(n);
      assert s[..|s| - 1] == NatToString(n / 10);
      DigitsValueOfNatToString(n / 10);
    }
  }

  /** Python's f"{n:02d}": at least two characters, zero-padded, sign first. */
  function Pad2(n: int): (s: string)
    ensures 0 <= n < 10 ==> s == ['0', DigitChar(n)]
    ensures n >= 10 || n < 0 ==> s == IntToString(n)
  {
    if 0 <= n < 10 then "0" + NatToString(n) else IntToString(n)
  }

  /** Two-digit fields render as exactly two digits and read back unchanged. */
  lemma {:induction false} Pad2Digits(n: int)
    requires 0 <= n < 100
    ensures |Pad2(n)| == 2 && AllDigits(Pad2(n)) && DigitsValue(Pad2(n)) == n
  {
    var s := Pad2(n);
    if n < 10 {
      assert s[..1] == ['0'];
      assert s[..1][..0] == [];
      assert DigitsValue(s[..1]) == 0;
    } else {
      assert NatToString(n) == NatToString(n / 10) + [DigitChar(n % 10)];
      DigitsValueOfNatToString(n);
    }
  }

  // ---------------------------------------------------------------------
  // ASCII character classes and case mapping

  predicate IsAsciiLetter(c: char) { ('a' <= c <= 'z') || ('A' <= c <= 'Z') }

  predicate IsAlnum(c: char) { IsAsciiLetter(c) || IsDigit(c) }

  /** The characters str.isspace() accepts, which str.split() and str.strip()
      remove: the controls 9 to 13 and 28 to 31, the space, U+0085, the
      no-break space, the Ogham space mark, the spaces U+2000 to U+200A, the
      line and paragraph separators, the narrow no-break space, the medium
      mathematical space and the ideographic space. */
  predicate IsWhitespace(c: char)
  {
    || 9 as char <= c <= 13 as char || 28 as char <= c <= 32 as char
    || c == 0x85 as char || c == 0xA0 as char || c == 0x1680 as char
    || 0x2000 as char <= c <= 0x200A as char
    || c == 0x2028 as char || c == 0x2029 as char || c == 0x202F as char
    || c == 0x205F as char || c == 0x3000 as char
  }

  /** not s.strip(): empty or whitespace only. */
  predicate IsBlank(s: string) { forall i :: 0 <= i < |s| ==> IsWhitespace(s[i]) }

  function LowerChar(c: char): char
  {
    if 'A' <= c <= 'Z' then ((c as int) + 32) as char else c
  }

  function UpperChar(c: char): char
  {
    if 'a' <= c <= 'z' then ((c as int) - 32) as char else c
  }

  /** str.lower() restricted to ASCII letters. */
  function Lower(s: string): (r: string)
    ensures |r| == |s|
    ensures forall i :: 0 <= i < |s| ==> r[i] == LowerChar(s[i])
  {
    seq(|s|, i requires 0 <= i < |s| => LowerChar(s[i]))
  }

  /** str.upper() restricted to ASCII letters. */
  function Upper(s: string): (r: string)
    ensures |r| == |s|
    ensures forall i :: 0 <= i < |s| ==> r[i] == UpperChar(s[i])
  {
    seq(|s|, i requires 0 <= i < |s| => UpperChar(s[i]))
  }

  // ---------------------------------------------------------------------
  // Prefixes, splitting and joining

  predicate StartsWith(s: string, prefix: string)
  {
    |prefix| <= |s| && s[..|prefix|] == prefix
  }

  predicate EndsWith(s: string, suffix: string)
  {
    |suffix| <= |s| && s[|s| - |suffix|..] == suffix
  }

  /** str.lstrip(chars): drops every leading character that is in `chars`. */
  function LStrip(s: string, chars: string): (r: string)
    ensures |r| <= |s| && r == s[|s| - |r|..]
    ensures r == [] || r[0] !in chars
    ensures forall i :: 0 <= i < |s| - |r| ==> s[i] in chars
    decreases |s|
  {
    if s != [] && s[0] in chars then
      var r := LStrip(s[1..], chars);
      assert forall i :: 1 <= i < |s| - |r| ==> s[i] == s[1..][i - 1];
      r
    else s
  }

  lemma AppendAssoc<T>(a: seq<T>, b: seq<T>, c: seq<T>)
    ensures a + (b + c) == (a + b) + c
  {
  }

  /** Drops leading whitespace. */
  function StripStart(s: string): (r: string)
    ensures |r| <= |s| && r == s[|s| - |r|..]
    ensures r == [] || !IsWhitespace(r[0])
    ensures IsBlank(s[..|s| - |r|])
    decreases |s|
  {
    if s != [] && IsWhitespace(s[0]) then
      var r := StripStart(s[1..]);
      assert forall i :: 1 <= i < |s| - |r| ==> s[i] == s[1..][i - 1];
      r
    else s
  }

  /** Drops trailing whitespace. */
  function StripEnd(s: string): (r: string)
    ensures |r| <= |s| && r == s[..|r|]
    ensures r == [] || !IsWhitespace(r[|r| - 1])
    ensures IsBlank(s[|r|..])
    decreases |s|
  {
    if s != [] && IsWhitespace(s[|s| - 1]) then
      var r := StripEnd(s[..|s| - 1]);
      assert s[..|s| - 1][..|r|] == s[..|r|];
      assert forall i :: |r| <= i < |s| - 1 ==> s[i] == s[..|s| - 1][i];
      r
    else s
  }

  /** r stands in s at i with only whitespace around it. */
  predicate StrippedAt(s: string, i: int, r: string)
  {
    && 0 <= i && i + |r| <= |s| && IsBlank(s[..i]) && s[i..i + |r|] == r && IsBlank(s[i + |r|..])
  }

  /** str.strip(): no whitespace left at either end. */
  function Strip(s: string): (r: string)
    ensures |r| <= |s|
    ensures r == [] || (!IsWhitespace(r[0]) && !IsWhitespace(r[|r| - 1]))
    ensures StrippedAt(s, |s| - |StripStart(s)|, r)
  {
    StripAround(s);
    StripEnd(StripStart(s))
  }

  lemma {:induction false} StripAround(s: string)
    ensures StrippedAt(s, |s| - |StripStart(s)|, StripEnd(StripStart(s)))
  {
    var t := StripStart(s);
    var r := StripEnd(t);
    var i := |s| - |t|;
    SuffixSlices(s, i, |r|);
    var head, tail := s[..i], t[|r|..];
    assert IsBlank(head) && IsBlank(tail);
    assert tail == s[i + |r|..];
  }

  /** Slicing a suffix of s is slicing s further along. */
  lemma SuffixSlices<T>(s: seq<T>, i: nat, n: nat)
    requires i + n <= |s|
    ensures s[i..][..n] == s[i..i + n] && s[i..][n..] == s[i + n..]
  {
  }

  /** The substring test `t in s`. */
  predicate Contains(s: string, t: string)
    decreases |s|
  {
    StartsWith(s, t) || (s != [] && Contains(s[1..], t))
  }

  /** sep.join(parts) */
  function Join(parts: seq<string>, sep: string): string
    decreases |parts|
  {
    if parts == [] then ""
    else if |parts| == 1 then parts[0]
    else parts[0] + sep + Join(parts[1..], sep)
  }

  /** s.split(sep) for a one-character separator: never empty, no part holds sep. */
  function Split(s: string, sep: char): (parts: seq<string>)
    ensures |parts| >= 1
    ensures forall i :: 0 <= i < |parts| ==> sep !in parts[i]
    decreases |s|
  {
    if s == [] then [""]
    else
      var rest := Split(s[1..], sep);
      if s[0] == sep then [""] + rest else [[s[0]] + rest[0]] + rest[1..]
  }

  lemma {:induction false} JoinSplit(s: string, sep: char)
    ensures Join(Split(s, sep), [sep]) == s
    decreases |s|
  {
    if s != [] {
      var rest := Split(s[1..], sep);
      JoinSplit(s[1..], sep);
      if s[0] != sep {
        var parts := Split(s, sep);
        assert parts[1..] == rest[1..];
        if |rest| == 1 {
          assert parts == [[s[0]] + rest[0]];
        } else {
          assert Join(rest, [sep]) == rest[0] + [sep] + Join(rest[1..], [sep]);
        }
      }
    }
  }

  /** A string without the separator splits into itself. */
  lemma {:induction false} SplitWithoutSeparator(s: string, sep: char)
    requires sep !in s
    ensures Split(s, sep) == [s]
    decreases |s|
  {
    if s != [] {
      SplitWithoutSeparator(s[1..], sep);
      assert [s[0]] + s[1..] == s;
    }
  }

  /** Splitting around one separator splits the two sides separately. */
  lemma {:induction false} SplitAppend(s: string, sep: char, t: string)
    ensures Split(s + [sep] + t, sep) == Split(s, sep) + Split(t, sep)
    decreases |s|
  {
    if s == [] {
      assert s + [sep] + t == [sep] + t;
      assert ([sep] + t)[1..] == t;
    } else {
      assert (s + [sep] + t)[1..] == s[1..] + [sep] + t;
      SplitAppend(s[1..], sep, t);
    }
  }

  /** Index of the last occurrence of c in s, or -1 (str.rfind). */
  function LastIndexOf(s: string, c: char): (r: int)
    ensures -1 <= r < |s|
    ensures r == -1 <==> c !in s
    ensures r >= 0 ==> s[r] == c && c !in s[r + 1..]
    decreases |s|
  {
    if s == [] then -1
    else if s[|s| - 1] == c then |s| - 1
    else
      var init := s[..|s| - 1];
      assert s == init + [s[|s| - 1]];
      var r := LastIndexOf(init, c);
      assert s[r + 1..] == init[r + 1..] + [s[|s| - 1]];
      r
  }

  /** os.path.splitext with '/' as separator: the extension starts at the last
      dot of the last path component, provided that component has a character
      other than '.' before that dot; otherwise the extension is empty. */
  function SplitExt(p: string): (r: (string, string))
    ensures r.0 + r.1 == p
    ensures r.1 != [] ==> r.1[0] == '.' && '.' !in r.1[1..] && '/' !in r.1
  {
    var sepIndex := LastIndexOf(p, '/');
    var dotIndex := LastIndexOf(p, '.');
    if dotIndex > sepIndex && exists k :: sepIndex + 1 <= k < dotIndex && p[k] != '.' then
      assert p[dotIndex..][1..] == p[dotIndex + 1..];
      (p[..dotIndex], p[dotIndex..])
    else
      (p, "")
  }

  lemma LastIndexOfBelow(s: string, c: char, bound: int)
    requires 0 <= bound <= |s|
    requires forall i :: bound <= i < |s| ==> s[i] != c
    ensures LastIndexOf(s, c) < bound
  {
  }

  lemma LastIndexOfAt(s: string, c: char, k: int)
    requires 0 <= k < |s| && s[k] == c
    requires forall i :: k < i < |s| ==> s[i] != c
    ensures LastIndexOf(s, c) == k
  {
    var r := LastIndexOf(s, c);
    assert forall i :: r < i < |s| ==> s[i] == s[r + 1..][i - r - 1];
  }

  /** Appending an extension to a stem whose last character is neither a dot
      nor a separator splits back into exactly that stem and extension. */
  lemma SplitExtOfStemAndExt(stem: string, ext: string)
    requires stem != [] && stem[|stem| - 1] != '.' && stem[|stem| - 1] != '/'
    requires ext != [] && ext[0] == '.' && '.' !in ext[1..] && '/' !in ext
    ensures SplitExt(stem + ext) == (stem, ext)
  {
    var p := stem + ext;
    assert forall i :: |stem| < i < |p| ==> p[i] == ext[1..][i - |stem| - 1];
    assert forall i :: |stem| <= i < |p| ==> p[i] == ext[i - |stem|];
    assert p[|stem| - 1] == stem[|stem| - 1];
    LastIndexOfBelow(p, '/', |stem| - 1);
    LastIndexOfAt(p, '.', |stem|);
    assert p[..|stem|] == stem && p[|stem|..] == ext;
  }

  /** os.path.join(dir, name) with '/' as separator: an absolute name wins,
      an empty directory adds nothing, otherwise one separator is inserted
      unless the directory already ends with one. */
  function PathJoin(dir: string, name: string): (p: string)
    ensures name != [] && name[0] == '/' ==> p == name
    ensures name == [] || name[0] != '/' ==> p == JoinPrefix(dir) + name
  {
    if name != [] && name[0] == '/' then name else JoinPrefix(dir) + name
  }

  /** What os.path.join puts before a relative name: nothing for an empty
      directory, otherwise the directory ending in exactly the separator it
      already had or one added. */
  function JoinPrefix(dir: string): (r: string)
    ensures r == [] || r[|r| - 1] == '/'
    ensures dir == [] ==> r == []
    ensures dir != [] ==> |dir| <= |r| <= |dir| + 1 && r[..|dir|] == dir
  {
    if dir == [] then []
    else if dir[|dir| - 1] == '/' then dir
    else
      assert (dir + "/")[|dir + "/"| - 1] == '/';
      dir + "/"
  }

  /** Joining a name to a directory keeps the name's extension. */
  lemma PathJoinKeepsExtension(dir: string, stem: string, ext: string)
    requires stem != [] && stem[|stem| - 1] != '.' && stem[|stem| - 1] != '/'
    requires ext != [] && ext[0] == '.' && '.' !in ext[1..] && '/' !in ext
    ensures SplitExt(PathJoin(dir, stem + ext)) == (PathJoin(dir, stem + ext)[..|PathJoin(dir, stem + ext)| - |ext|], ext)
  {
    var name := stem + ext;
    var pre := if name[0] == '/' then [] else JoinPrefix(dir);
    var full := pre + stem;
    assert PathJoin(dir, name) == full + ext;
    assert full[|full| - 1] == stem[|stem| - 1];
    SplitExtOfStemAndExt(full, ext);
    assert (full + ext)[..|full + ext| - |ext|] == full;
  }

  /** The path relative to a root directory: a path starting with the root
      loses the root and every '/' or '\\' right after it; any other path is
      returned unchanged. */
  function StripRoot(root: string, path: string): (r: string)
    ensures !StartsWith(path, root) ==> r == path
    ensures StartsWith(path, root) ==> |r| <= |path| - |root| && r == path[|path| - |r|..]
    ensures StartsWith(path, root) ==> r == [] || (r[0] != '/' && r[0] != '\\')
    ensures StartsWith(path, root) ==> forall i :: |root| <= i < |path| - |r| ==> path[i] in "/\\"
  {
    if StartsWith(path, root) then
      var rest := path[|root|..];
      var r := LStrip(rest, "/\\");
      assert forall i :: |root| <= i < |path| - |r| ==> path[i] == rest[i - |root|];
      r
    else path
  }

  /** A path built as root, separators, then a relative part that does not
      itself start with a separator strips back to that relative part. */
  lemma StripRootOfJoined(root: string, seps: string, rel: string)
    requires forall i :: 0 <= i < |seps| ==> seps[i] in "/\\"
    requires rel == [] || (rel[0] != '/' && rel[0] != '\\')
    ensures StripRoot(root, root + seps + rel) == rel
  {
    var path := root + seps + rel;
    assert path[..|root|] == root;
    assert path[|root|..] == seps + rel;
    LStripSeparators(seps, rel);
  }

  lemma LStripSeparators(seps: string, rel: string)
    requires forall i :: 0 <= i < |seps| ==> seps[i] in "/\\"
    requires rel == [] || (rel[0] != '/' && rel[0] != '\\')
    ensures LStrip(seps + rel, "/\\") == rel
  {
    var s := seps + rel;
    var r := LStrip(s, "/\\");
    assert forall i :: 0 <= i < |seps| ==> s[i] == seps[i];
    assert rel != [] ==> s[|seps|] == rel[0];
    assert |r| == |rel|;
    assert r == s[|seps|..] == rel;
  }

  /** The characters that sanitized file names keep: alphanumerics and "._-". */
  predicate IsSafeNameChar(c: char) { IsAlnum(c) || c in "._-" }

  /** ''.join(c for c in s if c.isalnum() or c in '._-') */
  function KeepSafeChars(s: string): (r: string)
    ensures |r| <= |s|
    ensures forall i :: 0 <= i < |r| ==> IsSafeNameChar(r[i])
    decreases |s|
  {
    if s == [] then ""
    else (if IsSafeNameChar(s[0]) then [s[0]] else "") + KeepSafeChars(s[1..])
  }

  lemma {:induction false} KeepSafeCharsOfSafe(s: string)
    requires forall i :: 0 <= i < |s| ==> IsSafeNameChar(s[i])
    ensures KeepSafeChars(s) == s
    decreases |s|
  {
    if s != [] { KeepSafeCharsOfSafe(s[1..]); }
  }

  /** The filter works character by character: filtering a concatenation
      concatenates the filtered parts. */
  lemma {:induction false} KeepSafeCharsAppend(a: string, b: string)
    ensures KeepSafeChars(a + b) == KeepSafeChars(a) + KeepSafeChars(b)
    decreases |a|
  {
    if a != [] {
      assert (a + b)[1..] == a[1..] + b;
      KeepSafeCharsAppend(a[1..], b);
    } else {
      assert a + b == b;
    }
  }

  /** A single character is kept exactly when it is safe. */
  lemma KeepSafeCharsOfChar(c: char)
    ensures KeepSafeChars([c]) == if IsSafeNameChar(c) then [c] else []
  {
    assert [c][1..] == [];
  }

  lemma {:induction false} KeepSafeCharsIdempotent(s: string)
    ensures KeepSafeChars(KeepSafeChars(s)) == KeepSafeChars(s)
  {
    KeepSafeCharsOfSafe(KeepSafeChars(s));
  }

  /** Python's "s" * n */
  function Repeat(s: string, n: nat): (r: string)
    ensures |r| == |s| * n
    decreases n
  {
    if n == 0 then "" else s + Repeat(s, n - 1)
  }
}

=== FILE: config.dfy ===
/** The AppConfig record: its fields and their defaults, the dictionary
    conversions from_dict / to_dict, and validate().

    An instance is the sequence of its thirty field values in declaration
    order, so a field is its position. Values are loosely typed, since
    neither the YAML files nor the setters check types. */
module Config {
  import opened Common

  /** A configuration value as Python sees it. Floats are exact reals. */
  datatype Value = VInt(i: int) | VReal(r: real) | VStr(s: string) | VBool(b: bool) | VNone

  /** The numeric value of an int, float or bool (True is 1); None otherwise. */
  function NumOf(v: Value): Option<real>
  {
    match v
    case VInt(i) => Some(i as real)
    case VReal(r) => Some(r)
    case VBool(b) => Some(if b then 1.0 else 0.0)
    case _ => None
  }

  /** Python's == on these values: numbers compare by value across int,
      float and bool; everything else compares structurally. */
  predicate PyEq(a: Value, b: Value)
  {
    if NumOf(a).Some? && NumOf(b).Some? then NumOf(a).value == NumOf(b).value else a == b
  }

  lemma PyEqReflexive(v: Value)
    ensures PyEq(v, v)
  {
  }

  // ---------------------------------------------------------------------
  // Fields

  /** The AppConfig attribute names, in declaration order. */
  const FieldNames: seq<string> := [
    "audio_sample_rate", "audio_channels", "audio_bitrate",
    "default_model", "model_cache_dir", "enable_vllm", "enable_fp16", "device",
    "enable_preprocessing", "enable_denoise", "enable_normalize", "enable_trim_silence", "target_sample_rate",
    "enable_pitch_shift", "default_pitch_shift", "pitch_shift_quality",
    "ui_theme", "ui_language", "window_width", "window_height",
    "log_level", "log_file", "log_max_size", "log_backup_count",
    "max_concurrent_generations", "max_concurrent_downloads", "generation_timeout", "download_timeout",
    "output_dir", "temp_dir"
  ]

  /** A field is its position in the declaration. */
  type Field = i: nat | i < |FieldNames|

  const AudioSampleRate: Field := 0
  const Device: Field := 7
  const DefaultPitchShift: Field := 14
  const PitchShiftQuality: Field := 15
  const LogLevel: Field := 20
  const MaxConcurrentGenerations: Field := 24
  const MaxConcurrentDownloads: Field := 25

  /** The named positions hold the attributes they are named after. */
  lemma NamedFields()
    ensures FieldNames[AudioSampleRate] == "audio_sample_rate"
    ensures FieldNames[Device] == "device"
    ensures FieldNames[DefaultPitchShift] == "default_pitch_shift"
    ensures FieldNames[PitchShiftQuality] == "pitch_shift_quality"
    ensures FieldNames[LogLevel] == "log_level"
    ensures FieldNames[MaxConcurrentGenerations] == "max_concurrent_generations"
    ensures FieldNames[MaxConcurrentDownloads] == "max_concurrent_downloads"
  {
  }

  /** The declared defaults, field by field. */
  const Defaults: seq<Value> := [
    VInt(24000), VInt(1), VInt(128),
    VStr("cosyvoice3_2512"), VNone, VBool(false), VBool(false), VStr("auto"),
    VBool(true), VBool(true), VBool(true), VBool(true), VInt(24000),
    VBool(true), VReal(0.0), VStr("balanced"),
    VStr("pixel_dark"), VStr("en"), VInt(800), VInt(550),
    VStr("INFO"), VNone, VInt(10), VInt(5),
    VInt(1), VInt(3), VInt(300), VInt(600),
    VNone, VNone
  ]

  /** An AppConfig instance: one value per field. */
  type AppConfig = vs: seq<Value> | |vs| == |FieldNames| witness Defaults

  /** setattr(config, name, value) for the field f: only f changes. */
  function With(c: AppConfig, f: Field, v: Value): (r: AppConfig)
    ensures r[f] == v
    ensures forall g: Field :: g != f ==> r[g] == c[g]
  {
    c[f := v]
  }

  /** AppConfig() */
  const DefaultConfig: AppConfig := Defaults

  /** No key occurs twice. */
  predicate Distinct(keys: seq<string>)
  {
    forall i, j :: 0 <= i < j < |keys| ==> keys[i] != keys[j]
  }

  /** No name among the first five fields recurs later. */
  lemma LeadingNamesUnique()
    ensures forall i, j :: 0 <= i < 5 && i < j < |FieldNames| ==> FieldNames[i] != FieldNames[j]
  {
  }

  /** No name among fields five to nine recurs later. */
  lemma EarlyNamesUnique()
    ensures forall i, j :: 5 <= i < 10 && i < j < |FieldNames| ==> FieldNames[i] != FieldNames[j]
  {
  }

  /** No name among fields ten to nineteen recurs later. */
  lemma MiddleNamesUnique()
    ensures forall i, j :: 10 <= i < 20 && i < j < |FieldNames| ==> FieldNames[i] != FieldNames[j]
  {
  }

  /** No name among the last ten fields recurs later. */
  lemma TrailingNamesUnique()
    ensures forall i, j :: 20 <= i < j < |FieldNames| ==> FieldNames[i] != FieldNames[j]
  {
  }

  /** No two fields share an attribute name. */
  lemma NamesDistinct()
    ensures Distinct(FieldNames)
  {
    LeadingNamesUnique();
    EarlyNamesUnique();
    MiddleNamesUnique();
    TrailingNamesUnique();
  }

  /** The first position at or after `from` holding `name`, if any. */
  function FindFrom(keys: seq<string>, from: nat, name: string): (r: Option<nat>)
    requires from <= |keys|
    ensures r.Some? ==> from <= r.value < |keys| && keys[r.value] == name
    ensures r.None? ==> forall i :: from <= i < |keys| ==> keys[i] != name
    decreases |keys| - from
  {
    if from == |keys| then None
    else if keys[from] == name then Some(from)
    else FindFrom(keys, from + 1, name)
  }

  /** hasattr(config, name) for the declared fields: the field with this
      attribute name. */
  function FieldNamed(name: string): (f: Option<Field>)
    ensures f.Some? ==> FieldNames[f.value] == name
    ensures f.None? ==> forall g: Field :: FieldNames[g] != name
  {
    match FindFrom(FieldNames, 0, name)
    case Some(i) => Some(i)
    case None => None
  }

  /** A name is looked up to a field exactly when it is that field's name. */
  lemma FieldNamedExactly(name: string, f: Field)
    ensures FieldNamed(name) == Some(f) <==> FieldNames[f] == name
  {
    if FieldNames[f] == name {
      NamesDistinct();
      var g := FieldNamed(name).value;
      assert FieldNames[g] == FieldNames[f];
    }
  }

  // ---------------------------------------------------------------------
  // Dictionaries

  /** A dictionary entry for field f, or its default. */
  function Pick(data: map<string, Value>, f: Field): Value
  {
    if FieldNames[f] in data then data[FieldNames[f]] else Defaults[f]
  }

  /** AppConfig.from_dict: keys that are not field names are dropped,
      fields the dictionary lacks take their defaults. */
  function FromDict(data: map<string, Value>): (c: AppConfig)
    ensures forall f: Field :: FieldNames[f] in data ==> c[f] == data[FieldNames[f]]
    ensures forall f: Field :: FieldNames[f] !in data ==> c[f] == Defaults[f]
  {
    seq(|FieldNames|, i requires 0 <= i < |FieldNames| => Pick(data, i))
  }

  /** The dictionary pairing the first n keys with their values. */
  function Zip(keys: seq<string>, vals: seq<Value>, n: nat): (m: map<string, Value>)
    requires |keys| == |vals| && n <= |keys|
    ensures forall k :: k in m <==> exists i :: 0 <= i < n && keys[i] == k
  {
    if n == 0 then map[]
    else
      var m := Zip(keys, vals, n - 1);
      assert keys[n - 1] in m[keys[n - 1] := vals[n - 1]];
      m[keys[n - 1] := vals[n - 1]]
  }

  /** With distinct keys, each key's entry holds its own value. */
  lemma {:induction false} ZipEntry(keys: seq<string>, vals: seq<Value>, n: nat, i: nat)
    requires |keys| == |vals| && i < n <= |keys| && Distinct(keys)
    ensures keys[i] in Zip(keys, vals, n) && Zip(keys, vals, n)[keys[i]] == vals[i]
  {
    assert Zip(keys, vals, n) == Zip(keys, vals, n - 1)[keys[n - 1] := vals[n - 1]];
    if i < n - 1 {
      ZipEntry(keys, vals, n - 1, i);
      assert keys[i] != keys[n - 1];
    }
  }

  /** AppConfig.to_dict */
  function ToDict(c: AppConfig): map<string, Value>
  {
    Zip(FieldNames, c, |FieldNames|)
  }

  /** to_dict has exactly the field names as keys, each with its value. */
  lemma ToDictEntries(c: AppConfig)
    ensures forall k :: k in ToDict(c) <==> k in FieldNames
    ensures forall f: Field :: ToDict(c)[FieldNames[f]] == c[f]
  {
    NamesDistinct();
    forall f: Field ensures ToDict(c)[FieldNames[f]] == c[f] {
      ZipEntry(FieldNames, c, |FieldNames|, f);
    }
  }

  /** from_dict(to_dict(c)) == c */
  lemma FromDictToDict(c: AppConfig)
    ensures FromDict(ToDict(c)) == c
  {
    ToDictEntries(c);
  }

  // ---------------------------------------------------------------------
  // Validation

  /** One validation error; the offending value is kept rather than rendered. */
  datatype Issue =
    | InvalidSampleRate(value: Value)
    | InvalidDevice(value: Value)
    | InvalidPitchShiftQuality(value: Value)
    | InvalidLogLevel(value: Value)
    | PitchShiftOutOfRange
    | GenerationsBelowOne
    | DownloadsBelowOne

  /** Position of each check in the validation order. */
  function Rank(e: Issue): nat
  {
    match e
    case InvalidSampleRate(_) => 0
    case InvalidDevice(_) => 1
    case InvalidPitchShiftQuality(_) => 2
    case InvalidLogLevel(_) => 3
    case PitchShiftOutOfRange => 4
    case GenerationsBelowOne => 5
    case DownloadsBelowOne => 6
  }

  /** v in [x0, x1, ...] with Python equality. */
  predicate InList(v: Value, xs: seq<Value>)
  {
    exists i :: 0 <= i < |xs| && PyEq(v, xs[i])
  }

  const SampleRates: seq<Value> := [VInt(8000), VInt(16000), VInt(22050), VInt(24000), VInt(44100), VInt(48000)]
  const Devices: seq<Value> := [VStr("auto"), VStr("cuda"), VStr("mps"), VStr("cpu")]
  const Qualities: seq<Value> := [VStr("fast"), VStr("balanced"), VStr("high_quality")]
  const LogLevels: seq<Value> := [VStr("DEBUG"), VStr("INFO"), VStr("WARNING"), VStr("ERROR"), VStr("CRITICAL")]

  /** The membership checks, which never raise. */
  function MembershipIssues(c: AppConfig): (r: seq<Issue>)
    ensures forall e :: e in r ==> Rank(e) < 4
    ensures forall i, j :: 0 <= i < j < |r| ==> Rank(r[i]) < Rank(r[j])
  {
    (if InList(c[AudioSampleRate], SampleRates) then [] else [InvalidSampleRate(c[AudioSampleRate])])
    + (if InList(c[Device], Devices) then [] else [InvalidDevice(c[Device])])
    + (if InList(c[PitchShiftQuality], Qualities) then [] else [InvalidPitchShiftQuality(c[PitchShiftQuality])])
    + (if InList(c[LogLevel], LogLevels) then [] else [InvalidLogLevel(c[LogLevel])])
  }

  /** The fields the range checks compare are numbers. */
  predicate NumericRangeFields(c: AppConfig)
  {
    NumOf(c[DefaultPitchShift]).Some?
    && NumOf(c[MaxConcurrentGenerations]).Some?
    && NumOf(c[MaxConcurrentDownloads]).Some?
  }

  /** The range checks, once their fields are known to be numbers. */
  function RangeIssues(pitch: real, generations: real, downloads: real): (r: seq<Issue>)
    ensures forall e :: e in r ==> Rank(e) >= 4
    ensures forall i, j :: 0 <= i < j < |r| ==> Rank(r[i]) < Rank(r[j])
    ensures PitchShiftOutOfRange in r <==> !(0.0 <= pitch <= 12.0)
    ensures GenerationsBelowOne in r <==> generations < 1.0
    ensures DownloadsBelowOne in r <==> downloads < 1.0
  {
    (if 0.0 <= pitch <= 12.0 then [] else [PitchShiftOutOfRange])
    + (if generations < 1.0 then [GenerationsBelowOne] else [])
    + (if downloads < 1.0 then [DownloadsBelowOne] else [])
  }

  /** AppConfig.validate: the errors in check order, or None when a range
      comparison raises because the field is not a number. The membership
      checks cannot raise, so they come first whatever happens later. */
  function Validate(c: AppConfig): (r: Option<seq<Issue>>)
    ensures r.None? <==> !NumericRangeFields(c)
  {
    var p := NumOf(c[DefaultPitchShift]);
    var g := NumOf(c[MaxConcurrentGenerations]);
    var d := NumOf(c[MaxConcurrentDownloads]);
    if p.None? || g.None? || d.None? then None
    else Some(MembershipIssues(c) + RangeIssues(p.value, g.value, d.value))
  }

  /** A supported sample rate: a number equal to one of the six rates. */
  predicate SampleRateOk(v: Value)
  {
    NumOf(v).Some? && NumOf(v).value in {8000.0, 16000.0, 22050.0, 24000.0, 44100.0, 48000.0}
  }

  /** The validity conditions, stated independently of the checking code. */
  predicate WellFormed(c: AppConfig)
  {
    && SampleRateOk(c[AudioSampleRate])
    && c[Device] in Devices
    && c[PitchShiftQuality] in Qualities
    && c[LogLevel] in LogLevels
    && NumericRangeFields(c)
    && 0.0 <= NumOf(c[DefaultPitchShift]).value <= 12.0
    && NumOf(c[MaxConcurrentGenerations]).value >= 1.0
    && NumOf(c[MaxConcurrentDownloads]).value >= 1.0
  }

  /** When an issue applies to a configuration, stated per rule. */
  predicate Applies(c: AppConfig, e: Issue)
  {
    match e
    case InvalidSampleRate(v) => v == c[AudioSampleRate] && !SampleRateOk(v)
    case InvalidDevice(v) => v == c[Device] && v !in Devices
    case InvalidPitchShiftQuality(v) => v == c[PitchShiftQuality] && v !in Qualities
    case InvalidLogLevel(v) => v == c[LogLevel] && v !in LogLevels
    case PitchShiftOutOfRange =>
      NumOf(c[DefaultPitchShift]).Some? && !(0.0 <= NumOf(c[DefaultPitchShift]).value <= 12.0)
    case GenerationsBelowOne =>
      NumOf(c[MaxConcurrentGenerations]).Some? && NumOf(c[MaxConcurrentGenerations]).value < 1.0
    case DownloadsBelowOne =>
      NumOf(c[MaxConcurrentDownloads]).Some? && NumOf(c[MaxConcurrentDownloads]).value < 1.0
  }

  lemma MembershipReportsApplicable(c: AppConfig, e: Issue)
    ensures e in MembershipIssues(c) <==> Rank(e) < 4 && Applies(c, e)
  {
    match e
    case InvalidSampleRate(v) => SampleRateCheck(c[AudioSampleRate]);
    case InvalidDevice(v) => StringCheck(c[Device], Devices);
    case InvalidPitchShiftQuality(v) => StringCheck(c[PitchShiftQuality], Qualities);
    case InvalidLogLevel(v) => StringCheck(c[LogLevel], LogLevels);
    case _ =>
  }

  /** validate() reports exactly the issues that apply. */
  lemma ValidateReportsApplicable(c: AppConfig, e: Issue)
    requires NumericRangeFields(c)
    ensures e in Validate(c).value <==> Applies(c, e)
  {
    MembershipReportsApplicable(c, e);
  }

  /** An issue that applies rules out well-formedness. */
  lemma AppliesBreaksWellFormed(c: AppConfig, e: Issue)
    requires Applies(c, e)
    ensures !WellFormed(c)
  {
  }

  /** validate() returns no errors exactly for well-formed configurations. */
  lemma ValidateAcceptsExactlyWellFormed(c: AppConfig)
    ensures Validate(c) == Some([]) <==> WellFormed(c)
  {
    if NumericRangeFields(c) {
      var r := Validate(c).value;
      if r != [] {
        assert r[0] in r;
        ValidateReportsApplicable(c, r[0]);
        AppliesBreaksWellFormed(c, r[0]);
      } else {
        ValidateReportsApplicable(c, InvalidSampleRate(c[AudioSampleRate]));
        ValidateReportsApplicable(c, InvalidDevice(c[Device]));
        ValidateReportsApplicable(c, InvalidPitchShiftQuality(c[PitchShiftQuality]));
        ValidateReportsApplicable(c, InvalidLogLevel(c[LogLevel]));
        ValidateReportsApplicable(c, PitchShiftOutOfRange);
        ValidateReportsApplicable(c, GenerationsBelowOne);
        ValidateReportsApplicable(c, DownloadsBelowOne);
      }
    }
  }

  /** The errors come out in the order the checks run, each at most once. */
  lemma ValidateInCheckOrder(c: AppConfig)
    requires NumericRangeFields(c)
    ensures forall i, j :: 0 <= i < j < |Validate(c).value| ==> Rank(Validate(c).value[i]) < Rank(Validate(c).value[j])
  {
    var m := MembershipIssues(c);
    var v := Validate(c).value;
    forall i, j | 0 <= i < j < |v| ensures Rank(v[i]) < Rank(v[j]) {
      if j >= |m| && i < |m| {
        assert v[i] in m && v[j] == v[|m|..][j - |m|];
      } else if i >= |m| {
        assert v[i] == v[|m|..][i - |m|] && v[j] == v[|m|..][j - |m|];
      }
    }
  }

  lemma SampleRateCheck(v: Value)
    ensures InList(v, SampleRates) <==> SampleRateOk(v)
  {
    if SampleRateOk(v) {
      var x := NumOf(v).value;
      if x == 8000.0 { assert PyEq(v, SampleRates[0]); }
      else if x == 16000.0 { assert PyEq(v, SampleRates[1]); }
      else if x == 22050.0 { assert PyEq(v, SampleRates[2]); }
      else if x == 24000.0 { assert PyEq(v, SampleRates[3]); }
      else if x == 44100.0 { assert PyEq(v, SampleRates[4]); }
      else { assert PyEq(v, SampleRates[5]); }
    }
  }

  /** Against a list of strings, Python equality is plain membership. */
  lemma StringCheck(v: Value, xs: seq<Value>)
    requires forall i :: 0 <= i < |xs| ==> xs[i].VStr?
    ensures InList(v, xs) <==> v in xs
  {
    if v in xs {
      var i :| 0 <= i < |xs| && xs[i] == v;
      assert PyEq(v, xs[i]);
    }
  }

  /** The built-in defaults pass validation. */
  lemma DefaultsAreValid()
    ensures Validate(DefaultConfig) == Some([])
  {
    assert WellFormed(DefaultConfig);
    ValidateAcceptsExactlyWellFormed(DefaultConfig);
  }
}

=== FILE: config_manager.dfy ===
/** The configuration manager: default ⊕ user ⊕ environment layering, the
    changed-key computation, set / update with observer notification, and
    observer registration. Reading the YAML files is replaced by what the
    files contain; an observer callback is recorded as a notification. */
module ConfigManagement {
  import opened Common
  import opened Config

  // ---------------------------------------------------------------------
  // Layering

  /** Environment variables and the fields they override, in lookup order. */
  const EnvMappings: seq<(string, string)> := [
    ("COSYVOICE_MODEL_DIR", "model_cache_dir"),
    ("COSYVOICE_DEVICE", "device"),
    ("COSYVOICE_LOG_LEVEL", "log_level"),
    ("COSYVOICE_OUTPUT_DIR", "output_dir"),
    ("COSYVOICE_ENABLE_VLLM", "enable_vllm")
  ]

  /** The value an environment variable contributes: the text itself, except
      for the vLLM switch, which is true iff its lower-cased text is one of
      true, 1, yes, on. */
  function EnvValue(key: string, text: string): (v: Value)
    ensures key != "enable_vllm" ==> v == VStr(text)
    ensures key == "enable_vllm" ==> v.VBool? && (v.b <==> Lower(text) in ["true", "1", "yes", "on"])
  {
    if key == "enable_vllm" then VBool(Lower(text) in ["true", "1", "yes", "on"]) else VStr(text)
  }

  /** _load_env_config over a list of (variable, key) pairs: only the
      variables that are set contribute. */
  function EnvOverrides(mappings: seq<(string, string)>, env: map<string, string>): (r: map<string, Value>)
    ensures forall k :: k in r <==> exists i :: 0 <= i < |mappings| && mappings[i].1 == k && mappings[i].0 in env
    decreases |mappings|
  {
    if mappings == [] then map[]
    else
      var init := mappings[..|mappings| - 1];
      var (name, key) := mappings[|mappings| - 1];
      var rest := EnvOverrides(init, env);
      assert forall i :: 0 <= i < |init| ==> init[i] == mappings[i];
      if name in env then rest[key := EnvValue(key, env[name])] else rest
  }

  /** With distinct keys, a set variable contributes its own converted value. */
  lemma {:induction false} EnvOverridesEntry(mappings: seq<(string, string)>, env: map<string, string>, i: nat)
    requires i < |mappings| && mappings[i].0 in env
    requires forall a, b :: 0 <= a < b < |mappings| ==> mappings[a].1 != mappings[b].1
    ensures EnvOverrides(mappings, env)[mappings[i].1] == EnvValue(mappings[i].1, env[mappings[i].0])
    decreases |mappings|
  {
    if i < |mappings| - 1 {
      var init := mappings[..|mappings| - 1];
      assert init[i] == mappings[i];
      EnvOverridesEntry(init, env, i);
    }
  }

  function EnvConfig(env: map<string, string>): map<string, Value>
  {
    EnvOverrides(EnvMappings, env)
  }

  /** What reading a YAML file yields: no file, a failure, or a mapping
      (an empty document reads as an empty mapping). */
  datatype ConfigFile = Missing | Unreadable | Loaded(entries: map<string, Value>)

  /** The default layer: the default file if it loads, else the built-in
      defaults as a dictionary. */
  function DefaultLayer(f: ConfigFile): (m: map<string, Value>)
    ensures f.Loaded? ==> m == f.entries
    ensures !f.Loaded? ==> m == ToDict(DefaultConfig)
  {
    if f.Loaded? then f.entries else ToDict(DefaultConfig)
  }

  /** The user layer: the user file if it loads, else nothing. */
  function UserLayer(f: ConfigFile): (m: map<string, Value>)
    ensures f.Loaded? ==> m == f.entries
    ensures !f.Loaded? ==> m == map[]
  {
    if f.Loaded? then f.entries else map[]
  }

  /** _load_config: environment over user over default, then from_dict.
      Validation problems are only logged, so they do not affect the result. */
  function LoadConfig(defaultFile: ConfigFile, userFile: ConfigFile, env: map<string, string>): (c: AppConfig)
    ensures forall f: Field :: c[f] ==
              (if FieldNames[f] in EnvConfig(env) then EnvConfig(env)[FieldNames[f]]
               else if FieldNames[f] in UserLayer(userFile) then UserLayer(userFile)[FieldNames[f]]
               else if FieldNames[f] in DefaultLayer(defaultFile) then DefaultLayer(defaultFile)[FieldNames[f]]
               else Defaults[f])
  {
    FromDict(DefaultLayer(defaultFile) + UserLayer(userFile) + EnvConfig(env))
  }

  /** With no files and no environment the loaded configuration is the
      built-in default. */
  lemma LoadWithoutSources()
    ensures LoadConfig(Missing, Missing, map[]) == DefaultConfig
  {
    var d := ToDict(DefaultConfig);
    assert EnvConfig(map[]) == map[];
    assert d + UserLayer(Missing) + EnvConfig(map[]) == d;
    FromDictToDict(DefaultConfig);
  }

  /** A set COSYVOICE_DEVICE decides the device, whatever the files say. */
  lemma EnvironmentWins(defaultFile: ConfigFile, userFile: ConfigFile, env: map<string, string>)
    requires "COSYVOICE_DEVICE" in env
    ensures LoadConfig(defaultFile, userFile, env)[Device] == VStr(env["COSYVOICE_DEVICE"])
  {
    EnvMappingsDistinct();
    EnvOverridesEntry(EnvMappings, env, 1);
    NamedFields();
  }

  lemma EnvMappingsDistinct()
    ensures forall a, b :: 0 <= a < b < |EnvMappings| ==> EnvMappings[a].1 != EnvMappings[b].1
  {
  }

  // ---------------------------------------------------------------------
  // Changed keys

  predicate IsSubsequence<T(==)>(xs: seq<T>, ys: seq<T>)
    decreases |ys|
  {
    if xs == [] then true
    else if ys == [] then false
    else if xs[0] == ys[0] then IsSubsequence(xs[1..], ys[1..])
    else IsSubsequence(xs, ys[1..])
  }

  /** The keys from position i on whose two values differ. */
  function ChangedFrom(keys: seq<string>, prior: seq<Value>, next: seq<Value>, i: nat): (r: seq<string>)
    requires |prior| == |keys| && |next| == |keys| && i <= |keys| && Distinct(keys)
    ensures forall k :: k in r <==> exists j :: i <= j < |keys| && keys[j] == k && !PyEq(prior[j], next[j])
    ensures IsSubsequence(r, keys[i..])
    decreases |keys| - i
  {
    if i == |keys| then []
    else
      var rest := ChangedFrom(keys, prior, next, i + 1);
      assert keys[i..] == [keys[i]] + keys[i + 1..];
      assert rest != [] ==> rest[0] in rest && rest[0] != keys[i];
      if !PyEq(prior[i], next[i]) then [keys[i]] + rest else rest
  }

  /** Nothing differs between a configuration and itself. */
  lemma {:induction false} NothingChangedFrom(keys: seq<string>, c: seq<Value>, i: nat)
    requires |c| == |keys| && i <= |keys| && Distinct(keys)
    ensures ChangedFrom(keys, c, c, i) == []
    decreases |keys| - i
  {
    if i < |keys| {
      NothingChangedFrom(keys, c, i + 1);
      PyEqReflexive(c[i]);
    }
  }

  /** _get_changed_keys: the names of the fields whose values differ, in
      field order. */
  function ChangedKeys(prior: AppConfig, next: AppConfig): (keys: seq<string>)
    ensures forall f: Field :: FieldNames[f] in keys <==> !PyEq(prior[f], next[f])
    ensures forall k :: k in keys ==> k in FieldNames
    ensures IsSubsequence(keys, FieldNames)
  {
    NamesDistinct();
    assert FieldNames[0..] == FieldNames;
    ChangedFrom(FieldNames, prior, next, 0)
  }

  lemma NoChangesFromItself(c: AppConfig)
    ensures ChangedKeys(c, c) == []
  {
    NamesDistinct();
    NothingChangedFrom(FieldNames, c, 0);
  }

  // ---------------------------------------------------------------------
  // Updates

  /** The configuration after applying `updates` in order; keys that are not
      field names are skipped. */
  function ApplyUpdates(c: AppConfig, updates: seq<(string, Value)>): AppConfig
    decreases |updates|
  {
    if updates == [] then c
    else
      var before := ApplyUpdates(c, updates[..|updates| - 1]);
      var (key, value) := updates[|updates| - 1];
      match FieldNamed(key)
      case Some(f) => With(before, f, value)
      case None => before
  }

  /** The keys recorded as changed while applying `updates`: a field name
      whose new value differs from the field's value just before. */
  function UpdateChanges(c: AppConfig, updates: seq<(string, Value)>): (keys: seq<string>)
    ensures forall k :: k in keys ==> FieldNamed(k).Some?
    decreases |updates|
  {
    if updates == [] then []
    else
      var init := updates[..|updates| - 1];
      var before := ApplyUpdates(c, init);
      var (key, value) := updates[|updates| - 1];
      UpdateChanges(c, init)
        + (if FieldNamed(key).Some? && !PyEq(before[FieldNamed(key).value], value) then [key] else [])
  }

  /** The value the last update under `name` carries, if any. */
  function LastValueFor(updates: seq<(string, Value)>, name: string): (r: Option<Value>)
    ensures r.None? <==> forall i :: 0 <= i < |updates| ==> updates[i].0 != name
    decreases |updates|
  {
    if updates == [] then None
    else
      var init := updates[..|updates| - 1];
      assert forall i :: 0 <= i < |init| ==> init[i] == updates[i];
      if updates[|updates| - 1].0 == name then Some(updates[|updates| - 1].1)
      else LastValueFor(init, name)
  }

  /** After the updates, each field holds the value of the last update that
      names it, or its old value when no update does. */
  lemma {:induction false} ApplyUpdatesResult(c: AppConfig, updates: seq<(string, Value)>, f: Field)
    ensures ApplyUpdates(c, updates)[f] ==
              match LastValueFor(updates, FieldNames[f])
              case Some(v) => v
              case None => c[f]
    decreases |updates|
  {
    if updates != [] {
      var init := updates[..|updates| - 1];
      var (key, value) := updates[|updates| - 1];
      ApplyUpdatesResult(c, init, f);
      FieldNamedExactly(key, f);
    }
  }

  /** Update i names a field and changes it relative to the original c. */
  predicate ChangesField(c: AppConfig, updates: seq<(string, Value)>, i: nat)
    requires i < |updates|
  {
    FieldNamed(updates[i].0).Some? && !PyEq(c[FieldNamed(updates[i].0).value], updates[i].1)
  }

  /** The last update contributes its key when it changes a field. */
  lemma UpdateChangesLast(c: AppConfig, updates: seq<(string, Value)>)
    requires updates != []
    ensures var n := |updates| - 1;
      var before := ApplyUpdates(c, updates[..n]);
      var key := updates[n].0;
      UpdateChanges(c, updates) == UpdateChanges(c, updates[..n])
        + (if FieldNamed(key).Some? && !PyEq(before[FieldNamed(key).value], updates[n].1) then [key] else [])
  {
  }

  /** With distinct keys, the last update is compared against the field's
      original value, since no earlier update touched that field. */
  lemma LastChangeContribution(c: AppConfig, updates: seq<(string, Value)>)
    requires updates != []
    requires forall i, j :: 0 <= i < j < |updates| ==> updates[i].0 != updates[j].0
    ensures var n := |updates| - 1;
      UpdateChanges(c, updates) == UpdateChanges(c, updates[..n])
        + (if ChangesField(c, updates, n) then [updates[n].0] else [])
  {
    var n := |updates| - 1;
    var init := updates[..n];
    var key := updates[n].0;
    UpdateChangesLast(c, updates);
    if FieldNamed(key).Some? {
      var f := FieldNamed(key).value;
      ApplyUpdatesResult(c, init, f);
      forall i | 0 <= i < |init| ensures init[i].0 != FieldNames[f] {
        assert init[i] == updates[i];
      }
      assert ApplyUpdates(c, init)[f] == c[f];
    }
  }

  /** For a dictionary of updates (distinct keys), a key is recorded as
      changed exactly when it names a field and its value differs from the
      field's original value. */
  lemma {:induction false} UpdateChangesExactly(c: AppConfig, updates: seq<(string, Value)>, k: string)
    requires forall i, j :: 0 <= i < j < |updates| ==> updates[i].0 != updates[j].0
    ensures k in UpdateChanges(c, updates) <==>
              exists i :: 0 <= i < |updates| && updates[i].0 == k && ChangesField(c, updates, i)
    decreases |updates|
  {
    if updates != [] {
      var n := |updates| - 1;
      var init := updates[..n];
      forall i | 0 <= i < n
        ensures init[i] == updates[i] && (ChangesField(c, init, i) <==> ChangesField(c, updates, i))
      {
      }
      UpdateChangesExactly(c, init, k);
      LastChangeContribution(c, updates);
      var tail := if ChangesField(c, updates, n) then [updates[n].0] else [];
      if k in UpdateChanges(c, updates) {
        if k in tail {
          assert updates[n].0 == k && ChangesField(c, updates, n);
        } else {
          var i :| 0 <= i < n && init[i].0 == k && ChangesField(c, init, i);
          assert updates[i].0 == k && ChangesField(c, updates, i);
        }
      }
      if exists i :: 0 <= i < |updates| && updates[i].0 == k && ChangesField(c, updates, i) {
        var i :| 0 <= i < |updates| && updates[i].0 == k && ChangesField(c, updates, i);
        if i < n {
          assert init[i].0 == k && ChangesField(c, init, i);
        } else {
          assert k in tail;
        }
      }
    }
  }

  // ---------------------------------------------------------------------
  // Observers

  /** Observers are identified by number. */
  type ObserverId = nat

  datatype Notification = Notification(observer: ObserverId, changedKeys: seq<string>)

  /** _notify_observers: one notification per observer, in registration order. */
  function NotifyAll(observers: seq<ObserverId>, keys: seq<string>): (ns: seq<Notification>)
    ensures |ns| == |observers|
    ensures forall i :: 0 <= i < |ns| ==> ns[i] == Notification(observers[i], keys)
  {
    seq(|observers|, i requires 0 <= i < |observers| => Notification(observers[i], keys))
  }

  predicate NoDuplicates<T(==)>(s: seq<T>)
  {
    forall i, j :: 0 <= i < j < |s| ==> s[i] != s[j]
  }

  /** list.remove(x): drops the first occurrence of x. */
  function RemoveFirst<T(==)>(s: seq<T>, x: T): (r: seq<T>)
    ensures x !in s ==> r == s
    ensures x in s ==> |r| == |s| - 1 && multiset(r) == multiset(s) - multiset{x}
    decreases |s|
  {
    if s == [] then []
    else if s[0] == x then
      assert s == [s[0]] + s[1..];
      s[1..]
    else
      assert s == [s[0]] + s[1..];
      [s[0]] + RemoveFirst(s[1..], x)
  }

  /** Removing the first occurrence cuts one position out of the list. */
  lemma {:induction false} RemoveFirstCutsOne<T>(s: seq<T>, x: T) returns (k: nat)
    requires x in s
    ensures k < |s| && s[k] == x && RemoveFirst(s, x) == s[..k] + s[k + 1..]
    decreases |s|
  {
    if s[0] == x {
      k := 0;
    } else {
      assert x in s[1..];
      var j := RemoveFirstCutsOne(s[1..], x);
      k := j + 1;
      assert s[..k] == [s[0]] + s[1..][..j];
      assert s[k + 1..] == s[1..][j + 1..];
    }
  }

  /** Unregistering from a duplicate-free list keeps it duplicate-free and
      removes the observer entirely. */
  lemma UniqueRemoved<T>(s: seq<T>, x: T)
    requires NoDuplicates(s) && x in s
    ensures NoDuplicates(RemoveFirst(s, x)) && x !in RemoveFirst(s, x)
  {
    var k := RemoveFirstCutsOne(s, x);
    var r := RemoveFirst(s, x);
    forall i | 0 <= i < |r|
      ensures r[i] == s[if i < k then i else i + 1]
    {
    }
    forall i, j | 0 <= i < j < |r|
      ensures r[i] != r[j]
    {
      var si, sj := if i < k then i else i + 1, if j < k then j else j + 1;
      assert si < sj && r[i] == s[si] && r[j] == s[sj];
    }
    forall i | 0 <= i < |r|
      ensures r[i] != x
    {
      var si := if i < k then i else i + 1;
      assert si != k && r[i] == s[si];
    }
  }

  // ---------------------------------------------------------------------
  // The manager

  class ConfigManager {
    var config: Option<AppConfig>
    var observers: seq<ObserverId>
    /** Every notification delivered so far, in order. */
    var notifications: seq<Notification>

    ghost predicate Valid()
      reads this
    {
      NoDuplicates(observers)
    }

    constructor(defaultFile: ConfigFile, userFile: ConfigFile, env: map<string, string>)
      ensures Valid()
      ensures config == Some(LoadConfig(defaultFile, userFile, env))
      ensures observers == [] && notifications == []
    {
      config := Some(LoadConfig(defaultFile, userFile, env));
      observers := [];
      notifications := [];
    }

    method RegisterObserver(o: ObserverId)
      requires Valid()
      modifies this`observers
      ensures Valid()
      ensures observers == if o in old(observers) then old(observers) else old(observers) + [o]
    {
      if o !in observers {
        observers := observers + [o];
      }
    }

    method UnregisterObserver(o: ObserverId)
      requires Valid()
      modifies this`observers
      ensures Valid()
      ensures observers == RemoveFirst(old(observers), o)
      ensures o !in observers
    {
      if o in observers {
        UniqueRemoved(observers, o);
        observers := RemoveFirst(observers, o);
      }
    }

    /** get(key, default): the field's value, or the default for an unknown
        key or a missing configuration. */
    function Get(key: string, default: Value): (v: Value)
      reads this
      ensures config.Some? && FieldNamed(key).Some? ==> v == config.value[FieldNamed(key).value]
      ensures config.None? || FieldNamed(key).None? ==> v == default
    {
      if config.None? then default
      else match FieldNamed(key)
        case Some(f) => config.value[f]
        case None => default
    }

    /** Stores any value under a field name, with no validation, and notifies
        the observers of that key when asked to and the value changed. */
    method Set(key: string, value: Value, notify: bool) returns (ok: bool)
      modifies this`config, this`notifications
      ensures ok <==> old(config).Some? && FieldNamed(key).Some?
      ensures !ok ==> config == old(config) && notifications == old(notifications)
      ensures ok ==> config == Some(With(old(config).value, FieldNamed(key).value, value))
      ensures ok ==> notifications == old(notifications)
                       + (if notify && !PyEq(old(config).value[FieldNamed(key).value], value)
                          then NotifyAll(observers, [key]) else [])
    {
      if config.None? || FieldNamed(key).None? {
        return false;
      }
      var field := FieldNamed(key).value;
      var oldValue := config.value[field];
      config := Some(With(config.value, field, value));
      if notify && !PyEq(oldValue, value) {
        notifications := notifications + NotifyAll(observers, [key]);
      }
      ok := true;
    }

    /** Applies every known key in order, then validates. A failed
        validation is reported but the new values stay in place. */
    method Update(updates: seq<(string, Value)>, notify: bool) returns (ok: bool)
      modifies this`config, this`notifications
      ensures old(config).None? ==> !ok && config == old(config) && notifications == old(notifications)
      ensures old(config).Some? ==> config == Some(ApplyUpdates(old(config).value, updates))
      ensures ok <==> old(config).Some? && Validate(ApplyUpdates(old(config).value, updates)) == Some([])
      ensures notifications == old(notifications)
                + (if ok && notify && UpdateChanges(old(config).value, updates) != []
                   then NotifyAll(observers, UpdateChanges(old(config).value, updates)) else [])
    {
      if config.None? {
        return false;
      }
      ghost var start := config.value;
      var current := config.value;
      var changed: seq<string> := [];
      var i := 0;
      while i < |updates|
        invariant 0 <= i <= |updates|
        invariant current == ApplyUpdates(start, updates[..i])
        invariant changed == UpdateChanges(start, updates[..i])
      {
        var (key, value) := updates[i];
        assert updates[..i + 1][..i] == updates[..i];
        if FieldNamed(key).Some? {
          var field := FieldNamed(key).value;
          var oldValue := current[field];
          current := With(current, field, value);
          if !PyEq(oldValue, value) {
            changed := changed + [key];
          }
        }
        i := i + 1;
      }
      assert updates[..i] == updates;
      config := Some(current);
      var errors := Validate(current);
      if errors != Some([]) {
        return false;
      }
      if notify && changed != [] {
        notifications := notifications + NotifyAll(observers, changed);
      }
      ok := true;
    }
  }

  /** Each field named in a dictionary of updates ends with its new value
      (whether or not validation then succeeds). */
  lemma UpdateStoresEachValue(c: AppConfig, updates: seq<(string, Value)>, f: Field, i: nat)
    requires i < |updates| && updates[i].0 == FieldNames[f]
    requires forall a, b :: 0 <= a < b < |updates| ==> updates[a].0 != updates[b].0
    ensures ApplyUpdates(c, updates)[f] == updates[i].1
  {
    ApplyUpdatesResult(c, updates, f);
    LastIsOnly(updates, FieldNames[f], i);
  }

  /** With distinct keys the last update under a name is its only one. */
  lemma {:induction false} LastIsOnly(updates: seq<(string, Value)>, name: string, i: nat)
    requires i < |updates| && updates[i].0 == name
    requires forall a, b :: 0 <= a < b < |updates| ==> updates[a].0 != updates[b].0
    ensures LastValueFor(updates, name) == Some(updates[i].1)
    decreases |updates|
  {
    var init := updates[..|updates| - 1];
    if i < |updates| - 1 {
      assert init[i] == updates[i];
      LastIsOnly(init, name, i);
    }
  }
}

=== FILE: download_service.dfy ===
/** The model download service: the registry of downloadable models, their
    on-disk status, and the bookkeeping of running downloads. At most one
    download task exists per model id; a task is created by a successful
    start and removed only when its worker reports completion.

    Time is a parameter: `now` and `startTime` are microsecond timestamps.
    The path manager is described by what its queries return. */
module DownloadService {
  import opened Common
  import W = DownloadWorker

  datatype ModelDownloadStatus = NotDownloaded | Downloading | Downloaded | Error

  datatype ModelInfo = ModelInfo(id: string, name: string, size: string, description: string, modelType: string)

  const Cosyvoice3Id: string := "cosyvoice3_2512"

  /** The six downloadable models, in display order. */
  const AvailableModels: seq<ModelInfo> := [
    ModelInfo("cosyvoice3_2512", "CosyVoice3-0.5B-2512", "~1.2GB",
              "Latest CosyVoice3 model with 2.5kHz sampling rate. Best quality, recommended for most use cases.", "cosyvoice3"),
    ModelInfo("cosyvoice2", "CosyVoice2-0.5B", "~980MB",
              "CosyVoice2 model with balanced performance and speed.", "cosyvoice2"),
    ModelInfo("cosyvoice_300m", "CosyVoice-300M", "~600MB",
              "Lightweight CosyVoice model, faster inference with good quality.", "cosyvoice"),
    ModelInfo("cosyvoice_300m_sft", "CosyVoice-300M-SFT", "~620MB",
              "Fine-tuned 300M model for specific speaking styles.", "cosyvoice"),
    ModelInfo("cosyvoice_300m_instruct", "CosyVoice-300M-Instruct", "~620MB",
              "Instruction-tuned model for precise control over voice characteristics.", "cosyvoice"),
    ModelInfo("cosyvoice_ttsfrd", "CosyVoice-TTSFRD", "~550MB",
              "Fast response model optimized for real-time applications.", "cosyvoice")
  ]

  predicate IsRegistered(id: string)
  {
    exists i :: 0 <= i < |AvailableModels| && AvailableModels[i].id == id
  }

  /** The ids for which the path manager has a path getter. */
  const PathCheckIds: set<string> := {
    "cosyvoice3_2512", "cosyvoice2", "cosyvoice_300m",
    "cosyvoice_300m_sft", "cosyvoice_300m_instruct", "cosyvoice_ttsfrd"
  }

  /** The registry, the path getters and the worker's model-type map all
      cover the same six ids, and registry ids are distinct. */
  lemma RegistryConsistent()
    ensures forall i, j :: 0 <= i < j < |AvailableModels| ==> AvailableModels[i].id != AvailableModels[j].id
    ensures forall id :: IsRegistered(id) <==> id in PathCheckIds
    ensures forall id :: IsRegistered(id) <==> W.ModelTypeOf(id).Some?
  {
    assert AvailableModels[0].id == "cosyvoice3_2512";
    assert AvailableModels[1].id == "cosyvoice2";
    assert AvailableModels[2].id == "cosyvoice_300m";
    assert AvailableModels[3].id == "cosyvoice_300m_sft";
    assert AvailableModels[4].id == "cosyvoice_300m_instruct";
    assert AvailableModels[5].id == "cosyvoice_ttsfrd";
  }

  // ---------------------------------------------------------------------
  // Progress records

  /** Transfer rate: none measured yet ("0 MB/s"), or `bytes` received in
      `micros` microseconds, displayed in MB/s. */
  datatype Speed = NoSpeed | Rate(bytes: int, micros: int)

  datatype DownloadProgress = DownloadProgress(
    modelId: string, current: int, total: int, percentage: int,
    speed: Speed, eta: string, statusText: W.StatusText,
    isDownloading: bool, startTime: Option<int>, errorMessage: string)

  const ZeroEta: string := "00:00:00"

  /** The record an accepted start stores. */
  function StartedProgress(id: string, now: int): (p: DownloadProgress)
    ensures p.modelId == id && p.isDownloading && p.startTime == Some(now)
    ensures p.current == 0 && p.total == 0 && p.percentage == 0
    ensures p.speed == NoSpeed && p.eta == ZeroEta && p.errorMessage == ""
  {
    DownloadProgress(id, 0, 0, 0, NoSpeed, ZeroEta, W.Text(""), true, Some(now), "")
  }

  /** Whole seconds left at the measured rate, floor((total - current) /
      (current / elapsed)), or 0 when nothing has been received. */
  function RemainingSeconds(total: int, current: int, elapsedMicros: int): (r: int)
    requires elapsedMicros > 0
    ensures current <= 0 ==> r == 0
    ensures current > 0 ==>
              r * (current * 1000000) <= (total - current) * elapsedMicros < (r + 1) * (current * 1000000)
  {
    if current > 0 then ((total - current) * elapsedMicros) / (current * 1000000) else 0
  }

  /** HH:MM:SS with every field at least two digits wide. */
  function EtaText(seconds: int): string
  {
    Pad2(seconds / 3600) + ":" + Pad2((seconds % 3600) / 60) + ":" + Pad2(seconds % 60)
  }

  /** Reads an HH:MM:SS text back into seconds. */
  function ParseEta(t: string): Option<int>
  {
    if |t| == 8 && t[2] == ':' && t[5] == ':'
       && AllDigits(t[0..2]) && AllDigits(t[3..5]) && AllDigits(t[6..8])
       && DigitsValue(t[3..5]) < 60 && DigitsValue(t[6..8]) < 60
    then Some(DigitsValue(t[0..2]) * 3600 + DigitsValue(t[3..5]) * 60 + DigitsValue(t[6..8]))
    else None
  }

  /** Three two-digit fields joined by colons read back as their value in seconds. */
  lemma {:induction false} ParseEtaFields(a: string, b: string, c: string)
    requires |a| == 2 && |b| == 2 && |c| == 2
    requires AllDigits(a) && AllDigits(b) && AllDigits(c)
    requires DigitsValue(b) < 60 && DigitsValue(c) < 60
    ensures ParseEta(a + ":" + b + ":" + c) == Some(DigitsValue(a) * 3600 + DigitsValue(b) * 60 + DigitsValue(c))
  {
    var t := a + ":" + b + ":" + c;
    assert |t| == 8 && t[2] == ':' && t[5] == ':';
    assert t[0..2] == a by { assert t[0] == a[0] && t[1] == a[1]; }
    assert t[3..5] == b by { assert t[3] == b[0] && t[4] == b[1]; }
    assert t[6..8] == c by { assert t[6] == c[0] && t[7] == c[1]; }
  }

  /** Splitting off the minutes leaves the seconds of the hour's remainder. */
  lemma MinuteRemainder(seconds: int)
    requires 0 <= seconds
    ensures (seconds % 3600) % 60 == seconds % 60
  {
    var q, r := seconds / 3600, seconds % 3600;
    assert seconds == 60 * (60 * q) + r;
    assert r == 60 * (r / 60) + r % 60;
    assert seconds == 60 * (60 * q + r / 60) + r % 60;
  }

  /** Hours, minutes and seconds recombine into the total. */
  lemma HmsRecombine(seconds: int)
    requires 0 <= seconds
    ensures (seconds / 3600) * 3600 + ((seconds % 3600) / 60) * 60 + seconds % 60 == seconds
    ensures (seconds % 3600) / 60 < 60 && seconds % 60 < 60
  {
    var r := seconds % 3600;
    MinuteRemainder(seconds);
    assert seconds == (seconds / 3600) * 3600 + r;
    assert r == (r / 60) * 60 + r % 60;
  }

  /** Below 100 hours the ETA text is exact: it reads back as the same
      number of seconds. */
  lemma {:induction false} EtaTextRoundTrip(seconds: int)
    requires 0 <= seconds < 360000
    ensures ParseEta(EtaText(seconds)) == Some(seconds)
  {
    var h, m, s := seconds / 3600, (seconds % 3600) / 60, seconds % 60;
    HmsRecombine(seconds);
    Pad2Digits(h);
    Pad2Digits(m);
    Pad2Digits(s);
    ParseEtaFields(Pad2(h), Pad2(m), Pad2(s));
  }

  /** A progress report: the counters are always stored; speed and ETA are
      recomputed only once time has passed since the start and the
      percentage is positive, and the ETA only while below 100%. */
  function AfterProgress(p: DownloadProgress, current: int, total: int, percentage: int, now: int): (q: DownloadProgress)
    ensures q.current == current && q.total == total && q.percentage == percentage
    ensures q.(current := p.current, total := p.total, percentage := p.percentage, speed := p.speed, eta := p.eta) == p
    ensures var measured := p.startTime.Some? && percentage > 0 && now - p.startTime.value > 0;
            && (measured ==> q.speed == Rate(current, now - p.startTime.value))
            && (!measured ==> q.speed == p.speed && q.eta == p.eta)
            && (measured && percentage < 100 ==>
                  q.eta == EtaText(RemainingSeconds(total, current, now - p.startTime.value)))
            && (percentage >= 100 ==> q.eta == p.eta)
  {
    var p1 := p.(current := current, total := total, percentage := percentage);
    if p.startTime.Some? && percentage > 0 && now - p.startTime.value > 0 then
      var elapsed := now - p.startTime.value;
      var p2 := p1.(speed := Rate(current, elapsed));
      if percentage < 100 then p2.(eta := EtaText(RemainingSeconds(total, current, elapsed))) else p2
    else p1
  }

  /** A completion report ends the download: success pins 100%, failure
      records the message. */
  function AfterFinish(p: DownloadProgress, success: bool, message: string): (q: DownloadProgress)
    ensures !q.isDownloading
    ensures success ==> q == p.(isDownloading := false, percentage := 100, statusText := W.Text("Download complete"))
    ensures !success ==> q == p.(isDownloading := false, errorMessage := message, statusText := W.Text("Error: " + message))
  {
    if success then p.(isDownloading := false, percentage := 100, statusText := W.Text("Download complete"))
    else p.(isDownloading := false, errorMessage := message, statusText := W.Text("Error: " + message))
  }

  /** A cancelled download reaches the service through the failure path:
      the worker's final report is a failure whose message is "Download
      cancelled", so the record first reads "Error: " followed by that
      message, and the status line the worker sends next turns it into
      "Cancelled", while the error message stays. */
  lemma CancellationReachesServiceAsFailure(p: DownloadProgress, success: bool)
    ensures var (ok, message) := W.FinalReport(true, success);
      && !ok && message == "Download cancelled"
      && AfterFinish(p, ok, message).statusText == W.Text("Error: " + message)
    ensures var (ok, message) := W.FinalReport(true, success);
      var q := AfterFinish(p, ok, message).(statusText := W.Text(W.FinalStatus(true, success)));
      q.statusText == W.Text("Cancelled") && q.errorMessage == "Download cancelled" && !q.isDownloading
  {
    assert W.FinalReport(true, success) == (false, "Download cancelled");
    assert W.FinalStatus(true, success) == "Cancelled";
  }

  function AfterCancel(p: DownloadProgress): (q: DownloadProgress)
    ensures !q.isDownloading && q.statusText == W.Text("Cancelling...")
    ensures q.(isDownloading := p.isDownloading, statusText := p.statusText) == p
  {
    p.(isDownloading := false, statusText := W.Text("Cancelling..."))
  }

  /** The fields `get_download_progress` reports. */
  datatype ProgressView = ProgressView(
    current: int, total: int, percentage: int, speed: Speed, eta: string,
    statusText: W.StatusText, isDownloading: bool, errorMessage: string)

  const NotStartedView: ProgressView :=
    ProgressView(0, 0, 0, NoSpeed, ZeroEta, W.Text("Not started"), false, "")

  function ViewOf(p: DownloadProgress): ProgressView
  {
    ProgressView(p.current, p.total, p.percentage, p.speed, p.eta, p.statusText, p.isDownloading, p.errorMessage)
  }

  // ---------------------------------------------------------------------
  // On-disk status

  /** What the path manager's queries return: the path each getter yields
      (a missing id means that getter raises), the paths that exist, and the
      integrity verdict per path (a missing path means the check raises). */
  datatype PathManager = PathManager(modelPaths: map<string, string>, existing: set<string>, integrity: map<string, bool>)

  /** A model counts as downloaded when its directory exists, except the
      CosyVoice3 model, which must also pass the integrity check. A failing
      query yields ERROR; unknown ids and a missing path manager yield
      NOT_DOWNLOADED. */
  function CheckModelStatus(pm: Option<PathManager>, id: string): (st: ModelDownloadStatus)
    ensures st != Downloading
    ensures pm.None? || id !in PathCheckIds ==> st == NotDownloaded
    ensures st == Downloaded <==>
              pm.Some? && id in PathCheckIds && id in pm.value.modelPaths
              && (if id == Cosyvoice3Id
                  then pm.value.modelPaths[id] in pm.value.integrity && pm.value.integrity[pm.value.modelPaths[id]]
                  else pm.value.modelPaths[id] in pm.value.existing)
    ensures st == Error <==>
              pm.Some? && id in PathCheckIds
              && (id !in pm.value.modelPaths
                  || (id == Cosyvoice3Id && pm.value.modelPaths[id] !in pm.value.integrity))
  {
    if pm.None? || id !in PathCheckIds then NotDownloaded
    else if id !in pm.value.modelPaths then Error
    else
      var path := pm.value.modelPaths[id];
      if id == Cosyvoice3Id then
        if path !in pm.value.integrity then Error
        else if pm.value.integrity[path] then Downloaded
        else NotDownloaded
      else if path in pm.value.existing then Downloaded
      else NotDownloaded
  }

  /** The ids of `models` whose status is DOWNLOADED, in order. */
  function DownloadedIds(pm: Option<PathManager>, models: seq<ModelInfo>): (ids: seq<string>)
    decreases |models|
  {
    if models == [] then []
    else
      var last := models[|models| - 1];
      DownloadedIds(pm, models[..|models| - 1])
        + (if CheckModelStatus(pm, last.id) == Downloaded then [last.id] else [])
  }

  lemma {:induction false} DownloadedIdsMembers(pm: Option<PathManager>, models: seq<ModelInfo>, x: string)
    ensures x in DownloadedIds(pm, models) <==>
              (exists i :: 0 <= i < |models| && models[i].id == x) && CheckModelStatus(pm, x) == Downloaded
    decreases |models|
  {
    if models != [] {
      var init := models[..|models| - 1];
      DownloadedIdsMembers(pm, init, x);
      if exists i :: 0 <= i < |init| && init[i].id == x {
        var i :| 0 <= i < |init| && init[i].id == x;
        assert models[i].id == x;
      }
      if exists i :: 0 <= i < |models| && models[i].id == x {
        var i :| 0 <= i < |models| && models[i].id == x;
        if i < |init| { assert init[i].id == x; }
      }
    }
  }

  /** What the service relays to the user interface. */
  datatype Relay =
    | ProgressRelayed(modelId: string, current: int, total: int, percentage: int)
    | FinishedRelayed(modelId: string, success: bool, message: string)
    | StatusRelayed(modelId: string, status: W.StatusText)

  class ModelDownloadService {
    var downloadManagerSet: bool
    var pathManager: Option<PathManager>
    var tasks: map<string, W.ModelDownloadWorker>
    var progress: map<string, DownloadProgress>
    var relayed: seq<Relay>

    /** Every task has a progress record, belongs to a registered model and
        runs the worker for that model. */
    ghost predicate Valid()
      reads this
    {
      && tasks.Keys <= progress.Keys
      && (forall id :: id in tasks ==> IsRegistered(id))
      && (forall id :: id in tasks ==> tasks[id].modelId == id)
    }

    constructor()
      ensures Valid()
      ensures !downloadManagerSet && pathManager == None
      ensures tasks == map[] && progress == map[] && relayed == []
    {
      downloadManagerSet := false;
      pathManager := None;
      tasks := map[];
      progress := map[];
      relayed := [];
    }

    method SetDownloadManager()
      modifies this`downloadManagerSet
      ensures downloadManagerSet
    {
      downloadManagerSet := true;
    }

    method SetPathManager(pm: PathManager)
      modifies this`pathManager
      ensures pathManager == Some(pm)
    {
      pathManager := Some(pm);
    }

    /** The first registry entry with the given id. */
    method GetModelInfo(id: string) returns (r: Option<ModelInfo>)
      ensures r.Some? <==> IsRegistered(id)
      ensures r.Some? ==> exists i :: 0 <= i < |AvailableModels| && AvailableModels[i] == r.value
                                     && r.value.id == id
                                     && forall j :: 0 <= j < i ==> AvailableModels[j].id != id
    {
      var i := 0;
      while i < |AvailableModels|
        invariant 0 <= i <= |AvailableModels|
        invariant forall j :: 0 <= j < i ==> AvailableModels[j].id != id
      {
        if AvailableModels[i].id == id {
          return Some(AvailableModels[i]);
        }
        i := i + 1;
      }
      return None;
    }

    function Status(id: string): ModelDownloadStatus
      reads this
    {
      CheckModelStatus(pathManager, id)
    }

    /** Starts a download unless one is already running for this id, the id
        is unknown, or no download manager is set. */
    method StartDownload(id: string, now: int) returns (started: bool)
      requires Valid()
      modifies this`tasks, this`progress
      ensures Valid()
      ensures started <==> id !in old(tasks) && IsRegistered(id) && downloadManagerSet
      ensures !started ==> tasks == old(tasks) && progress == old(progress)
      ensures started ==> progress == old(progress)[id := StartedProgress(id, now)]
      ensures started ==> tasks.Keys == old(tasks).Keys + {id}
                          && (forall k :: k in old(tasks) ==> tasks[k] == old(tasks)[k])
                          && fresh(tasks[id]) && tasks[id].running && !tasks[id].cancelled
                          && tasks[id].signals == []
    {
      if id in tasks {
        return false;
      }
      var info := GetModelInfo(id);
      if info.None? {
        return false;
      }
      if !downloadManagerSet {
        return false;
      }
      progress := progress[id := StartedProgress(id, now)];
      var worker := new W.ModelDownloadWorker(id, info.value.name);
      tasks := tasks[id := worker];
      started := true;
    }

    /** Asks a running worker to stop; the task stays registered until the
        worker reports completion. */
    method CancelDownload(id: string) returns (cancelled: bool)
      requires Valid()
      modifies this`progress, if id in tasks then {tasks[id]} else {}
      ensures Valid()
      ensures tasks == old(tasks)
      ensures cancelled <==> id in old(tasks)
      ensures cancelled ==> tasks[id].cancelled && !tasks[id].running
      ensures cancelled ==> tasks[id].signals == old(tasks[id].signals)
      ensures progress == if cancelled && id in old(progress)
                          then old(progress)[id := AfterCancel(old(progress)[id])]
                          else old(progress)
    {
      if id !in tasks {
        return false;
      }
      var worker := tasks[id];
      worker.Cancel();
      if id in progress {
        progress := progress[id := AfterCancel(progress[id])];
      }
      cancelled := true;
    }

    function DownloadProgressView(id: string): (v: ProgressView)
      reads this
      ensures id !in progress ==> v == NotStartedView
      ensures id in progress ==> v == ViewOf(progress[id])
    {
      if id in progress then ViewOf(progress[id]) else NotStartedView
    }

    method OnDownloadProgress(id: string, current: int, total: int, percentage: int, now: int)
      requires Valid()
      modifies this`progress, this`relayed
      ensures Valid()
      ensures progress == if id in old(progress)
                          then old(progress)[id := AfterProgress(old(progress)[id], current, total, percentage, now)]
                          else old(progress)
      ensures relayed == old(relayed) + [ProgressRelayed(id, current, total, percentage)]
    {
      if id in progress {
        progress := progress[id := AfterProgress(progress[id], current, total, percentage, now)];
      }
      relayed := relayed + [ProgressRelayed(id, current, total, percentage)];
    }

    /** Completion frees the id for a new download. */
    method OnDownloadFinished(id: string, success: bool, message: string)
      requires Valid()
      modifies this`progress, this`tasks, this`relayed
      ensures Valid()
      ensures tasks == old(tasks) - {id}
      ensures progress == if id in old(progress)
                          then old(progress)[id := AfterFinish(old(progress)[id], success, message)]
                          else old(progress)
      ensures relayed == old(relayed) + [FinishedRelayed(id, success, message)]
    {
      if id in progress {
        progress := progress[id := AfterFinish(progress[id], success, message)];
      }
      if id in tasks {
        tasks := tasks - {id};
      }
      relayed := relayed + [FinishedRelayed(id, success, message)];
    }

    method OnDownloadStatusUpdate(id: string, status: W.StatusText)
      requires Valid()
      modifies this`progress, this`relayed
      ensures Valid()
      ensures progress == if id in old(progress)
                          then old(progress)[id := old(progress)[id].(statusText := status)]
                          else old(progress)
      ensures relayed == old(relayed) + [StatusRelayed(id, status)]
    {
      if id in progress {
        progress := progress[id := progress[id].(statusText := status)];
      }
      relayed := relayed + [StatusRelayed(id, status)];
    }

    /** cleanup_cache: hands the clean-up of incomplete downloads to the
        download manager. `raises` says whether that call raised. The result
        is false without a manager, otherwise whether the call went through;
        the service's own state is untouched. */
    method CleanupCache(raises: bool) returns (cleaned: bool)
      ensures cleaned <==> downloadManagerSet && !raises
    {
      if !downloadManagerSet {
        return false;
      }
      cleaned := !raises;
    }

    /** Registry ids whose status is DOWNLOADED, in registry order. */
    method GetDownloadedModels() returns (ids: seq<string>)
      ensures ids == DownloadedIds(pathManager, AvailableModels)
      ensures forall x :: x in ids <==> IsRegistered(x) && Status(x) == Downloaded
    {
      ids := [];
      var i := 0;
      while i < |AvailableModels|
        invariant 0 <= i <= |AvailableModels|
        invariant ids == DownloadedIds(pathManager, AvailableModels[..i])
      {
        var model := AvailableModels[i];
        if Status(model.id) == Downloaded {
          ids := ids + [model.id];
        }
        assert AvailableModels[..i + 1][..i] == AvailableModels[..i];
        i := i + 1;
      }
      assert AvailableModels[..i] == AvailableModels;
      forall x
        ensures x in ids <==> IsRegistered(x) && Status(x) == Downloaded
      {
        DownloadedIdsMembers(pathManager, AvailableModels, x);
      }
    }
  }

  /** At most one download per model: a second start is refused while the
      first is running, even after a cancel, and accepted again once the
      worker has reported completion. */
  method AtMostOneDownloadPerModel(now: int) returns (first: bool, second: bool, afterCancel: bool, afterFinish: bool)
    ensures first && !second && !afterCancel && afterFinish
  {
    var service := new ModelDownloadService();
    service.SetDownloadManager();
    assert IsRegistered("cosyvoice2") by { assert AvailableModels[1].id == "cosyvoice2"; }
    first := service.StartDownload("cosyvoice2", now);
    second := service.StartDownload("cosyvoice2", now + 1);
    var _ := service.CancelDownload("cosyvoice2");
    afterCancel := service.StartDownload("cosyvoice2", now + 2);
    service.OnDownloadFinished("cosyvoice2", false, "Download cancelled");
    afterFinish := service.StartDownload("cosyvoice2", now + 3);
  }

  /** Without a download manager nothing starts and no record is created. */
  method StartWithoutManager(id: string, now: int) returns (started: bool, view: ProgressView)
    ensures !started && view == NotStartedView
  {
    var service := new ModelDownloadService();
    started := service.StartDownload(id, now);
    view := service.DownloadProgressView(id);
  }
}

=== FILE: download_worker.dfy ===
/** The background worker that runs one model download: cooperative
    cancellation through two flags, a bounded status-polling loop around the
    blocking transfer, and the choice of the final outcome.

    Threads are replaced by an explicit description of the outside world:
    for every evaluation of the polling loop's condition, a `Poll` says
    whether the transfer has finished by then, whether `cancel()` or `stop()`
    was called just before, and what the transfer manager's status query
    returns on that round.

    The progress signal is declared with `total` as a string while the
    callback passes the integer size, and PyQt checks the declared types when
    a signal is emitted. Every member that forwards progress therefore takes
    `progressEmits`: false is the program as written, where that emit raises
    `TypeError`, and true is the program with `total` declared as an integer. */
module DownloadWorker {
  import opened Common

  /** The transfer manager's model types, one per known model id. */
  datatype ModelType =
    | CosyVoice3_2512 | CosyVoice2 | CosyVoice300M | CosyVoice300MSft
    | CosyVoice300MInstruct | CosyVoiceTtsfrd

  const KnownModelIds: seq<string> := [
    "cosyvoice3_2512", "cosyvoice2", "cosyvoice_300m",
    "cosyvoice_300m_sft", "cosyvoice_300m_instruct", "cosyvoice_ttsfrd"
  ]

  function ModelTypeOf(modelId: string): (t: Option<ModelType>)
    ensures t.Some? <==> modelId in KnownModelIds
  {
    if modelId == "cosyvoice3_2512" then Some(CosyVoice3_2512)
    else if modelId == "cosyvoice2" then Some(CosyVoice2)
    else if modelId == "cosyvoice_300m" then Some(CosyVoice300M)
    else if modelId == "cosyvoice_300m_sft" then Some(CosyVoice300MSft)
    else if modelId == "cosyvoice_300m_instruct" then Some(CosyVoice300MInstruct)
    else if modelId == "cosyvoice_ttsfrd" then Some(CosyVoiceTtsfrd)
    else None
  }

  /** Different ids never share a model type. */
  lemma ModelTypeOfInjective(a: string, b: string)
    requires ModelTypeOf(a).Some? && ModelTypeOf(a) == ModelTypeOf(b)
    ensures a == b
  {
  }

  /** Status lines the worker emits: fixed texts, and the
      "<current MB> / <total MB>" line whose decimal rendering is not modelled. */
  datatype StatusText = Text(text: string) | SizeLine(current: int, total: int)

  datatype Signal =
    | Progress(modelId: string, current: int, total: int, percentage: int)
    | StatusUpdate(modelId: string, status: StatusText)
    | Finished(modelId: string, success: bool, message: string)

  /** Python's int(x / y) for y > 0: division truncating toward zero. */
  function TruncDiv(x: int, y: int): (q: int)
    requires y > 0
    ensures x >= 0 ==> q * y <= x < (q + 1) * y
    ensures x < 0 ==> q == -((-x) / y)
  {
    if x >= 0 then x / y else -((-x) / y)
  }

  /** The percentage the progress callback reports: current·100/total rounded
      toward zero when total is positive, 0 otherwise. */
  function Percentage(current: int, total: int): (p: int)
    ensures total <= 0 ==> p == 0
    ensures total > 0 && current >= 0 ==> p * total <= current * 100 < (p + 1) * total
    ensures total > 0 && 0 <= current <= total ==> 0 <= p <= 100
  {
    if total > 0 then TruncDiv(current * 100, total) else 0
  }

  /** What the transfer manager's status query returns on one polling round.
      `progressHundredths` is int(status.progress * 100). */
  datatype PollStatus =
    | NoStatus
    | Status(progressHundredths: Option<int>, downloadedSize: Option<int>, totalSize: Option<int>)
    | StatusRaises(message: string)

  /** The outside world at one evaluation of the polling loop's condition. */
  datatype Poll = Poll(complete: bool, cancel: bool, stop: bool, status: PollStatus)

  const MaxPolls: nat := 600

  /** After the last described poll the transfer is taken to have finished. */
  function PollAt(world: seq<Poll>, i: nat): Poll
  {
    if i < |world| then world[i] else Poll(true, false, false, NoStatus)
  }

  /** How the polling loop ended. */
  datatype LoopExit =
    | Completed | CancelSeen | PollLimit | CallbackStop
    | StatusError(message: string)
    | EmitError(message: string)

  /** The text of the `TypeError` PyQt raises when the progress signal is
      emitted with an integer in its third, string-typed slot. */
  const ProgressTypeError: string :=
    "DownloadSignals.progress[str, int, str, int].emit(): argument 3 has unexpected type 'int'"

  datatype LoopState = LoopState(polls: nat, last: int, running: bool, cancelled: bool, emitted: seq<Signal>)

  /** The two signals one forwarded progress report emits. */
  function ReportSignals(modelId: string, current: int, total: int): seq<Signal>
  {
    [Progress(modelId, current, total, Percentage(current, total)),
     StatusUpdate(modelId, SizeLine(current, total))]
  }

  /** int(status.progress * 100), or 0 when the status has no progress. */
  function StatusValue(st: PollStatus): int
  {
    if st.Status? && st.progressHundredths.Some? then st.progressHundredths.value else 0
  }

  /** The `downloaded` a report forwards: the status's size, or the last
      progress value when it has none. */
  function ReportedCurrent(st: PollStatus, last: int): int
  {
    if st.Status? && st.downloadedSize.Some? then st.downloadedSize.value else last
  }

  /** The `total` a report forwards: the status's total size, or 0. */
  function ReportedTotal(st: PollStatus): int
  {
    if st.Status? && st.totalSize.Some? then st.totalSize.value else 0
  }

  /** A round reaches the progress callback: the transfer has not finished,
      no cancellation is seen, a status came back, and its value grew past
      the last one forwarded or this is a tenth poll. */
  predicate CallsBack(p: Poll, s: LoopState)
  {
    && !p.complete && !(s.cancelled || p.cancel) && p.status.Status?
    && (StatusValue(p.status) > s.last || (s.polls + 1) % 10 == 0)
  }

  /** One round of the polling loop: the world's cancel/stop calls land, the
      loop condition is evaluated, the status is polled, and progress is
      forwarded when the callback is reached and the worker still runs. When
      the progress signal rejects the report, the round ends the loop with the
      emit's error and nothing is emitted. The round either ends the loop
      (exit is Some) or leaves it to go on. */
  function Round(modelId: string, progressEmits: bool, p: Poll, s: LoopState): (r: (Option<LoopExit>, LoopState))
    requires s.polls < MaxPolls
    ensures r.1.cancelled == (s.cancelled || p.cancel)
    ensures r.1.running == (s.running && !p.cancel && !p.stop)
    ensures r.0 == Some(Completed) <==> p.complete
    ensures r.0 == Some(CancelSeen) <==> !p.complete && r.1.cancelled
    ensures (r.0.Some? && r.0.value.StatusError?) <==> !p.complete && !r.1.cancelled && p.status.StatusRaises?
    ensures r.0 == Some(CallbackStop) <==> CallsBack(p, s) && !r.1.running
    ensures r.0 == Some(PollLimit) ==> r.1.polls == MaxPolls
    ensures r.0.None? ==> r.1.polls == s.polls + 1 < MaxPolls
    ensures r.1.polls == (if p.complete || r.1.cancelled then s.polls else s.polls + 1)
    ensures (r.0.Some? && r.0.value.EmitError?) <==> CallsBack(p, s) && r.1.running && !progressEmits
    ensures r.0.Some? && r.0.value.EmitError? ==> r.0.value.message == ProgressTypeError
    ensures (r.1.emitted == s.emitted + ReportSignals(modelId, ReportedCurrent(p.status, s.last), ReportedTotal(p.status)))
              <==> CallsBack(p, s) && r.1.running && progressEmits
    ensures !(CallsBack(p, s) && r.1.running && progressEmits) ==> r.1.emitted == s.emitted && r.1.last == s.last
    ensures CallsBack(p, s) && r.1.running && progressEmits ==> r.1.last == StatusValue(p.status)
  {
    var cancelled := s.cancelled || p.cancel;
    var running := s.running && !p.cancel && !p.stop;
    var s1 := s.(running := running, cancelled := cancelled);
    if p.complete then (Some(Completed), s1)
    else if cancelled then (Some(CancelSeen), s1)
    else
      var n := s.polls + 1;
      match p.status
      case StatusRaises(m) => (Some(StatusError(m)), s1.(polls := n))
      case NoStatus => (if n >= MaxPolls then Some(PollLimit) else None, s1.(polls := n))
      case Status(_, _, _) =>
        if CallsBack(p, s) then
          if !running then (Some(CallbackStop), s1.(polls := n))
          else if !progressEmits then (Some(EmitError(ProgressTypeError)), s1.(polls := n))
          else
            var s2 := s1.(polls := n, last := StatusValue(p.status),
                          emitted := s1.emitted + ReportSignals(modelId, ReportedCurrent(p.status, s.last), ReportedTotal(p.status)));
            (if n >= MaxPolls then Some(PollLimit) else None, s2)
        else (if n >= MaxPolls then Some(PollLimit) else None, s1.(polls := n))
  }

  /** The polling loop: rounds follow one another until one ends it. */
  function RunLoop(modelId: string, progressEmits: bool, world: seq<Poll>, s: LoopState): (r: (LoopExit, LoopState))
    requires s.polls < MaxPolls
    ensures s.polls <= r.1.polls <= MaxPolls
    ensures s.emitted <= r.1.emitted
    ensures s.cancelled ==> r.1.cancelled
    ensures r.0 == Completed ==> PollAt(world, r.1.polls).complete
    ensures r.0 == CancelSeen ==> r.1.cancelled
    ensures r.0 == PollLimit ==> r.1.polls == MaxPolls
    ensures r.0 == CallbackStop ==> !r.1.running
    ensures r.0.EmitError? ==> !progressEmits && r.0.message == ProgressTypeError
    decreases MaxPolls - s.polls
  {
    var (exit, t) := Round(modelId, progressEmits, PollAt(world, s.polls), s);
    if exit.Some? then (exit.value, t) else RunLoop(modelId, progressEmits, world, t)
  }

  /** As written, no progress report ever leaves the worker: the loop ends
      with the emit's `TypeError` exactly when the program with an integer
      `total` would have forwarded a report, and the run then ends as a
      failure carrying that error's text. */
  lemma {:induction false} AsWrittenProgressRaises(modelId: string, world: seq<Poll>, s: LoopState, backgroundSuccess: bool)
    requires s.polls < MaxPolls
    ensures RunLoop(modelId, false, world, s).1.emitted == s.emitted
    ensures RunLoop(modelId, false, world, s).0.EmitError? <==> RunLoop(modelId, true, world, s).1.emitted != s.emitted
    ensures var a := RunLoop(modelId, false, world, s);
            a.0.EmitError? ==>
              FinalSignals(modelId, LoopOutcome(a.0, a.1.cancelled, backgroundSuccess), a.1.cancelled)
              == [Finished(modelId, false, ProgressTypeError), StatusUpdate(modelId, Text("Error: " + ProgressTypeError))]
    decreases MaxPolls - s.polls
  {
    var p := PollAt(world, s.polls);
    var (ea, ta) := Round(modelId, false, p, s);
    var (ec, tc) := Round(modelId, true, p, s);
    if CallsBack(p, s) && ta.running {
      assert ea.Some? && ea.value.EmitError? && ta.emitted == s.emitted;
      assert tc.emitted == s.emitted + ReportSignals(modelId, ReportedCurrent(p.status, s.last), ReportedTotal(p.status));
      if ec.None? {
        assert tc.emitted <= RunLoop(modelId, true, world, tc).1.emitted;
      }
    } else {
      assert (ea, ta) == (ec, tc);
      if ea.None? {
        AsWrittenProgressRaises(modelId, world, ta, backgroundSuccess);
      }
    }
  }

  /** What `_download_with_progress` hands back to `run`. */
  datatype TransferOutcome = Returned(success: bool) | Raised(message: string)

  function LoopOutcome(exit: LoopExit, cancelled: bool, backgroundSuccess: bool): (o: TransferOutcome)
    ensures exit.StatusError? || exit.EmitError? <==> o.Raised?
    ensures o.Raised? ==> o.message == exit.message
    ensures o == Returned(true) <==>
              !exit.StatusError? && !exit.EmitError? && !exit.CallbackStop? && !cancelled && backgroundSuccess
  {
    match exit
    case StatusError(m) => Raised(m)
    case EmitError(m) => Raised(m)
    case CallbackStop => Returned(false)
    case _ => Returned(!cancelled && backgroundSuccess)
  }

  /** The final report: cancellation beats success, then success, then failure. */
  function FinalReport(cancelled: bool, success: bool): (r: (bool, string))
    ensures r.0 <==> !cancelled && success
    ensures cancelled ==> r.1 == "Download cancelled"
    ensures !cancelled && success ==> r.1 == ""
    ensures !cancelled && !success ==> r.1 == "Download failed"
  {
    if cancelled then (false, "Download cancelled")
    else if success then (true, "")
    else (false, "Download failed")
  }

  /** The status line that follows each final report. */
  function FinalStatus(cancelled: bool, success: bool): string
  {
    if cancelled then "Cancelled" else if success then "Download complete" else "Download failed"
  }

  /** The two signals `run` ends with once the transfer is over: a failure
      report carrying the exception's message when it raised, otherwise the
      report and status line that cancellation and the success flag select. */
  function FinalSignals(modelId: string, o: TransferOutcome, cancelled: bool): (f: seq<Signal>)
    ensures |f| == 2 && f[0].Finished? && f[0].modelId == modelId
    ensures f[1].StatusUpdate? && f[1].modelId == modelId
    ensures f[0].success <==> o == Returned(true) && !cancelled
    ensures o.Raised? ==> f[0].message == o.message && f[1].status == Text("Error: " + o.message)
    ensures o.Returned? && cancelled ==> f[0].message == "Download cancelled" && f[1].status == Text("Cancelled")
    ensures o == Returned(true) && !cancelled ==> f[0].message == "" && f[1].status == Text("Download complete")
    ensures o == Returned(false) && !cancelled ==>
              f[0].message == "Download failed" && f[1].status == Text("Download failed")
  {
    match o
    case Raised(m) => [Finished(modelId, false, m), StatusUpdate(modelId, Text("Error: " + m))]
    case Returned(success) =>
      var report := FinalReport(cancelled, success);
      [Finished(modelId, report.0, report.1), StatusUpdate(modelId, Text(FinalStatus(cancelled, success)))]
  }

  function UnknownModelMessage(modelId: string): string
  {
    "Unknown model type: " + modelId
  }

  class ModelDownloadWorker {
    const modelId: string
    const modelName: string
    var running: bool
    var cancelled: bool
    /** Every signal emitted so far, in order. */
    var signals: seq<Signal>

    constructor(modelId: string, modelName: string)
      ensures this.modelId == modelId && this.modelName == modelName
      ensures running && !cancelled && signals == []
    {
      this.modelId := modelId;
      this.modelName := modelName;
      running := true;
      cancelled := false;
      signals := [];
    }

    /** Sets the cancellation flag and clears the running flag. */
    method Cancel()
      modifies this`running, this`cancelled
      ensures cancelled && !running
    {
      cancelled := true;
      running := false;
    }

    /** Clears only the running flag. */
    method Stop()
      modifies this`running
      ensures !running
    {
      running := false;
    }

    /** Returns false and emits nothing once the worker is cancelled or
        stopped. Otherwise it reports the progress and returns true, or,
        when the progress signal rejects the report, emits nothing and raises
        the emit's error (`raised`). */
    method ProgressCallback(progressEmits: bool, current: int, total: int) returns (proceed: bool, raised: Option<string>)
      modifies this`signals
      ensures proceed <==> running && !cancelled && progressEmits
      ensures raised.Some? <==> running && !cancelled && !progressEmits
      ensures raised.Some? ==> raised.value == ProgressTypeError
      ensures signals == if proceed then old(signals) + ReportSignals(modelId, current, total) else old(signals)
    {
      if !running || cancelled {
        return false, None;
      }
      if !progressEmits {
        return false, Some(ProgressTypeError);
      }
      signals := signals + ReportSignals(modelId, current, total);
      proceed, raised := true, None;
    }

    /** One round of the polling loop, as `Round` describes it. */
    method PollRound(progressEmits: bool, world: seq<Poll>, pollCount: nat, lastProgress: int)
      returns (exit: Option<LoopExit>, polls: nat, last: int)
      requires pollCount < MaxPolls
      modifies this`running, this`cancelled, this`signals
      ensures (exit, LoopState(polls, last, running, cancelled, signals))
           == Round(modelId, progressEmits, PollAt(world, pollCount), LoopState(pollCount, lastProgress, old(running), old(cancelled), old(signals)))
    {
      polls, last := pollCount, lastProgress;
      var p := PollAt(world, pollCount);
      if p.cancel { Cancel(); }
      if p.stop { Stop(); }
      if p.complete { return Some(Completed), polls, last; }
      if cancelled { return Some(CancelSeen), polls, last; }
      polls := pollCount + 1;
      match p.status {
        case StatusRaises(m) =>
          return Some(StatusError(m)), polls, last;
        case NoStatus =>
        case Status(progress, downloaded, total) =>
          var value := if progress.Some? then progress.value else 0;
          var current := if downloaded.Some? then downloaded.value else lastProgress;
          var size := if total.Some? then total.value else 0;
          if value > lastProgress || polls % 10 == 0 {
            var proceed, raised := ProgressCallback(progressEmits, current, size);
            if raised.Some? {
              return Some(EmitError(raised.value)), polls, last;
            }
            if !proceed {
              return Some(CallbackStop), polls, last;
            }
            last := value;
          }
      }
      exit := if polls >= MaxPolls then Some(PollLimit) else None;
    }

    /** The polling loop around the blocking transfer. `backgroundSuccess`
        is the success flag the transfer thread has left when it is read. */
    method DownloadWithProgress(progressEmits: bool, world: seq<Poll>, backgroundSuccess: bool) returns (outcome: TransferOutcome, polls: nat)
      modifies this`running, this`cancelled, this`signals
      ensures var r := RunLoop(modelId, progressEmits, world, LoopState(0, 0, old(running), old(cancelled),
                                 old(signals) + [StatusUpdate(modelId, Text("Connecting to server..."))]));
              && polls == r.1.polls
              && running == r.1.running && cancelled == r.1.cancelled && signals == r.1.emitted
              && outcome == LoopOutcome(r.0, r.1.cancelled, backgroundSuccess)
      ensures polls <= MaxPolls
      ensures old(signals) + [StatusUpdate(modelId, Text("Connecting to server..."))] <= signals
      ensures outcome == Returned(true) ==> !cancelled && backgroundSuccess
    {
      signals := signals + [StatusUpdate(modelId, Text("Connecting to server..."))];
      ghost var start := LoopState(0, 0, running, cancelled, signals);
      var lastProgress := 0;
      var pollCount := 0;
      var exit: LoopExit;
      while true
        invariant pollCount < MaxPolls
        invariant RunLoop(modelId, progressEmits, world, start)
               == RunLoop(modelId, progressEmits, world, LoopState(pollCount, lastProgress, running, cancelled, signals))
        decreases MaxPolls - pollCount
      {
        var roundExit;
        roundExit, pollCount, lastProgress := PollRound(progressEmits, world, pollCount, lastProgress);
        if roundExit.Some? {
          exit := roundExit.value;
          break;
        }
      }
      polls := pollCount;
      outcome := LoopOutcome(exit, cancelled, backgroundSuccess);
    }

    /** The worker's whole run: look up the model type, poll the transfer,
        then emit exactly one final report followed by a status line. */
    method Run(progressEmits: bool, world: seq<Poll>, backgroundSuccess: bool)
      modifies this`running, this`cancelled, this`signals
      ensures old(signals) + [StatusUpdate(modelId, Text("Initializing download..."))] <= signals
      ensures ModelTypeOf(modelId).None? ==>
                signals == old(signals) + [StatusUpdate(modelId, Text("Initializing download...")),
                                           Finished(modelId, false, UnknownModelMessage(modelId)),
                                           StatusUpdate(modelId, Text("Error: " + UnknownModelMessage(modelId)))]
      ensures |signals| >= 2 && signals[|signals| - 2].Finished?
      ensures signals[|signals| - 2].success ==> !cancelled && backgroundSuccess
      ensures cancelled && signals[|signals| - 2].message != "Download cancelled" ==>
                !signals[|signals| - 2].success
      ensures ModelTypeOf(modelId).Some? ==>
                var r := RunLoop(modelId, progressEmits, world, LoopState(0, 0, old(running), old(cancelled),
                           old(signals) + [StatusUpdate(modelId, Text("Initializing download...")),
                                           StatusUpdate(modelId, Text("Connecting to server..."))]));
                && running == r.1.running && cancelled == r.1.cancelled
                && signals == r.1.emitted + FinalSignals(modelId, LoopOutcome(r.0, r.1.cancelled, backgroundSuccess), r.1.cancelled)
    {
      signals := signals + [StatusUpdate(modelId, Text("Initializing download..."))];
      ghost var prefix := signals;
      if ModelTypeOf(modelId).None? {
        var msg := UnknownModelMessage(modelId);
        signals := signals + [Finished(modelId, false, msg), StatusUpdate(modelId, Text("Error: " + msg))];
        return;
      }
      assert prefix + [StatusUpdate(modelId, Text("Connecting to server..."))]
          == old(signals) + [StatusUpdate(modelId, Text("Initializing download...")),
                             StatusUpdate(modelId, Text("Connecting to server..."))];
      var outcome, _ := DownloadWithProgress(progressEmits, world, backgroundSuccess);
      signals := signals + FinalSignals(modelId, outcome, cancelled);
    }
  }

  /** Round-level facts about the loop: it stops after at most 600 polls,
      and a cancellation that lands at the very first check ends it before
      any status is polled. */
  lemma CancelAtFirstCheck(modelId: string, progressEmits: bool, world: seq<Poll>, s: LoopState)
    requires s.polls == 0 && |world| > 0 && world[0].cancel && !world[0].complete
    ensures RunLoop(modelId, progressEmits, world, s).0 == CancelSeen
    ensures RunLoop(modelId, progressEmits, world, s).1.polls == 0
    ensures RunLoop(modelId, progressEmits, world, s).1.emitted == s.emitted
  {
  }

  /** A stopped worker whose poll has grown forwards nothing and stops the loop. */
  lemma StoppedWorkerStopsAtFirstReport(modelId: string, progressEmits: bool, world: seq<Poll>, s: LoopState, value: int)
    requires s.polls < MaxPolls - 1 && !s.running && !s.cancelled
    requires PollAt(world, s.polls) == Poll(false, false, false, Status(Some(value), None, None))
    requires value > s.last
    ensures RunLoop(modelId, progressEmits, world, s).0 == CallbackStop
    ensures RunLoop(modelId, progressEmits, world, s).1.emitted == s.emitted
  {
  }
}

=== FILE: error_handler.dfy ===
// The application's error handling: the exception hierarchy, how a handled
// exception is classified, counted and shown, and the wrappers that turn a
// raised exception into a default result. Logging and the Qt signal are
// represented by what they would carry; dialogs by their title and text.

module ErrorHandling {
  import opened Common

  /** The exception classes of the application, the startup check's
      StartupError included, plus any other exception (a built-in or library
      one, never a class of the application), known only by its class name. */
  datatype ExceptionType =
    | AppError
    | ServiceError | AudioServiceError | FileServiceError | ModelDownloadError | ConfigError
    | ModelLoadError | AudioValidationError
    | UIError | AudioGenerationError
    | ResourceError | GPUResourceError | MemoryError | DiskSpaceError
    | StartupError
    | Foreign(className: string)

  /** The direct base class within the application's hierarchy. */
  function Parent(t: ExceptionType): Option<ExceptionType>
  {
    match t
    case AppError => None
    case Foreign(_) => None
    case ServiceError | UIError | ResourceError | StartupError => Some(AppError)
    case AudioServiceError | FileServiceError | ModelDownloadError | ConfigError
       | ModelLoadError | AudioValidationError => Some(ServiceError)
    case AudioGenerationError => Some(UIError)
    case GPUResourceError | MemoryError | DiskSpaceError => Some(ResourceError)
  }

  function Depth(t: ExceptionType): nat
  {
    match t
    case AppError => 0
    case Foreign(_) => 0
    case ServiceError | UIError | ResourceError | StartupError => 1
    case _ => 2
  }

  /** isinstance: t is c or inherits from it. */
  predicate IsA(t: ExceptionType, c: ExceptionType)
    decreases Depth(t)
  {
    t == c || (Parent(t).Some? && Depth(Parent(t).value) < Depth(t) && IsA(Parent(t).value, c))
  }

  /** Every class of the application derives from AppError; no other
      exception does. */
  lemma AppErrorIsRoot(t: ExceptionType)
    ensures IsA(t, AppError) <==> !t.Foreign?
  {
  }

  /** type(exc).__name__ */
  function TypeName(t: ExceptionType): string
  {
    match t
    case AppError => "AppError"
    case ServiceError => "ServiceError"
    case AudioServiceError => "AudioServiceError"
    case FileServiceError => "FileServiceError"
    case ModelDownloadError => "ModelDownloadError"
    case ConfigError => "ConfigError"
    case ModelLoadError => "ModelLoadError"
    case AudioValidationError => "AudioValidationError"
    case UIError => "UIError"
    case AudioGenerationError => "AudioGenerationError"
    case ResourceError => "ResourceError"
    case GPUResourceError => "GPUResourceError"
    case MemoryError => "MemoryError"
    case DiskSpaceError => "DiskSpaceError"
    case StartupError => "StartupError"
    case Foreign(name) => name
  }

  datatype ErrorLevel = Info | Warning | Error | Critical | Fatal

  /** The classes classification tests for: the resource leaves have no
      subclasses, and UIError has only AudioGenerationError. */
  lemma TestedClasses(t: ExceptionType)
    ensures IsA(t, GPUResourceError) <==> t == GPUResourceError
    ensures IsA(t, MemoryError) <==> t == MemoryError
    ensures IsA(t, DiskSpaceError) <==> t == DiskSpaceError
    ensures IsA(t, UIError) <==> t == UIError || t == AudioGenerationError
  {
  }

  /** handle_exception's classification, checked in the source's order:
      resource exhaustion is critical, model-load and audio/file service
      failures are errors, UI failures are warnings, anything else is an
      error. */
  function Classify(t: ExceptionType): (level: ErrorLevel)
    ensures level == Critical <==> t in {GPUResourceError, MemoryError, DiskSpaceError}
    ensures level == Warning <==> t in {UIError, AudioGenerationError}
    ensures level == Error <==> level != Critical && level != Warning
  {
    TestedClasses(t);
    if IsA(t, GPUResourceError) || IsA(t, MemoryError) || IsA(t, DiskSpaceError) then Critical
    else if IsA(t, ModelLoadError) then Error
    else if IsA(t, AudioServiceError) || IsA(t, FileServiceError) then Error
    else if IsA(t, UIError) then Warning
    else Error
  }

  /** Handling never classifies anything as merely informational or fatal. */
  lemma ClassifyRange(t: ExceptionType)
    ensures Classify(t) in {Warning, Error, Critical}
  {
  }

  /** The error dialog's title for a level. */
  function DialogTitle(level: ErrorLevel): (title: string)
    ensures level in {Critical, Fatal} ==> title == "严重错误"
    ensures level == Error ==> title == "错误"
    ensures level == Warning ==> title == "警告"
    ensures level == Info ==> title == "提示"
  {
    if level == Critical || level == Fatal then "严重错误"
    else if level == Error then "错误"
    else if level == Warning then "警告"
    else "提示"
  }

  /** Levels get the same title exactly when both are critical-or-fatal or
      they are the same level. */
  lemma DialogTitlesDistinct(a: ErrorLevel, b: ErrorLevel)
    ensures DialogTitle(a) == DialogTitle(b) <==> a == b || (a in {Critical, Fatal} && b in {Critical, Fatal})
  {
  }

  /** A raised exception: its class and the three values an AppError
      carries. For an exception from outside the application, message is
      its text and details and recoveryHint are not consulted. */
  datatype Raised = Raised(kind: ExceptionType, message: string, details: Option<string>, recoveryHint: Option<string>)

  /** A Python truth test on an optional string: set and not empty. */
  predicate IsSet(s: Option<string>) { s.Some? && s.value != [] }

  /** AppError.__str__: the message, then a details line if details is set,
      then a hint line if the recovery hint is set. */
  function AppErrorText(message: string, details: Option<string>, recoveryHint: Option<string>): (r: string)
    ensures StartsWith(r, message)
    ensures r == message <==> !IsSet(details) && !IsSet(recoveryHint)
    ensures IsSet(details) && !IsSet(recoveryHint) ==> r == message + "\n详情: " + details.value
    ensures !IsSet(details) && IsSet(recoveryHint) ==> r == message + "\n建议: " + recoveryHint.value
    ensures IsSet(details) && IsSet(recoveryHint) ==>
              r == message + "\n详情: " + details.value + "\n建议: " + recoveryHint.value
  {
    var withDetails := if IsSet(details) then message + "\n详情: " + details.value else message;
    var r := if IsSet(recoveryHint) then withDetails + "\n建议: " + recoveryHint.value else withDetails;
    assert r[..|message|] == message by {
      assert withDetails[..|message|] == message;
    }
    r
  }

  /** str(exc) */
  function ExceptionText(e: Raised): string
  {
    if e.kind.Foreign? then e.message else AppErrorText(e.message, e.details, e.recoveryHint)
  }

  /** A dialog as the handler shows it. */
  datatype Dialog = Dialog(title: string, message: string, details: Option<string>)

  /** _show_error_dialog: the title for the level, the bare message, and
      the details and hint blocks when the exception has them. */
  function ErrorDialog(e: Raised, level: ErrorLevel): (d: Dialog)
    ensures d.title == DialogTitle(level) && d.message == e.message
    ensures d.details.None? <==> e.kind.Foreign? || (!IsSet(e.details) && !IsSet(e.recoveryHint))
  {
    var detailsPart := if !e.kind.Foreign? && IsSet(e.details) then "详情:\n" + e.details.value + "\n\n" else "";
    var hintPart := if !e.kind.Foreign? && IsSet(e.recoveryHint) then "建议:\n" + e.recoveryHint.value else "";
    var text := detailsPart + hintPart;
    Dialog(DialogTitle(level), e.message, if text == [] then None else Some(text))
  }

  /** The per-type counts after one more exception of the named type. */
  function CountOne(counts: map<string, nat>, typeName: string): (r: map<string, nat>)
    ensures typeName in r && r[typeName] == (if typeName in counts then counts[typeName] else 0) + 1
    ensures forall k :: k != typeName ==> (k in r <==> k in counts)
    ensures forall k :: k in counts && k != typeName ==> r[k] == counts[k]
  {
    counts[typeName := (if typeName in counts then counts[typeName] else 0) + 1]
  }

  /** What handle_exception emits: the exception's text and its level. */
  datatype Emitted = Emitted(text: string, level: ErrorLevel)

  class ErrorHandler {
    var errorCounts: map<string, nat>
    var hasParentWidget: bool

    constructor()
      ensures errorCounts == map[] && !hasParentWidget
    {
      errorCounts := map[];
      hasParentWidget := false;
    }

    method SetParentWidget()
      modifies this
      ensures hasParentWidget && errorCounts == old(errorCounts)
    {
      hasParentWidget := true;
    }

    /** handle_exception: classifies, counts one more exception of its
        type, emits its text with the level, and shows a dialog only when
        asked to and a parent window is set. */
    method HandleException(e: Raised, showDialog: bool) returns (emitted: Emitted, dialog: Option<Dialog>)
      modifies this
      ensures errorCounts == CountOne(old(errorCounts), TypeName(e.kind))
      ensures hasParentWidget == old(hasParentWidget)
      ensures emitted == Emitted(ExceptionText(e), Classify(e.kind))
      ensures dialog.Some? <==> showDialog && hasParentWidget
      ensures dialog.Some? ==> dialog.value == ErrorDialog(e, Classify(e.kind))
    {
      var level := Classify(e.kind);
      var name := TypeName(e.kind);
      errorCounts := errorCounts[name := (if name in errorCounts then errorCounts[name] else 0) + 1];
      emitted := Emitted(ExceptionText(e), level);
      if showDialog && hasParentWidget {
        dialog := Some(ErrorDialog(e, level));
      } else {
        dialog := None;
      }
    }

    /** show_error: an AppError built from the three texts is handed to
        handle_exception with the dialog requested. Its type is counted, the
        signal carries its text at the error level, and the dialog appears
        exactly when a parent window is set. */
    method ShowError(message: string, details: Option<string>, recoveryHint: Option<string>)
      returns (emitted: Emitted, dialog: Option<Dialog>)
      modifies this
      ensures errorCounts == CountOne(old(errorCounts), "AppError")
      ensures hasParentWidget == old(hasParentWidget)
      ensures emitted == Emitted(AppErrorText(message, details, recoveryHint), Error)
      ensures dialog.Some? <==> hasParentWidget
      ensures dialog.Some? ==>
                dialog.value.title == "错误" && dialog.value.message == message &&
                (dialog.value.details.None? <==> !IsSet(details) && !IsSet(recoveryHint))
    {
      emitted, dialog := HandleException(Raised(AppError, message, details, recoveryHint), true);
    }

    /** get_error_statistics: a copy of the counts. */
    function GetErrorStatistics(): (r: map<string, nat>)
      reads this
      ensures r == errorCounts
    {
      errorCounts
    }

    /** reset_statistics */
    method ResetStatistics()
      modifies this
      ensures errorCounts == map[] && hasParentWidget == old(hasParentWidget)
    {
      errorCounts := map[];
    }
  }

  /** Handling a sequence of exceptions leaves each type's count equal to
      the number of exceptions of that type among them (starting from no
      counts). */
  function CountAll(names: seq<string>): (r: map<string, nat>)
    decreases |names|
  {
    if names == [] then map[] else CountOne(CountAll(names[..|names| - 1]), names[|names| - 1])
  }

  function Occurrences(names: seq<string>, name: string): nat
    decreases |names|
  {
    if names == [] then 0
    else Occurrences(names[..|names| - 1], name) + (if names[|names| - 1] == name then 1 else 0)
  }

  lemma {:induction false} CountAllCountsOccurrences(names: seq<string>, name: string)
    ensures name in CountAll(names) <==> Occurrences(names, name) > 0
    ensures name in CountAll(names) ==> CountAll(names)[name] == Occurrences(names, name)
    decreases |names|
  {
    if names != [] {
      CountAllCountsOccurrences(names[..|names| - 1], name);
    }
  }

  /** log_and_raise_error: the exception it raises, an instance of the given
      application class carrying the three texts; its text is AppError's. */
  function LogAndRaiseError(kind: ExceptionType, message: string, details: Option<string>, recoveryHint: Option<string>): (e: Raised)
    requires !kind.Foreign?
    ensures IsA(e.kind, AppError) && TypeName(e.kind) == TypeName(kind)
    ensures e.message == message && e.details == details && e.recoveryHint == recoveryHint
    ensures ExceptionText(e) == AppErrorText(message, details, recoveryHint)
  {
    AppErrorIsRoot(kind);
    Raised(kind, message, details, recoveryHint)
  }

  /** The StartupError check_startup_requirements reports for a missing
      package, with the install command and the requirements-file hint. */
  function MissingPackage(package: string, command: string): Raised
  {
    Raised(StartupError, package + "未安装", Some("请运行: " + command), Some("或者: pip install -r requirements.txt"))
  }

  /** check_startup_requirements: one StartupError per missing package, for
      PyQt6, PyTorch and librosa in that order. The GPU probe only logs. */
  function StartupRequirementErrors(hasPyQt: bool, hasTorch: bool, hasLibrosa: bool): (errors: seq<Raised>)
    ensures |errors| == (if hasPyQt then 0 else 1) + (if hasTorch then 0 else 1) + (if hasLibrosa then 0 else 1)
    ensures errors == [] <==> hasPyQt && hasTorch && hasLibrosa
    ensures forall i :: 0 <= i < |errors| ==> errors[i].kind == StartupError && IsA(errors[i].kind, AppError)
    ensures !hasPyQt ==> errors[0] == MissingPackage("PyQt6", "pip install PyQt6")
    ensures !hasLibrosa ==> errors[|errors| - 1] == MissingPackage("librosa", "pip install librosa soundfile")
    ensures !hasTorch ==> errors[if hasPyQt then 0 else 1] == MissingPackage("PyTorch", "pip install torch torchaudio")
  {
    (if hasPyQt then [] else [MissingPackage("PyQt6", "pip install PyQt6")])
    + (if hasTorch then [] else [MissingPackage("PyTorch", "pip install torch torchaudio")])
    + (if hasLibrosa then [] else [MissingPackage("librosa", "pip install librosa soundfile")])
  }

  /** The outcome of calling a wrapped function. */
  datatype Outcome<T> = Returned(value: T) | Threw(error: Raised)

  /** safe_execute: the wrapped function's result, or the default when it
      raises. */
  function SafeExecute<T>(call: Outcome<T>, defaultReturn: T): (r: T)
    ensures call.Returned? ==> r == call.value
    ensures call.Threw? ==> r == defaultReturn
  {
    match call
    case Returned(v) => v
    case Threw(_) => defaultReturn
  }

  /** What a handle_errors wrapper gives its caller: a value (None after a
      handled exception) or the exception raised again. */
  datatype Wrapped<T> = Value(result: Option<T>) | Reraised(error: Raised)

  /** The handle_errors decorator and the ErrorContext manager, which both
      hand an exception to a handler. */
  class ErrorContext {
    const context: string
    const showDialog: bool
    const reraise: bool
    const errorHandler: ErrorHandler

    constructor(context: string, showDialog: bool, reraise: bool, errorHandler: ErrorHandler)
      ensures this.context == context && this.showDialog == showDialog
      ensures this.reraise == reraise && this.errorHandler == errorHandler
    {
      this.context := context;
      this.showDialog := showDialog;
      this.reraise := reraise;
      this.errorHandler := errorHandler;
    }

    /** __exit__: without an exception nothing is handled and the result is
        false; with one, the handler sees it once and the result says to
        suppress it exactly when reraise is off. */
    method Exit(e: Option<Raised>) returns (suppress: bool)
      modifies errorHandler
      ensures e.None? ==> !suppress && errorHandler.errorCounts == old(errorHandler.errorCounts)
      ensures e.Some? ==> suppress == !reraise
      ensures e.Some? ==> errorHandler.errorCounts == CountOne(old(errorHandler.errorCounts), TypeName(e.value.kind))
      ensures errorHandler.hasParentWidget == old(errorHandler.hasParentWidget)
    {
      if e.None? {
        return false;
      }
      var _, _ := errorHandler.HandleException(e.value, showDialog);
      suppress := !reraise;
    }
  }

  /** The handle_errors decorator: a normal result passes through; an
      exception is handled, then raised again or turned into None. */
  method HandleErrors<T>(handler: ErrorHandler, call: Outcome<T>, showDialog: bool, reraise: bool)
    returns (r: Wrapped<T>)
    modifies handler
    ensures call.Returned? ==> r == Value(Some(call.value)) && handler.errorCounts == old(handler.errorCounts)
    ensures call.Threw? ==> handler.errorCounts == CountOne(old(handler.errorCounts), TypeName(call.error.kind))
    ensures call.Threw? ==> r == if reraise then Reraised(call.error) else Value(None)
    ensures handler.hasParentWidget == old(handler.hasParentWidget)
  {
    match call
    case Returned(v) =>
      r := Value(Some(v));
    case Threw(e) =>
      var _, _ := handler.HandleException(e, showDialog);
      r := if reraise then Reraised(e) else Value(None);
  }
}

=== FILE: feedback.dfy ===
// The feedback service: it writes a feedback e-mail body from the user's
// message and what it can learn about the application, builds a mailto:
// URL from it, and hands the URL to the system's mail client.
//
// URL percent-encoding (section 2.1 of RFC 3986) is a function parameter
// `quote`; what the platform, configuration, statistics and log file
// answer is a BodyInputs value; whether the mail client opens is a
// parameter.

module Feedback {
  import opened Common

  // ---------------------------------------------------------------------
  // The mailto: URL

  /** One query parameter, name=quoted value. */
  function Param(name: string, value: string, quote: string -> string): string
  {
    name + "=" + quote(value)
  }

  /** _build_mailto_url: the subject and then the body parameter, each only
      when non-empty, after a "?" and joined by "&"; no "?" at all when
      both are empty. */
  method BuildMailtoUrl(email: string, subject: string, body: string, quote: string -> string) returns (url: string)
    ensures subject == [] && body == [] ==> url == "mailto:" + email
    ensures subject != [] && body == [] ==> url == "mailto:" + email + "?" + Param("subject", subject, quote)
    ensures subject == [] && body != [] ==> url == "mailto:" + email + "?" + Param("body", body, quote)
    ensures subject != [] && body != [] ==>
      url == "mailto:" + email + "?" + Param("subject", subject, quote) + "&" + Param("body", body, quote)
  {
    var params: seq<string> := [];
    if subject != [] {
      params := params + [Param("subject", subject, quote)];
    }
    if body != [] {
      params := params + [Param("body", body, quote)];
    }
    url := "mailto:" + email;
    if params != [] {
      assert |params| == 2 ==> params[1..] == [params[1]] && Join(params, "&") == params[0] + "&" + params[1];
      url := url + "?" + Join(params, "&");
    }
  }

  /** The query the URL carries: the parameters that are present. */
  function QueryParams(subject: string, body: string, quote: string -> string): seq<string>
  {
    (if subject != [] then [Param("subject", subject, quote)] else []) +
    (if body != [] then [Param("body", body, quote)] else [])
  }

  /** When quoting never yields "&" (percent-encoding escapes it), splitting
      the query on "&" gives back exactly the parameters that were put in. */
  lemma QueryRoundTrip(subject: string, body: string, quote: string -> string)
    requires '&' !in quote(subject) && '&' !in quote(body)
    ensures Split(Join(QueryParams(subject, body, quote), "&"), '&') ==
      (if subject == [] && body == [] then [""] else QueryParams(subject, body, quote))
  {
    var s := Param("subject", subject, quote);
    var b := Param("body", body, quote);
    assert '&' !in s by { assert s == "subject=" + quote(subject); }
    assert '&' !in b by { assert b == "body=" + quote(body); }
    if subject != [] && body != [] {
      assert QueryParams(subject, body, quote) == [s, b];
      assert Join([s, b], "&") == s + ['&'] + b;
      SplitAppend(s, '&', b);
      SplitWithoutSeparator(s, '&');
      SplitWithoutSeparator(b, '&');
    } else if subject != [] {
      assert QueryParams(subject, body, quote) == [s];
      SplitWithoutSeparator(s, '&');
    } else if body != [] {
      assert QueryParams(subject, body, quote) == [b];
      SplitWithoutSeparator(b, '&');
    }
  }

  // ---------------------------------------------------------------------
  // The e-mail body

  function Rule(): (r: string)
    ensures |r| == 60 && forall i :: 0 <= i < 60 ==> r[i] == '='
  {
    var r := Repeat("=", 60);
    assert forall i :: 0 <= i < 60 ==> r[i] == '=' by { RepeatChar('=', 60); }
    r
  }

  lemma {:induction false} RepeatChar(c: char, n: nat)
    ensures forall i :: 0 <= i < n ==> Repeat([c], n)[i] == c
  {
    if n > 0 {
      RepeatChar(c, n - 1);
      assert Repeat([c], n) == [c] + Repeat([c], n - 1);
    }
  }

  function Header(): seq<string>
  {
    [Rule(), "CosyVoice_app User Feedback", Rule(), ""]
  }

  function Footer(): seq<string>
  {
    [Rule(), "Sent from CosyVoice_app", "Author: @3uyuan1ee", "License: MIT", Rule()]
  }

  /** What the log file holds: no file, a file whose reading raises, or its
      lines (each with its line ending); None when locating it raises. */
  datatype LogFile = NoLogFile | LogUnreadable | LogLines(lines: seq<string>)

  /** What the body's sources answer; None where asking raised. */
  datatype BodyInputs = BodyInputs(
    system: string,
    release: string,
    pythonVersion: string,
    machine: string,
    appConfig: Option<(string, string)>,
    statistics: Option<seq<(string, string)>>,
    logFile: Option<LogFile>)

  /** The last 100 lines, or all of them when there are fewer. */
  function RecentLogs(lines: seq<string>): (r: seq<string>)
    ensures |r| == if |lines| > 100 then 100 else |lines|
    ensures r == lines[|lines| - |r|..]
  {
    if |lines| > 100 then lines[|lines| - 100..] else lines
  }

  /** "".join(lines) */
  function Concat(lines: seq<string>): string
  {
    if lines == [] then "" else Concat(lines[..|lines| - 1]) + lines[|lines| - 1]
  }

  function FeedbackSection(message: string): (r: seq<string>)
    ensures r == [] <==> message == []
  {
    if message != [] then ["Feedback:", message, ""] else []
  }

  function SystemSection(inputs: BodyInputs): seq<string>
  {
    ["System Information:",
     "  Platform: " + inputs.system + " " + inputs.release,
     "  Python: " + inputs.pythonVersion,
     "  Architecture: " + inputs.machine,
     ""]
  }

  /** The application section; left out when reading the configuration
      raised. */
  function AppSection(appConfig: Option<(string, string)>): (r: seq<string>)
    ensures r == [] <==> appConfig.None?
  {
    if appConfig.Some? then
      ["Application Info:", "  Version: 1.0.0",
       "  Default Model: " + appConfig.value.0, "  Device: " + appConfig.value.1, ""]
    else []
  }

  function StatLine(stat: (string, string)): string
  {
    "  " + stat.0 + ": " + stat.1
  }

  function StatLines(stats: seq<(string, string)>): (r: seq<string>)
    ensures |r| == |stats| && forall i :: 0 <= i < |stats| ==> r[i] == StatLine(stats[i])
  {
    seq(|stats|, i requires 0 <= i < |stats| => StatLine(stats[i]))
  }

  /** The statistics section: asked for, and the statistics answered. */
  function StatsSection(includeStats: bool, statistics: Option<seq<(string, string)>>): (r: seq<string>)
    ensures r != [] <==> includeStats && statistics.Some?
  {
    if includeStats && statistics.Some? then ["Usage Statistics:"] + StatLines(statistics.value) + [""] else []
  }

  /** The log section: asked for and the file exists. When reading it
      raises, the heading has already been added and stays. */
  function LogSection(includeLogs: bool, logFile: Option<LogFile>): (r: seq<string>)
    ensures r != [] <==> includeLogs && logFile.Some? && !logFile.value.NoLogFile?
    ensures includeLogs && logFile.Some? && logFile.value.LogLines? ==>
      r == ["Recent Logs:", Concat(RecentLogs(logFile.value.lines)), ""]
  {
    if !includeLogs || logFile.None? then []
    else match logFile.value
      case NoLogFile => []
      case LogUnreadable => ["Recent Logs:"]
      case LogLines(lines) => ["Recent Logs:", Concat(RecentLogs(lines)), ""]
  }

  /** The body's lines, section by section, in the order they are added. */
  function BodyParts(message: string, includeLogs: bool, includeStats: bool, inputs: BodyInputs): seq<string>
  {
    Header() + FeedbackSection(message) + SystemSection(inputs) + AppSection(inputs.appConfig) +
    StatsSection(includeStats, inputs.statistics) + LogSection(includeLogs, inputs.logFile) + Footer()
  }

  /** The sections between header and footer. */
  function Middle(message: string, includeLogs: bool, includeStats: bool, inputs: BodyInputs): seq<string>
  {
    FeedbackSection(message) + SystemSection(inputs) + AppSection(inputs.appConfig) +
    StatsSection(includeStats, inputs.statistics) + LogSection(includeLogs, inputs.logFile)
  }

  lemma BodyPartsAroundMiddle(message: string, includeLogs: bool, includeStats: bool, inputs: BodyInputs)
    ensures BodyParts(message, includeLogs, includeStats, inputs) ==
      Header() + Middle(message, includeLogs, includeStats, inputs) + Footer()
  {
    var f, s, a := FeedbackSection(message), SystemSection(inputs), AppSection(inputs.appConfig);
    var st, l := StatsSection(includeStats, inputs.statistics), LogSection(includeLogs, inputs.logFile);
    AppendAssoc(Header(), f, s);
    AppendAssoc(Header(), f + s, a);
    AppendAssoc(Header(), f + s + a, st);
    AppendAssoc(Header(), f + s + a + st, l);
  }

  /** The statistics section appended line by line, one line per entry. */
  method AppendStatistics(before: seq<string>, stats: seq<(string, string)>) returns (parts: seq<string>)
    ensures parts == before + (["Usage Statistics:"] + StatLines(stats) + [""])
  {
    parts := before + ["Usage Statistics:"];
    var i := 0;
    while i < |stats|
      invariant 0 <= i <= |stats|
      invariant parts == before + ["Usage Statistics:"] + StatLines(stats[..i])
    {
      assert StatLines(stats[..i + 1]) == StatLines(stats[..i]) + [StatLine(stats[i])];
      parts := parts + [StatLine(stats[i])];
      i := i + 1;
    }
    assert stats[..i] == stats;
    parts := parts + [""];
    AppendAssoc(before, ["Usage Statistics:"], StatLines(stats));
    AppendAssoc(before, ["Usage Statistics:"] + StatLines(stats), [""]);
  }

  /** _build_email_body: appends the sections' lines one by one and joins
      them with newlines. */
  method BuildEmailBody(message: string, includeLogs: bool, includeStats: bool, inputs: BodyInputs)
    returns (body: string)
    ensures body == Join(BodyParts(message, includeLogs, includeStats, inputs), "\n")
  {
    var parts := Header();
    if message != [] {
      parts := parts + ["Feedback:", message, ""];
    }
    assert parts == Header() + FeedbackSection(message);
    parts := parts + SystemSection(inputs);
    if inputs.appConfig.Some? {
      parts := parts + AppSection(inputs.appConfig);
    }
    ghost var beforeStats := Header() + FeedbackSection(message) + SystemSection(inputs) + AppSection(inputs.appConfig);
    assert parts == beforeStats;
    if includeStats && inputs.statistics.Some? {
      parts := AppendStatistics(parts, inputs.statistics.value);
    }
    ghost var beforeLogs := beforeStats + StatsSection(includeStats, inputs.statistics);
    assert parts == beforeLogs;
    if includeLogs && inputs.logFile.Some? && !inputs.logFile.value.NoLogFile? {
      parts := parts + ["Recent Logs:"];
      if inputs.logFile.value.LogLines? {
        var recent := Concat(RecentLogs(inputs.logFile.value.lines));
        parts := parts + [recent, ""];
        AppendAssoc(beforeLogs, ["Recent Logs:"], [recent, ""]);
        assert ["Recent Logs:"] + [recent, ""] == LogSection(includeLogs, inputs.logFile);
      }
    } else {
      assert LogSection(includeLogs, inputs.logFile) == [];
    }
    assert parts == beforeLogs + LogSection(includeLogs, inputs.logFile);
    parts := parts + Footer();
    body := Join(parts, "\n");
  }

  lemma HeadOfSandwich(h: seq<string>, m: seq<string>, f: seq<string>)
    requires |m| >= 2
    ensures var r := h + m + f;
      r[..|h|] == h && r[|r| - |f|..] == f && r[|h|] == m[0] && r[|h| + 1] == m[1]
  {
  }

  /** The body's lines open with the header and close with the footer, and
      the feedback section comes right after the header exactly when there
      is a message. */
  lemma BodyLayout(message: string, includeLogs: bool, includeStats: bool, inputs: BodyInputs)
    ensures var parts := BodyParts(message, includeLogs, includeStats, inputs);
      |parts| >= 14 && parts[..4] == Header() && parts[|parts| - 5..] == Footer()
    ensures var parts := BodyParts(message, includeLogs, includeStats, inputs);
      (parts[4] == "Feedback:" <==> message != []) && (message != [] ==> parts[5] == message)
  {
    var middle := Middle(message, includeLogs, includeStats, inputs);
    BodyPartsAroundMiddle(message, includeLogs, includeStats, inputs);
    var rest := SystemSection(inputs) + AppSection(inputs.appConfig) +
                StatsSection(includeStats, inputs.statistics) + LogSection(includeLogs, inputs.logFile);
    AppendAssoc(FeedbackSection(message), SystemSection(inputs), AppSection(inputs.appConfig));
    AppendAssoc(FeedbackSection(message), SystemSection(inputs) + AppSection(inputs.appConfig), StatsSection(includeStats, inputs.statistics));
    AppendAssoc(FeedbackSection(message), SystemSection(inputs) + AppSection(inputs.appConfig) + StatsSection(includeStats, inputs.statistics),
                LogSection(includeLogs, inputs.logFile));
    assert middle == FeedbackSection(message) + rest;
    assert rest[0] == "System Information:";
    HeadOfSandwich(Header(), middle, Footer());
  }

  // ---------------------------------------------------------------------
  // Sending

  const DefaultSubject := "CosyVoice_app Feedback"

  class FeedbackService {
    const feedbackEmail: string

    constructor()
      ensures feedbackEmail == "1481059602@qq.com"
    {
      feedbackEmail := "1481059602@qq.com";
    }

    /** send_feedback: builds the body, then the URL with the default
        subject in place of an empty one, and opens it. raises stands for
        an error while building; openRaises for `webbrowser.open` raising.
        The boolean `webbrowser.open` returns is discarded, so whether a mail
        client actually took the URL is never observed: the result is true
        exactly when nothing raised. */
    method SendFeedback(subject: string, message: string, includeLogs: bool, includeStats: bool,
                        inputs: BodyInputs, quote: string -> string, raises: bool, openRaises: bool)
      returns (sent: bool, handedOver: Option<string>)
      ensures sent <==> !raises && !openRaises
      ensures raises ==> handedOver == None
      ensures !raises ==> handedOver.Some? && StartsWith(handedOver.value, "mailto:" + feedbackEmail + "?" +
                                          Param("subject", if subject == [] then DefaultSubject else subject, quote))
    {
      if raises {
        return false, None;
      }
      var body := BuildEmailBody(message, includeLogs, includeStats, inputs);
      var url := BuildMailtoUrl(feedbackEmail, if subject == [] then DefaultSubject else subject, body, quote);
      handedOver := Some(url);
      sent := !openRaises;
    }
  }
}

=== FILE: file_manager.dfy ===
// The upload-side file manager: the audio formats it accepts, the safe
// names it stores uploads under, the checks an upload must pass, and the
// file type it reports.

module FileManager {
  import opened Common

  /** The audio file extensions uploads may have. */
  function SupportedAudioExtensions(): (r: set<string>)
    ensures |r| == 5
    ensures forall e :: e in r ==> |e| >= 2 && e[0] == '.'
  {
    {".wav", ".mp3", ".m4a", ".flac", ".ogg"}
  }

  /** Lowercasing twice is lowercasing once. */
  lemma LowerIdempotent(s: string)
    ensures Lower(Lower(s)) == Lower(s)
  {
  }

  /** Lowercasing keeps dots where they were and adds no separators, so a
      lowercased extension is still an extension. */
  lemma LowerKeepsExtensionShape(ext: string)
    requires ext != [] && ext[0] == '.' && '.' !in ext[1..] && '/' !in ext
    ensures Lower(ext) != [] && Lower(ext)[0] == '.' && '.' !in Lower(ext)[1..] && '/' !in Lower(ext)
  {
    assert forall i :: 1 <= i < |ext| ==> ext[i] == ext[1..][i - 1] && Lower(ext)[i] == Lower(ext)[1..][i - 1];
  }

  /** _generate_safe_filename: the base name reduced to alphanumerics and
      "._-", an underscore, the timestamp, then the lowercased extension. */
  function SafeFilename(original: string, timestamp: string): (r: string)
    ensures var stem := KeepSafeChars(SplitExt(original).0) + "_" + timestamp;
            |stem| <= |r| && r[..|stem|] == stem && r[|stem|..] == Lower(SplitExt(original).1)
  {
    var parts := SplitExt(original);
    KeepSafeChars(parts.0) + "_" + timestamp + Lower(parts.1)
  }

  /** The stored name keeps the upload's extension, lowercased, provided the
      upload has one and the timestamp ends with a character other than a
      dot or a separator. */
  lemma SafeFilenameExtension(original: string, timestamp: string)
    requires SplitExt(original).1 != []
    requires timestamp != [] && timestamp[|timestamp| - 1] != '.' && timestamp[|timestamp| - 1] != '/'
    ensures SplitExt(SafeFilename(original, timestamp)).1 == Lower(SplitExt(original).1)
  {
    var ext := SplitExt(original).1;
    var stem := KeepSafeChars(SplitExt(original).0) + "_" + timestamp;
    assert SafeFilename(original, timestamp) == stem + Lower(ext);
    assert stem[|stem| - 1] == timestamp[|timestamp| - 1];
    LowerKeepsExtensionShape(ext);
    SplitExtOfStemAndExt(stem, Lower(ext));
  }

  /** The outcome of checking an upload. */
  datatype Validation = Accepted | NoFileChosen | UnsupportedFormat(ext: string) | TooLarge(sizeBytes: nat, maxSizeMb: nat)

  /** The message shown for an outcome. The unsupported-format and size
      messages are kept to their leading sentence: the list of formats and
      the megabyte figures that follow it are not modelled. */
  function ValidationMessage(v: Validation): (m: string)
    ensures m == "文件验证通过" <==> v == Accepted
    ensures v == NoFileChosen ==> m == "没有选择文件"
  {
    match v
    case Accepted => "文件验证通过"
    case NoFileChosen => "没有选择文件"
    case UnsupportedFormat(_) => "不支持的文件格式。"
    case TooLarge(_, _) => "文件大小超过限制。"
  }

  /** The size limit in bytes for a limit given in megabytes. */
  function MaxSizeBytes(maxSizeMb: nat): nat { maxSizeMb * 1024 * 1024 }

  /** _validate_file: an empty file name is rejected first, then an extension
      (lowercased) outside the allowed set, then a size above the limit; a
      size equal to the limit passes. */
  function ValidateFile(filename: string, allowed: set<string>, sizeBytes: nat, maxSizeMb: nat): (v: Validation)
    ensures v == Accepted <==>
      filename != [] && Lower(SplitExt(filename).1) in allowed && sizeBytes <= MaxSizeBytes(maxSizeMb)
    ensures filename == [] ==> v == NoFileChosen
    ensures filename != [] && Lower(SplitExt(filename).1) !in allowed ==> v == UnsupportedFormat(Lower(SplitExt(filename).1))
    ensures v.TooLarge? ==> v == TooLarge(sizeBytes, maxSizeMb) && sizeBytes > MaxSizeBytes(maxSizeMb)
  {
    if filename == [] then NoFileChosen
    else
      var ext := Lower(SplitExt(filename).1);
      if ext !in allowed then UnsupportedFormat(ext)
      else if sizeBytes > MaxSizeBytes(maxSizeMb) then TooLarge(sizeBytes, maxSizeMb)
      else Accepted
  }

  /** Renaming an upload to its safe name never changes whether its format
      is accepted. */
  lemma SafeFilenameKeepsFormat(original: string, timestamp: string, allowed: set<string>, sizeBytes: nat, maxSizeMb: nat)
    requires SplitExt(original).1 != []
    requires timestamp != [] && timestamp[|timestamp| - 1] != '.' && timestamp[|timestamp| - 1] != '/'
    ensures ValidateFile(SafeFilename(original, timestamp), allowed, sizeBytes, maxSizeMb)
         == ValidateFile(original, allowed, sizeBytes, maxSizeMb)
  {
    SafeFilenameExtension(original, timestamp);
    LowerIdempotent(SplitExt(original).1);
  }

  /** _get_file_info's file_type: the extension without its dot, uppercased;
      empty when the path has no extension. */
  function FileType(path: string): (r: string)
    ensures SplitExt(path).1 == [] ==> r == []
    ensures SplitExt(path).1 != [] ==> |r| == |SplitExt(path).1| - 1
    ensures forall i :: 0 <= i < |r| ==> r[i] == UpperChar(SplitExt(path).1[i + 1])
    ensures '.' !in r
  {
    var ext := SplitExt(path).1;
    if ext == [] then [] else
      var r := Upper(ext[1..]);
      assert forall i :: 0 <= i < |r| ==> r[i] == UpperChar(ext[1..][i]) && ext[1..][i] != '.';
      r
  }

  /** Uppercasing what was lowercased gives what uppercasing alone gives. */
  lemma UpperOfLower(e: string)
    ensures Upper(Lower(e)) == Upper(e)
  {
    assert forall i :: 0 <= i < |e| ==> UpperChar(LowerChar(e[i])) == UpperChar(e[i]);
  }

  /** The type reported for a stored upload is the type of the original
      upload: lowercasing the extension first does not change it. */
  lemma SafeFilenameKeepsFileType(original: string, timestamp: string)
    requires SplitExt(original).1 != []
    requires timestamp != [] && timestamp[|timestamp| - 1] != '.' && timestamp[|timestamp| - 1] != '/'
    ensures FileType(SafeFilename(original, timestamp)) == FileType(original)
  {
    var ext := SplitExt(original).1;
    var stored := SafeFilename(original, timestamp);
    SafeFilenameExtension(original, timestamp);
    assert SplitExt(stored).1 == Lower(ext);
    assert FileType(stored) == Upper(Lower(ext)[1..]);
    assert Lower(ext)[1..] == Lower(ext[1..]);
    UpperOfLower(ext[1..]);
  }
}

=== FILE: file_service.dfy ===
// The file service: saving a generated file to a chosen location, naming
// output files, and showing paths relative to the project root. The file
// system is a set of existing paths; the clock is a timestamp parameter
// (the "%Y%m%d_%H%M%S" text of the current time).

module FileService {
  import opened Common

  /** The extension every saved audio file gets. */
  const WavExtension := ".wav"

  /** The file name the save dialog proposes: "voice_<timestamp>.wav" when no
      name is given, the given name when it already ends with ".wav", and
      otherwise the given name with its extension replaced by ".wav". */
  function DefaultSaveName(defaultName: string, timestamp: string): (r: string)
    ensures EndsWith(r, WavExtension)
    ensures defaultName == [] ==> r == "voice_" + timestamp + WavExtension
    ensures EndsWith(defaultName, WavExtension) ==> r == defaultName
    ensures defaultName != [] && !EndsWith(defaultName, WavExtension) ==>
      r == SplitExt(defaultName).0 + WavExtension
  {
    var name := if defaultName == [] then "voice_" + timestamp + WavExtension else defaultName;
    if EndsWith(name, WavExtension) then name
    else
      var stem := SplitExt(name).0;
      assert (stem + WavExtension)[|stem + WavExtension| - |WavExtension|..] == WavExtension;
      stem + WavExtension
  }

  /** Proposing a name twice changes nothing the second time: the name the
      dialog proposes is already a ".wav" name. */
  lemma DefaultSaveNameIdempotent(defaultName: string, timestamp: string, later: string)
    ensures DefaultSaveName(DefaultSaveName(defaultName, timestamp), later)
         == DefaultSaveName(defaultName, timestamp)
  {
  }

  /** What saving a file reports, and the set of existing paths afterwards. */
  datatype SaveResult = SaveResult(success: bool, message: string, existing: set<string>)

  /** save_file: the source must exist, and an existing target is replaced
      only when overwriting is asked for; both checks come before any
      copying. copyError is the text of the exception raised while creating
      the target directory or copying, if one is raised. */
  function SaveFile(existing: set<string>, source: string, target: string, overwrite: bool,
                    copyError: Option<string>): (r: SaveResult)
    ensures r.success <==> source in existing && (target !in existing || overwrite) && copyError.None?
    ensures source !in existing ==> r == SaveResult(false, "Source file not found: " + source, existing)
    ensures source in existing && target in existing && !overwrite ==>
      r == SaveResult(false, "Target file already exists: " + target, existing)
    ensures r.success ==> r.message == "File saved successfully" && r.existing == existing + {target}
    ensures !r.success ==> r.existing == existing
  {
    if source !in existing then SaveResult(false, "Source file not found: " + source, existing)
    else if target in existing && !overwrite then
      SaveResult(false, "Target file already exists: " + target, existing)
    else match copyError
      case Some(e) => SaveResult(false, "Error saving file: " + e, existing)
      case None => SaveResult(true, "File saved successfully", existing + {target})
  }

  /** A successful save makes the target exist and keeps every path that
      existed; saving it again without overwriting is refused. */
  lemma SaveThenSaveAgain(existing: set<string>, source: string, target: string, overwrite: bool)
    requires source in existing && (target !in existing || overwrite)
    ensures var first := SaveFile(existing, source, target, overwrite, None);
            first.success && target in first.existing && existing <= first.existing &&
            SaveFile(first.existing, source, target, false, None)
              == SaveResult(false, "Target file already exists: " + target, first.existing)
  {
  }

  /** The file-name stem: the extension-less base name, keeping only
      alphanumerics and "._-". */
  function CleanStem(baseName: string): (r: string)
    ensures forall i :: 0 <= i < |r| ==> IsSafeNameChar(r[i])
  {
    KeepSafeChars(SplitExt(baseName).0)
  }

  /** The k-th name generate_unique_filename tries: "<clean>_<ts><ext>" for
      k = 0 and "<clean>_<ts>_<k><ext>" after that. */
  function Candidate(clean: string, timestamp: string, extension: string, k: nat): string
  {
    if k == 0 then clean + "_" + timestamp + extension
    else clean + "_" + timestamp + "_" + NatToString(k) + extension
  }

  /** No two attempts propose the same name. */
  lemma CandidateInjective(clean: string, timestamp: string, extension: string, j: nat, k: nat)
    requires Candidate(clean, timestamp, extension, j) == Candidate(clean, timestamp, extension, k)
    ensures j == k
  {
    var p := clean + "_" + timestamp + "_";
    if j != 0 && k != 0 {
      var dj, dk := NatToString(j), NatToString(k);
      assert Candidate(clean, timestamp, extension, j) == p + dj + extension;
      assert Candidate(clean, timestamp, extension, k) == p + dk + extension;
      assert |dj| == |dk|;
      assert (p + dj + extension)[|p|..|p| + |dj|] == dj;
      assert (p + dk + extension)[|p|..|p| + |dk|] == dk;
      DigitsValueOfNatToString(j);
      DigitsValueOfNatToString(k);
    }
  }

  /** Candidate names never start with a separator, so joining them to the
      save directory keeps them apart. */
  lemma CandidatePathInjective(dir: string, clean: string, timestamp: string, extension: string, j: nat, k: nat)
    requires forall i :: 0 <= i < |clean| ==> IsSafeNameChar(clean[i])
    requires PathJoin(dir, Candidate(clean, timestamp, extension, j))
          == PathJoin(dir, Candidate(clean, timestamp, extension, k))
    ensures j == k
  {
    var nj, nk := Candidate(clean, timestamp, extension, j), Candidate(clean, timestamp, extension, k);
    assert nj[0] != '/' && nk[0] != '/' by {
      if clean == [] {
        assert nj[0] == '_' && nk[0] == '_';
      } else {
        assert nj[0] == clean[0] && nk[0] == clean[0];
      }
    }
    var pre := JoinPrefix(dir);
    assert nj == (pre + nj)[|pre|..] && nk == (pre + nk)[|pre|..];
    CandidateInjective(clean, timestamp, extension, j, k);
  }

  /** The paths of the first n candidates. */
  ghost function Tried(dir: string, clean: string, timestamp: string, extension: string, n: nat): set<string>
  {
    if n == 0 then {}
    else Tried(dir, clean, timestamp, extension, n - 1) + {PathJoin(dir, Candidate(clean, timestamp, extension, n - 1))}
  }

  lemma {:induction false} TriedMembers(dir: string, clean: string, timestamp: string, extension: string, n: nat, p: string)
    requires p in Tried(dir, clean, timestamp, extension, n)
    ensures exists j :: 0 <= j < n && p == PathJoin(dir, Candidate(clean, timestamp, extension, j))
  {
    if p != PathJoin(dir, Candidate(clean, timestamp, extension, n - 1)) {
      TriedMembers(dir, clean, timestamp, extension, n - 1, p);
    }
  }

  /** The first n candidates give n distinct paths. */
  lemma {:induction false} TriedCount(dir: string, clean: string, timestamp: string, extension: string, n: nat)
    requires forall i :: 0 <= i < |clean| ==> IsSafeNameChar(clean[i])
    ensures |Tried(dir, clean, timestamp, extension, n)| == n
  {
    if n > 0 {
      TriedCount(dir, clean, timestamp, extension, n - 1);
      var next := PathJoin(dir, Candidate(clean, timestamp, extension, n - 1));
      if next in Tried(dir, clean, timestamp, extension, n - 1) {
        TriedMembers(dir, clean, timestamp, extension, n - 1, next);
        var j :| 0 <= j < n - 1 && next == PathJoin(dir, Candidate(clean, timestamp, extension, j));
        CandidatePathInjective(dir, clean, timestamp, extension, j, n - 1);
        assert false;
      }
    }
  }

  lemma SubsetSize(a: set<string>, b: set<string>)
    requires a <= b
    ensures |a| <= |b|
  {
    assert b == a + (b - a);
  }

  /** The first n candidates all exist in the save directory. */
  predicate FirstCandidatesExist(saveDir: string, clean: string, timestamp: string, extension: string,
                                 n: nat, existing: set<string>)
  {
    forall j :: 0 <= j < n ==> PathJoin(saveDir, Candidate(clean, timestamp, extension, j)) in existing
  }

  lemma {:induction false} TriedWithin(saveDir: string, clean: string, timestamp: string, extension: string,
                                       n: nat, existing: set<string>)
    requires FirstCandidatesExist(saveDir, clean, timestamp, extension, n, existing)
    ensures Tried(saveDir, clean, timestamp, extension, n) <= existing
  {
    if n > 0 {
      TriedWithin(saveDir, clean, timestamp, extension, n - 1, existing);
    }
  }

  /** generate_unique_filename: tries "<clean>_<ts><ext>", then the names
      numbered 1, 2, ... in turn, and returns the first one that does not
      exist in the save directory. The loop ends because every name it
      passes over is a distinct existing path. */
  method GenerateUniqueFilename(saveDir: string, baseName: string, extension: string, timestamp: string,
                                existing: set<string>) returns (name: string)
    ensures PathJoin(saveDir, name) !in existing
    ensures exists k: nat :: name == Candidate(CleanStem(baseName), timestamp, extension, k) &&
                             FirstCandidatesExist(saveDir, CleanStem(baseName), timestamp, extension, k, existing)
  {
    var clean := CleanStem(baseName);
    name := Candidate(clean, timestamp, extension, 0);
    var counter: nat := 1;
    while PathJoin(saveDir, name) in existing
      invariant name == Candidate(clean, timestamp, extension, counter - 1)
      invariant FirstCandidatesExist(saveDir, clean, timestamp, extension, counter - 1, existing)
      decreases |existing| - (counter - 1)
    {
      assert FirstCandidatesExist(saveDir, clean, timestamp, extension, counter, existing);
      TriedWithin(saveDir, clean, timestamp, extension, counter, existing);
      TriedCount(saveDir, clean, timestamp, extension, counter);
      SubsetSize(Tried(saveDir, clean, timestamp, extension, counter), existing);
      name := Candidate(clean, timestamp, extension, counter);
      counter := counter + 1;
    }
  }

  /** The file name create_output_path gives: "<prefix>_<model>_<ts>.wav". */
  function OutputFileName(modelName: string, prefix: string, timestamp: string): (r: string)
    ensures EndsWith(r, WavExtension)
  {
    var r := prefix + "_" + modelName + "_" + timestamp + WavExtension;
    assert r[|r| - |WavExtension|..] == WavExtension;
    r
  }

  /** create_output_path: the output file name inside the save directory. */
  function CreateOutputPath(saveDir: string, modelName: string, prefix: string, timestamp: string): (r: string)
    ensures EndsWith(r, WavExtension)
  {
    var fileName := OutputFileName(modelName, prefix, timestamp);
    var r := PathJoin(saveDir, fileName);
    assert r[|r| - |WavExtension|..] == fileName[|fileName| - |WavExtension|..];
    r
  }

  /** For a relative prefix, the output path lies in the save directory and
      its path relative to that directory is exactly the output file name. */
  lemma OutputPathInSaveDirectory(saveDir: string, modelName: string, prefix: string, timestamp: string)
    requires prefix != [] && prefix[0] != '/' && prefix[0] != '\\'
    ensures StartsWith(CreateOutputPath(saveDir, modelName, prefix, timestamp), saveDir)
    ensures StripRoot(saveDir, CreateOutputPath(saveDir, modelName, prefix, timestamp))
         == OutputFileName(modelName, prefix, timestamp)
  {
    var fileName := OutputFileName(modelName, prefix, timestamp);
    assert fileName[0] == prefix[0];
    var seps := JoinPrefix(saveDir)[|saveDir|..];
    assert JoinPrefix(saveDir) == saveDir + seps;
    assert forall i :: 0 <= i < |seps| ==> seps[i] == '/';
    StripRootOfJoined(saveDir, seps, fileName);
    assert CreateOutputPath(saveDir, modelName, prefix, timestamp) == saveDir + seps + fileName;
  }

  /** The output file's extension is ".wav" whenever the timestamp ends with
      a character other than a dot or a separator. */
  lemma OutputPathIsWav(saveDir: string, modelName: string, prefix: string, timestamp: string)
    requires timestamp != [] && timestamp[|timestamp| - 1] != '.' && timestamp[|timestamp| - 1] != '/'
    ensures SplitExt(CreateOutputPath(saveDir, modelName, prefix, timestamp)).1 == WavExtension
  {
    var stem := prefix + "_" + modelName + "_" + timestamp;
    assert OutputFileName(modelName, prefix, timestamp) == stem + WavExtension;
    assert stem[|stem| - 1] == timestamp[|timestamp| - 1];
    PathJoinKeepsExtension(saveDir, stem, WavExtension);
  }
}

=== FILE: generation_worker.dfy ===
// The background worker that runs one audio generation: it validates the
// input, loads the adapter, preprocesses the reference audio, generates,
// checks the output, and reports progress, errors and the final result as
// signals. The Qt thread is replaced by a sequential run; the emitted
// signals are recorded in order.
//
// The user may cancel at any moment from another thread. The worker only
// notices at the points where it reads its cancelled flag, so a
// cancellation is modelled by the read at which the flag is first seen
// set: the k-th read of the run (counting from 0) and every later one.

module GenerationWorker {
  import opened Common
  import VoiceAdapter

  /** The worker's signals. */
  datatype Signal =
    | Started
    | Progress(percentage: int, status: string)
    | Finished(success: bool, message: string, outputPath: string)
    | Error(message: string)

  predicate IsTerminal(s: Signal) { s.Finished? || s.Error? }

  /** When, if ever, the cancelled flag is first seen set. */
  datatype CancelSchedule = Never | FromRead(read: nat)

  /** Whether the read numbered k sees the flag set. Once set it stays set. */
  predicate CancelledAt(s: CancelSchedule, k: nat)
  {
    s.FromRead? && k >= s.read
  }

  /** A worker cancelled before it starts sees the flag from its first read. */
  function Effective(initiallyCancelled: bool, s: CancelSchedule): (r: CancelSchedule)
    ensures forall k :: CancelledAt(r, k) <==> initiallyCancelled || CancelledAt(s, k)
  {
    if initiallyCancelled then FromRead(0) else s
  }

  /** _validate_input: the reference file exists, the text has a
      non-whitespace character, and the pitch shift is within -12..12. */
  predicate ValidInput(referenceExists: bool, text: string, pitchShift: int)
  {
    referenceExists && !IsBlank(text) && -12 <= pitchShift <= 12
  }

  /** What the adapter's preprocess_audio answers. */
  datatype PreprocessOutcome = Preprocessed(path: string, success: bool) | PreprocessRaised

  /** _preprocess_reference_audio: the processed path when the adapter
      reports success, the original reference audio when it reports
      failure or raises. */
  function PreprocessReference(reference: string, outcome: PreprocessOutcome): (r: string)
    ensures outcome == Preprocessed(r, true) || r == reference
    ensures !(outcome.Preprocessed? && outcome.success) ==> r == reference
  {
    match outcome
    case Preprocessed(path, true) => path
    case _ => reference
  }

  /** Everything outside the worker that a run consults: whether the
      reference file exists, whether an adapter is available, what
      preprocessing and generation answer, and whether the generated file
      exists afterwards. */
  datatype Environment = Environment(
    referenceExists: bool,
    adapterAvailable: bool,
    preprocess: PreprocessOutcome,
    result: VoiceAdapter.GenerationResult,
    outputExists: bool)

  /** _update_progress: a progress signal for a percentage in 0..100,
      nothing otherwise. */
  function ProgressSignal(percentage: int, status: string): (r: seq<Signal>)
    ensures |r| <= 1
    ensures r != [] <==> 0 <= percentage <= 100
    ensures r != [] ==> r[0] == Progress(percentage, status)
  {
    if 0 <= percentage <= 100 then [Progress(percentage, status)] else []
  }

  /** The status text of the generation loop's progress signals. */
  function LoopStatus(percentage: nat): string
  {
    "Generating audio... " + NatToString(percentage) + "%"
  }

  /** The generation loop's signals for its first n iterations: 40, 45, ... */
  function LoopProgress(n: nat): (r: seq<Signal>)
    ensures |r| == n
    ensures forall j :: 0 <= j < n ==> r[j] == Progress(40 + 5 * j, LoopStatus(40 + 5 * j))
  {
    seq(n, j requires 0 <= j < n => Progress(40 + 5 * j, LoopStatus(40 + 5 * j)))
  }

  /** The first read of the flag inside the generation loop. */
  const LoopFirstRead := 3

  /** How many progress signals the loop emits before it sees a
      cancellation: all nine of 40, 45, ..., 80 unless the flag is seen at
      one of its reads. */
  function LoopIterations(s: CancelSchedule): (n: nat)
    ensures n <= 9
    ensures n == 9 <==> !CancelledAt(s, LoopFirstRead + 8)
    ensures n < 9 ==> CancelledAt(s, LoopFirstRead + n)
    ensures n > 0 ==> !CancelledAt(s, LoopFirstRead + n - 1)
  {
    if s.Never? then 9
    else if s.read <= LoopFirstRead then 0
    else if s.read - LoopFirstRead >= 9 then 9
    else s.read - LoopFirstRead
  }

  /** The path the generation step yields. As written, the request cannot
      be built (requestBuilds false) and the step always yields nothing;
      otherwise it yields the adapter's non-empty output path, provided
      the loop ran to the end. */
  function GeneratedOutput(requestBuilds: bool, s: CancelSchedule, result: VoiceAdapter.GenerationResult): (r: Option<string>)
    ensures r.Some? ==> requestBuilds && LoopIterations(s) == 9 && r.value != []
    ensures r.Some? ==> result.success && result.outputPath == Some(r.value)
  {
    if !requestBuilds || LoopIterations(s) < 9 then None
    else if result.success && result.outputPath.Some? && result.outputPath.value != [] then result.outputPath
    else None
  }

  /** The signals of one run, stage by stage, for a given environment and
      cancellation schedule. */
  function RunSignals(requestBuilds: bool, env: Environment, s: CancelSchedule,
                      reference: string, text: string, pitchShift: int): seq<Signal>
  {
    [Started, Progress(10, "Validating input...")] +
    ValidationStage(requestBuilds, env, s, reference, ValidInput(env.referenceExists, text, pitchShift))
  }

  /** The run from the 10% mark on, given whether the input is valid. */
  function ValidationStage(requestBuilds: bool, env: Environment, s: CancelSchedule, reference: string, valid: bool): seq<Signal>
  {
    if !valid then [Error("Invalid input parameters")]
    else if CancelledAt(s, 0) then [Error("Generation cancelled")]
    else [Progress(20, "Loading voice model...")] + LoadStage(requestBuilds, env, s, reference)
  }

  /** The run from the 20% mark on. */
  function LoadStage(requestBuilds: bool, env: Environment, s: CancelSchedule, reference: string): seq<Signal>
  {
    if !env.adapterAvailable then [Error("Failed to load voice generator")]
    else if CancelledAt(s, 1) then [Error("Generation cancelled")]
    else [Progress(30, "Preprocessing reference audio...")] + PreprocessStage(requestBuilds, env, s, reference)
  }

  /** The run from the 30% mark on. */
  function PreprocessStage(requestBuilds: bool, env: Environment, s: CancelSchedule, reference: string): seq<Signal>
  {
    if PreprocessReference(reference, env.preprocess) == [] then [Error("Failed to preprocess audio")]
    else if CancelledAt(s, 2) then [Error("Generation cancelled")]
    else GenerationStage(requestBuilds, env, s)
  }

  /** The read of the flag right after the generation step. */
  function AfterGenerationRead(requestBuilds: bool): nat
  {
    if requestBuilds then LoopFirstRead + 9 else LoopFirstRead
  }

  /** The run from the 40% mark on. */
  function GenerationStage(requestBuilds: bool, env: Environment, s: CancelSchedule): seq<Signal>
  {
    [Progress(40, "Generating audio...")] +
    (if requestBuilds then LoopProgress(LoopIterations(s)) else []) +
    OutputStage(GeneratedOutput(requestBuilds, s, env.result), env, s, AfterGenerationRead(requestBuilds))
  }

  /** The run after the generation step, which yielded output; afterRead
      numbers the flag read that follows it. */
  function OutputStage(output: Option<string>, env: Environment, s: CancelSchedule, afterRead: nat): seq<Signal>
  {
    if output.None? || CancelledAt(s, afterRead) then
      [Error(if CancelledAt(s, afterRead) then "Generation cancelled" else "Audio generation failed")]
    else if !env.outputExists then [Progress(90, "Post-processing audio..."), Error("Post-processing failed")]
    else if CancelledAt(s, afterRead + 1) then
      [Progress(90, "Post-processing audio..."), Progress(100, "Complete!"), Error("Generation cancelled")]
    else
      [Progress(90, "Post-processing audio..."), Progress(100, "Complete!"),
       Finished(true, "Audio generated successfully", output.value)]
  }

  /** Exactly one terminal signal, and it is the last. */
  predicate EndsWithTerminal(r: seq<Signal>)
  {
    |r| > 0 && IsTerminal(r[|r| - 1]) && forall i :: 0 <= i < |r| - 1 ==> !IsTerminal(r[i])
  }

  /** The progress percentages never go down. */
  predicate NonDecreasing(r: seq<Signal>)
  {
    forall i, j :: 0 <= i < j < |r| && r[i].Progress? && r[j].Progress? ==> r[i].percentage <= r[j].percentage
  }

  predicate ProgressAtLeast(r: seq<Signal>, m: int)
  {
    forall i :: 0 <= i < |r| && r[i].Progress? ==> m <= r[i].percentage
  }

  predicate ProgressAtMost(r: seq<Signal>, m: int)
  {
    forall i :: 0 <= i < |r| && r[i].Progress? ==> r[i].percentage <= m
  }

  /** What every stage yields from its own percentage m on. */
  predicate WellFormedTail(r: seq<Signal>, m: int)
  {
    EndsWithTerminal(r) && NonDecreasing(r) && ProgressAtLeast(r, m)
  }

  /** Signals that do not end a run, with percentages from lo to hi in
      order, followed by a well-formed tail from hi on, form a well-formed
      tail from lo on. */
  lemma PrependToTail(a: seq<Signal>, b: seq<Signal>, lo: int, hi: int)
    requires forall i :: 0 <= i < |a| ==> !IsTerminal(a[i])
    requires NonDecreasing(a) && ProgressAtLeast(a, lo) && ProgressAtMost(a, hi)
    requires WellFormedTail(b, hi) && lo <= hi
    ensures WellFormedTail(a + b, lo)
  {
    var r := a + b;
    assert forall i :: 0 <= i < |r| ==> r[i] == (if i < |a| then a[i] else b[i - |a|]);
  }

  lemma OutputStageWellFormed(output: Option<string>, env: Environment, s: CancelSchedule, afterRead: nat)
    ensures WellFormedTail(OutputStage(output, env, s, afterRead), 90)
  {
  }

  /** The generation loop's signals rise from 40 to at most 80 and never
      end the run. */
  lemma LoopProgressInOrder(n: nat)
    requires n <= 9
    ensures var r := LoopProgress(n);
      (forall i :: 0 <= i < |r| ==> !IsTerminal(r[i])) && NonDecreasing(r) && ProgressAtLeast(r, 40) && ProgressAtMost(r, 80)
  {
  }

  lemma GenerationStageWellFormed(requestBuilds: bool, env: Environment, s: CancelSchedule)
    ensures WellFormedTail(GenerationStage(requestBuilds, env, s), 40)
  {
    var loop := if requestBuilds then LoopProgress(LoopIterations(s)) else [];
    var output := OutputStage(GeneratedOutput(requestBuilds, s, env.result), env, s, AfterGenerationRead(requestBuilds));
    LoopProgressInOrder(LoopIterations(s));
    OutputStageWellFormed(GeneratedOutput(requestBuilds, s, env.result), env, s, AfterGenerationRead(requestBuilds));
    PrependToTail(loop, output, 40, 80);
    PrependToTail([Progress(40, "Generating audio...")], loop + output, 40, 40);
    AppendAssoc([Progress(40, "Generating audio...")], loop, output);
  }

  lemma PreprocessStageWellFormed(requestBuilds: bool, env: Environment, s: CancelSchedule, reference: string)
    ensures WellFormedTail(PreprocessStage(requestBuilds, env, s, reference), 40)
  {
    GenerationStageWellFormed(requestBuilds, env, s);
  }

  lemma LoadStageWellFormed(requestBuilds: bool, env: Environment, s: CancelSchedule, reference: string)
    ensures WellFormedTail(LoadStage(requestBuilds, env, s, reference), 20)
  {
    PreprocessStageWellFormed(requestBuilds, env, s, reference);
    PrependToTail([Progress(30, "Preprocessing reference audio...")], PreprocessStage(requestBuilds, env, s, reference), 30, 40);
  }

  /** A run starts with Started, reports percentages that never go down,
      all at least 10, and ends with exactly one terminal signal, finished
      or error, whatever the environment and whenever the user cancels. */
  lemma RunSignalsWellFormed(requestBuilds: bool, env: Environment, s: CancelSchedule,
                             reference: string, text: string, pitchShift: int)
    ensures var r := RunSignals(requestBuilds, env, s, reference, text, pitchShift);
      r[0] == Started && WellFormedTail(r, 10)
  {
    LoadStageWellFormed(requestBuilds, env, s, reference);
    PrependToTail([Progress(20, "Loading voice model...")], LoadStage(requestBuilds, env, s, reference), 20, 20);
    PrependToTail([Started, Progress(10, "Validating input...")],
      ValidationStage(requestBuilds, env, s, reference, ValidInput(env.referenceExists, text, pitchShift)), 10, 20);
  }

  /** Every stage before generation succeeds and no cancellation is seen
      up to the generation step. */
  predicate ReachesGeneration(env: Environment, s: CancelSchedule, reference: string, text: string, pitchShift: int)
  {
    ValidInput(env.referenceExists, text, pitchShift) && env.adapterAvailable &&
    PreprocessReference(reference, env.preprocess) != [] && !CancelledAt(s, LoopFirstRead - 1)
  }

  /** The signal a run ends with. */
  function Last(r: seq<Signal>): Signal
    requires r != []
  {
    r[|r| - 1]
  }

  lemma LastOfAppend(a: seq<Signal>, b: seq<Signal>)
    requires b != []
    ensures Last(a + b) == Last(b)
  {
  }

  /** The signal a run ends with, stage by stage: the first stage that
      fails or sees the flag decides it, and past the generation step the
      output checks do. */
  lemma LastOfRun(requestBuilds: bool, env: Environment, s: CancelSchedule,
                  reference: string, text: string, pitchShift: int)
    ensures RunSignals(requestBuilds, env, s, reference, text, pitchShift) != []
    ensures Last(RunSignals(requestBuilds, env, s, reference, text, pitchShift)) ==
      (if !ValidInput(env.referenceExists, text, pitchShift) then Error("Invalid input parameters")
       else if CancelledAt(s, 0) then Error("Generation cancelled")
       else if !env.adapterAvailable then Error("Failed to load voice generator")
       else if CancelledAt(s, 1) then Error("Generation cancelled")
       else if PreprocessReference(reference, env.preprocess) == [] then Error("Failed to preprocess audio")
       else if CancelledAt(s, 2) then Error("Generation cancelled")
       else Last(OutputStage(GeneratedOutput(requestBuilds, s, env.result), env, s, AfterGenerationRead(requestBuilds))))
  {
    var valid := ValidInput(env.referenceExists, text, pitchShift);
    var output := OutputStage(GeneratedOutput(requestBuilds, s, env.result), env, s, AfterGenerationRead(requestBuilds));
    OutputStageWellFormed(GeneratedOutput(requestBuilds, s, env.result), env, s, AfterGenerationRead(requestBuilds));
    GenerationStageWellFormed(requestBuilds, env, s);
    PreprocessStageWellFormed(requestBuilds, env, s, reference);
    LoadStageWellFormed(requestBuilds, env, s, reference);
    var loop := if requestBuilds then LoopProgress(LoopIterations(s)) else [];
    LastOfAppend([Progress(40, "Generating audio...")] + loop, output);
    LastOfAppend([Progress(30, "Preprocessing reference audio...")], PreprocessStage(requestBuilds, env, s, reference));
    LastOfAppend([Progress(20, "Loading voice model...")], LoadStage(requestBuilds, env, s, reference));
    assert ValidationStage(requestBuilds, env, s, reference, valid) != [];
    LastOfAppend([Started, Progress(10, "Validating input...")], ValidationStage(requestBuilds, env, s, reference, valid));
  }

  /** A run with a request the adapter accepts finishes exactly when every
      stage succeeds, the adapter reports a non-empty output path that
      exists, and the flag is still clear at the last read; the finished
      signal carries that path. */
  lemma RunFinishesIff(env: Environment, s: CancelSchedule, reference: string, text: string, pitchShift: int)
    ensures var r := RunSignals(true, env, s, reference, text, pitchShift);
      r != [] && (Last(r).Finished? <==>
        ReachesGeneration(env, s, reference, text, pitchShift) &&
        env.result.success && env.result.outputPath.Some? && env.result.outputPath.value != [] &&
        env.outputExists && !CancelledAt(s, LoopFirstRead + 10))
    ensures var r := RunSignals(true, env, s, reference, text, pitchShift);
      r != [] && Last(r).Finished? ==> Last(r) == Finished(true, "Audio generated successfully", env.result.outputPath.value)
  {
    LastOfRun(true, env, s, reference, text, pitchShift);
  }

  /** The cancellation error is only ever reported when the user cancelled. */
  lemma CancelErrorOnlyWhenCancelled(requestBuilds: bool, env: Environment, s: CancelSchedule,
                                     reference: string, text: string, pitchShift: int)
    ensures var r := RunSignals(requestBuilds, env, s, reference, text, pitchShift);
      r != [] && (Last(r) == Error("Generation cancelled") ==> s.FromRead?)
  {
    LastOfRun(requestBuilds, env, s, reference, text, pitchShift);
  }

  /** A worker cancelled before its run starts reports only the input
      check's outcome: invalid input, or the cancellation. */
  lemma CancelledBeforeStart(requestBuilds: bool, env: Environment, s: CancelSchedule,
                             reference: string, text: string, pitchShift: int)
    ensures RunSignals(requestBuilds, env, Effective(true, s), reference, text, pitchShift) ==
      [Started, Progress(10, "Validating input..."),
       Error(if ValidInput(env.referenceExists, text, pitchShift) then "Generation cancelled" else "Invalid input parameters")]
  {
  }

  /** As written, the request cannot be built, so no run ever finishes. */
  lemma AsWrittenNeverFinishes(env: Environment, s: CancelSchedule, reference: string, text: string, pitchShift: int)
    ensures var r := RunSignals(false, env, s, reference, text, pitchShift);
      forall i :: 0 <= i < |r| ==> !r[i].Finished?
  {
    RunSignalsWellFormed(false, env, s, reference, text, pitchShift);
    LastOfRun(false, env, s, reference, text, pitchShift);
  }

  /** As written, even an adapter that would succeed yields the generation
      failure right after the 40% mark, unless the user cancelled first. */
  lemma AsWrittenGenerationFails(env: Environment, s: CancelSchedule, reference: string, text: string, pitchShift: int)
    requires ReachesGeneration(env, s, reference, text, pitchShift) && !CancelledAt(s, LoopFirstRead)
    ensures RunSignals(false, env, s, reference, text, pitchShift) ==
      [Started, Progress(10, "Validating input..."), Progress(20, "Loading voice model..."),
       Progress(30, "Preprocessing reference audio..."), Progress(40, "Generating audio..."),
       Error("Audio generation failed")]
  {
  }

  class AudioGenerationWorker {
    const referenceAudio: string
    const text: string
    const pitchShift: int
    var isCancelled: bool
    var isRunning: bool
    /** Every signal emitted so far, in order. */
    var signals: seq<Signal>
    /** How many times the current run has read the cancelled flag. */
    var flagReads: nat

    constructor(referenceAudio: string, text: string, pitchShift: int)
      ensures this.referenceAudio == referenceAudio && this.text == text && this.pitchShift == pitchShift
      ensures !isCancelled && isRunning && signals == [] && flagReads == 0
    {
      this.referenceAudio := referenceAudio;
      this.text := text;
      this.pitchShift := pitchShift;
      isCancelled := false;
      isRunning := true;
      signals := [];
      flagReads := 0;
    }

    /** cancel: sets the cancelled flag and clears the running flag. */
    method Cancel()
      modifies this
      ensures isCancelled && !isRunning
      ensures signals == old(signals) && flagReads == old(flagReads)
    {
      isCancelled := true;
      isRunning := false;
    }

    /** stop: clears the running flag only. */
    method Stop()
      modifies this
      ensures !isRunning
      ensures isCancelled == old(isCancelled) && signals == old(signals) && flagReads == old(flagReads)
    {
      isRunning := false;
    }

    /** _update_progress */
    method UpdateProgress(percentage: int, status: string)
      modifies this
      ensures signals == old(signals) + ProgressSignal(percentage, status)
      ensures isCancelled == old(isCancelled) && isRunning == old(isRunning) && flagReads == old(flagReads)
    {
      if 0 <= percentage <= 100 {
        signals := signals + [Progress(percentage, status)];
      }
    }

    method Emit(signal: Signal)
      modifies this
      ensures signals == old(signals) + [signal]
      ensures isCancelled == old(isCancelled) && isRunning == old(isRunning) && flagReads == old(flagReads)
    {
      signals := signals + [signal];
    }

    /** One read of the cancelled flag; a cancellation scheduled for this
        read happens just before it. */
    method ReadCancelled(s: CancelSchedule) returns (cancelled: bool)
      modifies this
      ensures flagReads == old(flagReads) + 1
      ensures isCancelled == (old(isCancelled) || CancelledAt(s, old(flagReads)))
      ensures cancelled == isCancelled
      ensures isRunning == (old(isRunning) && !(CancelledAt(s, old(flagReads)) && !old(isCancelled)))
      ensures signals == old(signals)
    {
      if CancelledAt(s, flagReads) && !isCancelled {
        Cancel();
      }
      flagReads := flagReads + 1;
      cancelled := isCancelled;
    }

    /** _generate_audio. When the request cannot be built the constructor
        raises, the except returns None, and neither the flag nor the
        progress is touched. Otherwise the adapter's answer is result; the
        loop reports 40, 45, ..., 80 and gives up as soon as it sees the
        cancelled flag. */
    method GenerateAudio(requestBuilds: bool, result: VoiceAdapter.GenerationResult, s: CancelSchedule)
      returns (output: Option<string>)
      requires flagReads == LoopFirstRead && !isCancelled
      modifies this
      ensures output == GeneratedOutput(requestBuilds, s, result)
      ensures signals == old(signals) + (if requestBuilds then LoopProgress(LoopIterations(s)) else [])
      ensures isCancelled == (requestBuilds && LoopIterations(s) < 9)
      ensures flagReads == LoopFirstRead +
                (if !requestBuilds then 0 else if LoopIterations(s) < 9 then LoopIterations(s) + 1 else 9)
    {
      if !requestBuilds {
        return None;
      }
      var i := 0;
      while i < 9
        invariant 0 <= i <= 9 && i <= LoopIterations(s)
        invariant flagReads == LoopFirstRead + i && !isCancelled
        invariant signals == old(signals) + LoopProgress(i)
      {
        var cancelled := ReadCancelled(s);
        if cancelled {
          return None;
        }
        var progress := 40 + 5 * i;
        UpdateProgress(progress, LoopStatus(progress));
        assert LoopProgress(i + 1) == LoopProgress(i) + [Progress(progress, LoopStatus(progress))];
        i := i + 1;
      }
      if result.success && result.outputPath.Some? && result.outputPath.value != [] {
        output := result.outputPath;
      } else {
        output := None;
      }
    }

    /** run: the stages in order, each reporting its percentage first and
        ending the run with an error signal when it fails or when the
        cancelled flag is seen after it. */
    method Run(requestBuilds: bool, env: Environment, s: CancelSchedule)
      modifies this
      ensures signals == old(signals) + RunSignals(requestBuilds, env, Effective(old(isCancelled), s), referenceAudio, text, pitchShift)
    {
      var eff := Effective(isCancelled, s);
      flagReads := 0;
      Emit(Started);
      UpdateProgress(10, "Validating input...");
      ghost var validating := signals;
      assert validating == old(signals) + [Started, Progress(10, "Validating input...")];
      var valid := ValidInput(env.referenceExists, text, pitchShift);
      RunValidationStage(requestBuilds, env, eff, valid);
      AppendAssoc(old(signals), [Started, Progress(10, "Validating input...")], ValidationStage(requestBuilds, env, eff, referenceAudio, valid));
    }

    /** Checking the input (the 10% stage) and what follows. */
    method RunValidationStage(requestBuilds: bool, env: Environment, s: CancelSchedule, valid: bool)
      requires valid == ValidInput(env.referenceExists, text, pitchShift)
      requires flagReads == 0 && (isCancelled ==> CancelledAt(s, 0))
      modifies this
      ensures signals == old(signals) + ValidationStage(requestBuilds, env, s, referenceAudio, valid)
    {
      if !valid {
        Emit(Error("Invalid input parameters"));
        return;
      }
      var cancelled := ReadCancelled(s);
      if cancelled {
        Emit(Error("Generation cancelled"));
        return;
      }
      UpdateProgress(20, "Loading voice model...");
      RunLoadStage(requestBuilds, env, s);
      AppendAssoc(old(signals), [Progress(20, "Loading voice model...")], LoadStage(requestBuilds, env, s, referenceAudio));
    }

    /** Loading the adapter (the 20% stage) and what follows. */
    method RunLoadStage(requestBuilds: bool, env: Environment, s: CancelSchedule)
      requires flagReads == 1 && !isCancelled
      modifies this
      ensures signals == old(signals) + LoadStage(requestBuilds, env, s, referenceAudio)
    {
      if !env.adapterAvailable {
        Emit(Error("Failed to load voice generator"));
        return;
      }
      var cancelled := ReadCancelled(s);
      if cancelled {
        Emit(Error("Generation cancelled"));
        return;
      }
      UpdateProgress(30, "Preprocessing reference audio...");
      RunPreprocessStage(requestBuilds, env, s);
      AppendAssoc(old(signals), [Progress(30, "Preprocessing reference audio...")], PreprocessStage(requestBuilds, env, s, referenceAudio));
    }

    /** Preprocessing the reference audio (the 30% stage) and what follows. */
    method RunPreprocessStage(requestBuilds: bool, env: Environment, s: CancelSchedule)
      requires flagReads == 2 && !isCancelled
      modifies this
      ensures signals == old(signals) + PreprocessStage(requestBuilds, env, s, referenceAudio)
    {
      var preprocessed := PreprocessReference(referenceAudio, env.preprocess);
      if preprocessed == [] {
        Emit(Error("Failed to preprocess audio"));
        return;
      }
      var cancelled := ReadCancelled(s);
      if cancelled {
        Emit(Error("Generation cancelled"));
        return;
      }
      RunGenerationStage(requestBuilds, env, s);
    }

    /** Generating (the 40% stage) and what follows. */
    method RunGenerationStage(requestBuilds: bool, env: Environment, s: CancelSchedule)
      requires flagReads == LoopFirstRead && !isCancelled
      modifies this
      ensures signals == old(signals) + GenerationStage(requestBuilds, env, s)
    {
      UpdateProgress(40, "Generating audio...");
      var output := GenerateAudio(requestBuilds, env.result, s);
      var cancelled := ReadCancelled(s);
      var afterRead := AfterGenerationRead(requestBuilds);
      RunOutputStage(output, env, s, afterRead, cancelled);
      var loop := if requestBuilds then LoopProgress(LoopIterations(s)) else [];
      AppendAssoc(old(signals), [Progress(40, "Generating audio...")], loop);
      AppendAssoc(old(signals), [Progress(40, "Generating audio...")] + loop, OutputStage(output, env, s, afterRead));
    }

    /** Checking the generated file (the 90% and 100% stages), after the
        flag read that follows generation (read number afterRead) returned
        cancelled. */
    method RunOutputStage(output: Option<string>, env: Environment, s: CancelSchedule, afterRead: nat, cancelled: bool)
      requires cancelled == CancelledAt(s, afterRead)
      requires !cancelled ==> flagReads == afterRead + 1 && !isCancelled
      modifies this
      ensures signals == old(signals) + OutputStage(output, env, s, afterRead)
    {
      if output.None? || cancelled {
        Emit(Error(if cancelled then "Generation cancelled" else "Audio generation failed"));
        return;
      }
      UpdateProgress(90, "Post-processing audio...");
      if !env.outputExists {
        Emit(Error("Post-processing failed"));
        return;
      }
      UpdateProgress(100, "Complete!");
      var cancelledAtEnd := ReadCancelled(s);
      if cancelledAtEnd {
        Emit(Error("Generation cancelled"));
      } else {
        Emit(Finished(true, "Audio generated successfully", output.value));
      }
    }
  }
}

=== FILE: model_card.dfy ===
/** One model's card in the model manager: the displayed status, the action
    button and the progress bar, all derived from the card's status. Colours
    and style sheets are not modelled. */
module ModelCard {
  import opened Common

  datatype ModelStatus = NotDownloaded | Downloading | Downloaded | Error

  /** What a click on the action button asks for. */
  datatype CardSignal = DownloadClicked(modelId: string) | CancelClicked(modelId: string) | DeleteClicked(modelId: string)

  function StatusLabel(status: ModelStatus): string
  {
    match status
    case NotDownloaded => "NOT DOWNLOADED"
    case Downloading => "DOWNLOADING..."
    case Downloaded => "DOWNLOADED"
    case Error => "ERROR"
  }

  function ButtonText(status: ModelStatus): string
  {
    match status
    case NotDownloaded => "DOWNLOAD"
    case Downloading => "CANCEL"
    case Downloaded => "DELETE"
    case Error => "RETRY"
  }

  /** The bar shows the progress while downloading or failed, is full when
      downloaded and empty otherwise. */
  function BarValue(status: ModelStatus, progress: int): (v: int)
    ensures status == Downloaded ==> v == 100
    ensures status == NotDownloaded ==> v == 0
    ensures status == Downloading || status == Error ==> v == progress
  {
    match status
    case NotDownloaded => 0
    case Downloading => progress
    case Downloaded => 100
    case Error => progress
  }

  /** s[:n] */
  function Prefix(s: string, n: nat): (r: string)
    ensures |r| <= n && r <= s
    ensures |s| <= n ==> r == s
    ensures |s| > n ==> |r| == n && r == s[..n]
  {
    if |s| <= n then s else s[..n]
  }

  /** The text beside the bar: the percentage while downloading, COMPLETE
      when downloaded, the first 30 characters of the error (or FAILED) on
      error, nothing otherwise. */
  function ProgressLabel(status: ModelStatus, progress: int, errorMessage: string): (t: string)
    ensures status == Downloading ==> t == IntToString(progress) + "%"
    ensures status == Downloaded ==> t == "COMPLETE"
    ensures status == NotDownloaded ==> t == ""
    ensures status == Error ==> t != "" && |t| <= 30
    ensures status == Error && errorMessage != "" ==> t <= errorMessage && t == Prefix(errorMessage, 30)
    ensures status == Error && |errorMessage| > 30 ==> t == errorMessage[..30]
    ensures status == Error && errorMessage == "" ==> t == "FAILED"
  {
    match status
    case NotDownloaded => ""
    case Downloading => IntToString(progress) + "%"
    case Downloaded => "COMPLETE"
    case Error => if errorMessage != "" then Prefix(errorMessage, 30) else "FAILED"
  }

  class ModelCardWidget {
    const modelId: string
    const modelName: string
    const modelSize: string
    const modelDescription: string
    var status: ModelStatus
    var progress: int
    var statusLabel: string
    var buttonText: string
    var buttonEnabled: bool
    var barValue: int
    var progressLabel: string

    /** Everything the card shows agrees with its status. The progress text
        of an error card depends on the message, which the card does not keep. */
    ghost predicate Consistent()
      reads this
    {
      && statusLabel == StatusLabel(status)
      && buttonText == ButtonText(status)
      && buttonEnabled
      && barValue == BarValue(status, progress)
      && (status != Error ==> progressLabel == ProgressLabel(status, progress, ""))
      && (status == Error ==> progressLabel != "" && |progressLabel| <= 30)
    }

    constructor(modelId: string, modelName: string, modelSize: string, modelDescription: string)
      ensures this.modelId == modelId && this.modelName == modelName
      ensures this.modelSize == modelSize && this.modelDescription == modelDescription
      ensures status == NotDownloaded && progress == 0
      ensures Consistent()
    {
      this.modelId := modelId;
      this.modelName := modelName;
      this.modelSize := modelSize;
      this.modelDescription := modelDescription;
      status := NotDownloaded;
      progress := 0;
      statusLabel := "NOT DOWNLOADED";
      buttonText := "DOWNLOAD";
      buttonEnabled := true;
      barValue := 0;
      progressLabel := "";
    }

    /** The action button cancels a running download, deletes a downloaded
        model, and otherwise starts (or retries) a download. */
    function OnDownloadClicked(): (signal: CardSignal)
      reads this
      ensures signal.modelId == modelId
      ensures signal.CancelClicked? <==> status == Downloading
      ensures signal.DeleteClicked? <==> status == Downloaded
      ensures signal.DownloadClicked? <==> (status.NotDownloaded? || status.Error?)
    {
      if status == Downloading then CancelClicked(modelId)
      else if status == Downloaded then DeleteClicked(modelId)
      else DownloadClicked(modelId)
    }

    method UpdateStatus(newStatus: ModelStatus, newProgress: int, errorMessage: string)
      modifies this
      ensures status == newStatus && progress == newProgress
      ensures Consistent()
      ensures progressLabel == ProgressLabel(newStatus, newProgress, errorMessage)
    {
      status := newStatus;
      progress := newProgress;
      statusLabel := StatusLabel(newStatus);
      buttonText := ButtonText(newStatus);
      buttonEnabled := true;
      barValue := BarValue(newStatus, newProgress);
      progressLabel := ProgressLabel(newStatus, newProgress, errorMessage);
    }
  }

  /** On a consistent card the button's caption names what a click does. */
  lemma ButtonNamesClick(card: ModelCardWidget)
    requires card.Consistent()
    ensures card.buttonText == "CANCEL" <==> card.OnDownloadClicked().CancelClicked?
    ensures card.buttonText == "DELETE" <==> card.OnDownloadClicked().DeleteClicked?
    ensures card.buttonText in {"DOWNLOAD", "RETRY"} <==> card.OnDownloadClicked().DownloadClicked?
  {
  }
}

=== FILE: size_format.dfy ===
/** The human-readable byte size used by the cache manager and the system
    information service: divide by 1024 while the value is at least 1024,
    moving through B, KB, MB, GB and stopping at TB. The final "%.2f" text
    rendering of the scaled value is not modelled; the scaled value itself is
    kept as an exact real. */
module SizeFormat {

  const Units: seq<string> := ["B", "KB", "MB", "GB", "TB"]

  function Pow1024(k: nat): (p: nat)
    ensures p >= 1
  {
    if k == 0 then 1 else 1024 * Pow1024(k - 1)
  }

  /** The unit the dividing loop stops at: the largest k <= 4 with 1024^k <= n. */
  function UnitIndex(n: nat): (k: nat)
    requires n > 0
    ensures k < |Units|
    ensures Pow1024(k) <= n
    ensures k < |Units| - 1 ==> n < Pow1024(k + 1)
  {
    if n >= Pow1024(4) then 4
    else if n >= Pow1024(3) then 3
    else if n >= Pow1024(2) then 2
    else if n >= Pow1024(1) then 1
    else 0
  }

  /** "0 B" for zero bytes, otherwise the scaled value and its unit. */
  datatype SizeText = ZeroBytes | Scaled(value: real, unit: string)

  /** Any k with 1024^k <= n < 1024^(k+1) (or k == 4) is the unit index. */
  lemma UnitIndexUnique(n: nat, k: nat)
    requires n > 0 && k < |Units|
    requires Pow1024(k) <= n
    requires k < |Units| - 1 ==> n < Pow1024(k + 1)
    ensures UnitIndex(n) == k
  {
    assert Pow1024(1) == 1024;
    assert Pow1024(2) == 1024 * 1024;
    assert Pow1024(3) == 1024 * 1024 * 1024;
    assert Pow1024(4) == 1024 * 1024 * 1024 * 1024;
    assert Pow1024(5) == 1024 * 1024 * 1024 * 1024 * 1024;
  }

  /** The text the formatting loop produces for n bytes. */
  function SizeTextOf(n: nat): SizeText
  {
    if n == 0 then ZeroBytes else Scaled((n as real) / (Pow1024(UnitIndex(n)) as real), Units[UnitIndex(n)])
  }

  /** Dividing the value scaled to unit k by 1024 scales it to unit k + 1. */
  lemma ScaleDown(n: nat, k: nat)
    ensures ((n as real) / (Pow1024(k) as real)) / 1024.0 == (n as real) / (Pow1024(k + 1) as real)
  {
    assert Pow1024(k + 1) as real == 1024.0 * (Pow1024(k) as real);
  }

  /** The value scaled to unit k is at least 1024 exactly when n reaches
      the next unit. */
  lemma ScaledAtLeast1024(n: nat, k: nat)
    ensures (n as real) / (Pow1024(k) as real) >= 1024.0 <==> n >= Pow1024(k + 1)
  {
    var p := Pow1024(k) as real;
    assert ((n as real) / p) * p == n as real;
    assert Pow1024(k + 1) as real == 1024.0 * p;
  }

  method FormatSize(n: nat) returns (r: SizeText)
    ensures r == SizeTextOf(n)
    ensures n == 0 <==> r == ZeroBytes
    ensures n > 0 ==> r == Scaled((n as real) / (Pow1024(UnitIndex(n)) as real), Units[UnitIndex(n)])
  {
    if n == 0 {
      return ZeroBytes;
    }
    var unitIndex := 0;
    var size: real := n as real;
    while size >= 1024.0 && unitIndex < |Units| - 1
      invariant 0 <= unitIndex < |Units|
      invariant Pow1024(unitIndex) <= n
      invariant size == (n as real) / (Pow1024(unitIndex) as real)
    {
      ScaledAtLeast1024(n, unitIndex);
      ScaleDown(n, unitIndex);
      size := size / 1024.0;
      unitIndex := unitIndex + 1;
    }
    if unitIndex < |Units| - 1 {
      ScaledAtLeast1024(n, unitIndex);
    }
    UnitIndexUnique(n, unitIndex);
    r := Scaled(size, Units[unitIndex]);
  }

  /** For a non-zero size the scaled value is at least 1, and below 1024
      unless the unit is TB. */
  lemma {:induction false} ScaledValueRange(n: nat)
    requires n > 0
    ensures 1.0 <= (n as real) / (Pow1024(UnitIndex(n)) as real)
    ensures UnitIndex(n) < |Units| - 1 ==> (n as real) / (Pow1024(UnitIndex(n)) as real) < 1024.0
  {
    var k := UnitIndex(n);
    var p := Pow1024(k) as real;
    var v := (n as real) / p;
    assert v * p == n as real;
    if k < |Units| - 1 {
      assert Pow1024(k + 1) as real == 1024.0 * p;
      assert (n as real) < 1024.0 * p;
    }
  }
}

=== FILE: statistics.dfy ===
/** Usage statistics: launch and usage-day counting, sessions, audio
    generation counters per model, the derived display values, and reset.
    Clock readings are parameters: the current date ("YYYY-MM-DD"), the time
    of day text, and a whole-second clock for session lengths. Durations are
    whole seconds. Saving to and loading from the statistics file is not
    modelled beyond its outcome. */
module Statistics {
  import opened Common

  /** The per-model usage counts in insertion order (a Python dict keeps its
      keys in the order they were first inserted). */
  type Usage = seq<(string, nat)>

  /** The model ids in insertion order. */
  function Keys(u: Usage): (ks: seq<string>)
    ensures |ks| == |u|
    decreases |u|
  {
    if u == [] then [] else [u[0].0] + Keys(u[1..])
  }

  predicate DistinctKeys(u: Usage)
  {
    var ks := Keys(u);
    forall i, j :: 0 <= i < j < |ks| ==> ks[i] != ks[j]
  }

  /** model_usage_count.get(id, 0) */
  function CountOf(u: Usage, id: string): (n: nat)
    ensures n > 0 ==> exists i :: 0 <= i < |u| && u[i].0 == id
    decreases |u|
  {
    if u == [] then 0
    else if u[0].0 == id then u[0].1
    else CountOf(u[1..], id)
  }

  function UsageTotal(u: Usage): nat
    decreases |u|
  {
    if u == [] then 0 else u[0].1 + UsageTotal(u[1..])
  }

  /** Counting one more use of a model: a new key starts at 0 and is
      appended; an existing key keeps its place. */
  function Increment(u: Usage, id: string): (r: Usage)
    ensures |r| == |u| || r == u + [(id, 1)]
    decreases |u|
  {
    if u == [] then [(id, 1)]
    else if u[0].0 == id then [(id, u[0].1 + 1)] + u[1..]
    else [u[0]] + Increment(u[1..], id)
  }

  lemma {:induction false} IncrementCounts(u: Usage, id: string, k: string)
    ensures CountOf(Increment(u, id), k) == CountOf(u, k) + (if k == id then 1 else 0)
    decreases |u|
  {
    if u != [] && u[0].0 != id {
      IncrementCounts(u[1..], id, k);
    }
  }

  lemma {:induction false} IncrementTotal(u: Usage, id: string)
    ensures UsageTotal(Increment(u, id)) == UsageTotal(u) + 1
    decreases |u|
  {
    if u != [] && u[0].0 != id {
      IncrementTotal(u[1..], id);
    }
  }

  /** A known id keeps its place; a new one is appended at the end. */
  lemma {:induction false} IncrementKeys(u: Usage, id: string)
    ensures Keys(Increment(u, id)) == if id in Keys(u) then Keys(u) else Keys(u) + [id]
    decreases |u|
  {
    if u != [] && u[0].0 != id {
      IncrementKeys(u[1..], id);
      assert Keys(u) == [u[0].0] + Keys(u[1..]);
      assert id in Keys(u) <==> id in Keys(u[1..]);
    }
  }

  lemma IncrementKeepsDistinct(u: Usage, id: string)
    requires DistinctKeys(u)
    ensures DistinctKeys(Increment(u, id))
  {
    IncrementKeys(u, id);
  }

  /** Index of the first entry with the largest count. */
  function FirstMaxIndex(u: Usage): (i: nat)
    requires u != []
    ensures i < |u|
    ensures forall j :: 0 <= j < |u| ==> u[j].1 <= u[i].1
    ensures forall j :: 0 <= j < i ==> u[j].1 < u[i].1
    decreases |u|
  {
    if |u| == 1 then 0
    else
      var k := FirstMaxIndex(u[..|u| - 1]);
      assert forall j :: 0 <= j < |u| - 1 ==> u[..|u| - 1][j] == u[j];
      if u[|u| - 1].1 > u[k].1 then |u| - 1 else k
  }

  /** max(counts, key=counts.get), or "None" for no counts: the first model
      with the highest count. */
  function MostUsedModel(u: Usage): (name: string)
    ensures u == [] ==> name == "None"
    ensures u != [] ==> exists i :: (0 <= i < |u| && u[i].0 == name &&
      (forall j :: 0 <= j < |u| ==> u[j].1 <= u[i].1) &&
      (forall j :: 0 <= j < i ==> u[j].1 < u[i].1))
  {
    if u == [] then "None" else u[FirstMaxIndex(u)].0
  }

  datatype UsageStatistics = UsageStatistics(
    firstLaunchDate: string,
    lastLaunchDate: string,
    totalLaunches: nat,
    totalUsageDays: nat,
    totalAudioGenerated: nat,
    totalAudioDuration: int,
    modelUsageCount: Usage,
    totalUsageTime: int,
    lastSessionDuration: int)

  const DefaultStatistics := UsageStatistics("", "", 0, 0, 0, 0, [], 0, 0)

  // ---------------------------------------------------------------------
  // Dates

  /** s.split()[0]: the first whitespace-separated word, None when there is
      none. The word starts after the leading whitespace and runs up to the
      next whitespace character or the end. */
  function FirstWord(s: string): (w: Option<string>)
    ensures w.None? <==> IsBlank(s)
    ensures w.Some? ==> w.value != [] && forall i :: 0 <= i < |w.value| ==> !IsWhitespace(w.value[i])
    ensures w.Some? ==> WordAt(s, |s| - |StripStart(s)|, w.value)
  {
    var t := StripStart(s);
    if t == [] then
      assert s[..|s|] == s;
      None
    else
      WordAfterBlank(s);
      Some(WordPrefix(t))
  }

  /** w stands in s at k: only whitespace before it, and whitespace or the
      end right after it. */
  predicate WordAt(s: string, k: int, w: string)
  {
    && 0 <= k && k + |w| <= |s| && IsBlank(s[..k]) && s[k..k + |w|] == w
    && (k + |w| == |s| || IsWhitespace(s[k + |w|]))
  }

  lemma {:induction false} WordAfterBlank(s: string)
    requires StripStart(s) != []
    ensures !IsBlank(s)
    ensures WordAt(s, |s| - |StripStart(s)|, WordPrefix(StripStart(s)))
  {
    var t := StripStart(s);
    var k := |s| - |t|;
    assert s[k] == t[0];
    WordInside(s[k..], WordPrefix(t), s, k);
  }

  lemma {:induction false} WordInside(t: string, w: string, s: string, k: nat)
    requires k <= |s| && t == s[k..] && |w| <= |t| && w == t[..|w|]
    requires |w| == |t| || IsWhitespace(t[|w|])
    ensures k + |w| <= |s| && w == s[k..k + |w|]
    ensures k + |w| == |s| || IsWhitespace(s[k + |w|])
  {
    assert |w| < |t| ==> s[k + |w|] == t[|w|];
  }

  function WordPrefix(s: string): (w: string)
    ensures |w| <= |s| && w == s[..|w|]
    ensures forall i :: 0 <= i < |w| ==> !IsWhitespace(w[i])
    ensures |w| == |s| || IsWhitespace(s[|w|])
    ensures s != [] && !IsWhitespace(s[0]) ==> w != []
    decreases |s|
  {
    if s == [] || IsWhitespace(s[0]) then [] else [s[0]] + WordPrefix(s[1..])
  }

  /** The shape "%Y-%m-%d" writes: four digits, '-', two digits, '-', two
      digits. */
  predicate IsDateText(d: string)
  {
    |d| == 10 && d[4] == '-' && d[7] == '-' &&
    forall i :: 0 <= i < 10 && i != 4 && i != 7 ==> IsDigit(d[i])
  }

  /** A calendar date as datetime keeps it. */
  datatype Date = Date(year: int, month: int, day: int)

  predicate IsLeapYear(year: int)
  {
    year % 4 == 0 && (year % 100 != 0 || year % 400 == 0)
  }

  function DaysInMonth(year: int, month: int): (n: int)
    requires 1 <= month <= 12
    ensures 28 <= n <= 31
    ensures month == 2 ==> (n == 29 <==> IsLeapYear(year))
  {
    if month == 2 then (if IsLeapYear(year) then 29 else 28)
    else if month == 4 || month == 6 || month == 9 || month == 11 then 30
    else 31
  }

  /** The dates datetime accepts: years 1 to 9999, and a day that exists in
      its month. */
  predicate ValidDate(d: Date)
  {
    1 <= d.year <= 9999 && 1 <= d.month <= 12 && 1 <= d.day <= DaysInMonth(d.year, d.month)
  }

  function DigitOf(c: char): int { (c as int) - ('0' as int) }

  /** The text strptime's %m matches: "10" to "12", "01" to "09", or "1"
      to "9", which are the texts of one or two digits whose value lies in 1
      to 12. */
  function MonthField(t: string): (m: Option<int>)
    ensures m.Some? ==> 1 <= m.value <= 12
  {
    if 1 <= |t| <= 2 && AllDigits(t) && 1 <= DigitsValue(t) <= 12 then Some(DigitsValue(t)) else None
  }

  /** The text strptime's %d matches: "30" or "31", "10" to "29", "01" to
      "09", "1" to "9", which are the texts of one or two digits whose value
      lies in 1 to 31, or " 1" to " 9". */
  function DayField(t: string): (d: Option<int>)
    ensures d.Some? ==> 1 <= d.value <= 31
  {
    if 1 <= |t| <= 2 && AllDigits(t) && 1 <= DigitsValue(t) <= 31 then Some(DigitsValue(t))
    else if |t| == 2 && t[0] == ' ' && '1' <= t[1] <= '9' then Some(DigitOf(t[1]))
    else None
  }

  /** A text of one or two digits with a positive value is that value's
      decimal text, zero-padded or not. */
  lemma {:induction false} ShortDigitsText(t: string)
    requires 1 <= |t| <= 2 && AllDigits(t) && DigitsValue(t) >= 1
    ensures t == Pad2(DigitsValue(t)) || t == NatToString(DigitsValue(t))
  {
    var v := DigitsValue(t);
    assert t[..|t| - 1][..0] == [];
    if |t| == 1 {
      assert v == DigitOf(t[0]);
      assert NatToString(v) == [DigitChar(v)];
    } else {
      assert DigitsValue(t[..1]) == DigitOf(t[0]);
      var a, b := DigitOf(t[0]), DigitOf(t[1]);
      assert v == 10 * a + b;
      if a == 0 {
        assert Pad2(v) == ['0', DigitChar(v)];
      } else {
        assert v / 10 == a && v % 10 == b;
        assert NatToString(v) == NatToString(a) + [DigitChar(b)];
        assert NatToString(a) == [DigitChar(a)];
      }
    }
  }

  /** Decimal texts of 1 to 99, padded or not, are one or two digits that
      read back as the number. */
  lemma DecimalTexts(n: int)
    requires 1 <= n <= 99
    ensures 1 <= |Pad2(n)| <= 2 && AllDigits(Pad2(n)) && DigitsValue(Pad2(n)) == n
    ensures 1 <= |NatToString(n)| <= 2 && AllDigits(NatToString(n)) && DigitsValue(NatToString(n)) == n
  {
    Pad2Digits(n);
    DigitsValueOfNatToString(n);
    if n >= 10 {
      assert NatToString(n) == NatToString(n / 10) + [DigitChar(n % 10)];
    }
  }

  /** A month field reads as m exactly when it is m's decimal text, with or
      without a leading zero. */
  lemma {:induction false} MonthFieldExactly(t: string, m: int)
    ensures MonthField(t) == Some(m) <==> 1 <= m <= 12 && (t == Pad2(m) || t == NatToString(m))
  {
    if 1 <= m <= 12 {
      DecimalTexts(m);
    }
    if MonthField(t) == Some(m) {
      ShortDigitsText(t);
    }
  }

  /** A day field reads as d exactly when it is d's decimal text, with or
      without a leading zero, or a single digit after a space. */
  lemma {:induction false} DayFieldExactly(t: string, d: int)
    ensures DayField(t) == Some(d) <==>
              1 <= d <= 31 && (t == Pad2(d) || t == NatToString(d) || (d < 10 && t == [' ', DigitChar(d)]))
  {
    if 1 <= d <= 31 {
      DecimalTexts(d);
    }
    if DayField(t) == Some(d) && 1 <= |t| <= 2 && AllDigits(t) {
      ShortDigitsText(t);
    }
  }

  /** The value of four decimal digits. */
  function YearField(t: string): (y: int)
    requires |t| == 4 && AllDigits(t)
    ensures 0 <= y <= 9999
  {
    1000 * DigitOf(t[0]) + 100 * DigitOf(t[1]) + 10 * DigitOf(t[2]) + DigitOf(t[3])
  }

  /** datetime.strptime(w, "%Y-%m-%d"): four digits, '-', a month field,
      '-', a day field and nothing after it, naming a date that exists;
      None where it raises. No field holds a '-', so the three fields are
      the parts of w between its dashes. */
  function ParseDate(w: string): (d: Option<Date>)
    ensures d.Some? ==> ValidDate(d.value)
  {
    var parts := Split(w, '-');
    if |parts| != 3 || |parts[0]| != 4 || !AllDigits(parts[0]) then None
    else
      match (MonthField(parts[1]), DayField(parts[2]))
      case (Some(month), Some(day)) =>
        var d := Date(YearField(parts[0]), month, day);
        if ValidDate(d) then Some(d) else None
      case _ => None
  }

  /** Four zero-padded digits. */
  function Pad4(n: int): (s: string)
    requires 0 <= n <= 9999
    ensures |s| == 4 && AllDigits(s)
  {
    [DigitChar(n / 1000), DigitChar(n / 100 % 10), DigitChar(n / 10 % 10), DigitChar(n % 10)]
  }

  lemma DecimalPlaces(n: int)
    requires 0 <= n <= 9999
    ensures 1000 * (n / 1000) + 100 * (n / 100 % 10) + 10 * (n / 10 % 10) + n % 10 == n
  {
    assert n / 100 == 10 * (n / 1000) + n / 100 % 10;
    assert n / 10 == 10 * (n / 100) + n / 10 % 10;
    assert n == 10 * (n / 10) + n % 10;
  }

  lemma YearFieldOfPad4(n: int)
    requires 0 <= n <= 9999
    ensures YearField(Pad4(n)) == n
  {
    DecimalPlaces(n);
  }

  /** date.strftime("%Y-%m-%d"). */
  function RenderDate(d: Date): (s: string)
    requires ValidDate(d)
    ensures IsDateText(s)
  {
    Pad4(d.year) + "-" + Pad2(d.month) + "-" + Pad2(d.day)
  }

  /** A rendered date parses back to the same date. */
  lemma ParseRenderDate(d: Date)
    requires ValidDate(d)
    ensures ParseDate(RenderDate(d)) == Some(d)
  {
    var y, m, dd := Pad4(d.year), Pad2(d.month), Pad2(d.day);
    Pad2Digits(d.month);
    Pad2Digits(d.day);
    assert RenderDate(d) == y + ['-'] + (m + ['-'] + dd);
    SplitAppend(y, '-', m + ['-'] + dd);
    SplitAppend(m, '-', dd);
    SplitWithoutSeparator(y, '-');
    SplitWithoutSeparator(m, '-');
    SplitWithoutSeparator(dd, '-');
    YearFieldOfPad4(d.year);
    MonthFieldExactly(m, d.month);
    DayFieldExactly(dd, d.day);
  }

  /** The date part of a stored launch time, read with strptime and
      re-rendered as "%Y-%m-%d"; None where the source raises (no word, or a
      word that is not a date). */
  function LaunchDay(launch: string): (d: Option<string>)
    ensures d.Some? ==> IsDateText(d.value)
  {
    match FirstWord(launch)
    case None => None
    case Some(w) =>
      match ParseDate(w)
      case None => None
      case Some(date) => Some(RenderDate(date))
  }

  /** The date and time texts a launch stores: "%Y-%m-%d %H:%M:%S". */
  function LaunchStamp(date: string, time: string): string
  {
    date + " " + time
  }

  /** A stamp written by a launch reads back as that launch's date. */
  lemma {:induction false} LaunchDayOfStamp(date: Date, time: string)
    requires ValidDate(date)
    ensures LaunchDay(LaunchStamp(RenderDate(date), time)) == Some(RenderDate(date))
  {
    var text := RenderDate(date);
    var s := LaunchStamp(text, time);
    assert s[..10] == text;
    assert StripStart(s) == s by { assert !IsWhitespace(s[0]); }
    WordPrefixUpTo(s, 10);
    ParseRenderDate(date);
  }

  /** Reading a launch's date is idempotent: a date it yields reads back as itself. */
  lemma {:induction false} LaunchDayIdempotent(launch: string)
    requires LaunchDay(launch).Some?
    ensures LaunchDay(LaunchDay(launch).value) == LaunchDay(launch)
  {
    var date := ParseDate(FirstWord(launch).value).value;
    var text := RenderDate(date);
    assert LaunchDay(launch) == Some(text);
    DateTextIsWord(text);
    FirstWordOfWord(text);
    ParseRenderDate(date);
  }

  lemma DateTextIsWord(t: string)
    requires IsDateText(t)
    ensures t != [] && forall i :: 0 <= i < |t| ==> !IsWhitespace(t[i])
  {
    forall i | 0 <= i < |t|
      ensures !IsWhitespace(t[i])
    {
      assert IsDigit(t[i]) || t[i] == '-';
    }
  }

  /** A word alone is its own first word. */
  lemma {:induction false} FirstWordOfWord(w: string)
    requires w != [] && forall i :: 0 <= i < |w| ==> !IsWhitespace(w[i])
    ensures FirstWord(w) == Some(w)
  {
    assert StripStart(w) == w by { assert !IsWhitespace(w[0]); }
    WordPrefixWhole(w);
  }

  lemma {:induction false} WordPrefixWhole(s: string)
    requires forall i :: 0 <= i < |s| ==> !IsWhitespace(s[i])
    ensures WordPrefix(s) == s
    decreases |s|
  {
    if s != [] {
      WordPrefixWhole(s[1..]);
    }
  }

  lemma {:induction false} WordPrefixUpTo(s: string, n: nat)
    requires n < |s| && IsWhitespace(s[n])
    requires forall i :: 0 <= i < n ==> !IsWhitespace(s[i])
    ensures WordPrefix(s) == s[..n]
    decreases n
  {
    if n > 0 {
      WordPrefixUpTo(s[1..], n - 1);
      assert s[..n] == [s[0]] + s[1..][..n - 1];
    }
  }

  // ---------------------------------------------------------------------
  // Display values

  /** The average audio length: "N/A" before anything was generated. */
  datatype Average = NotAvailable | Seconds(value: real)

  function AverageDuration(s: UsageStatistics): (a: Average)
    ensures a == NotAvailable <==> s.totalAudioGenerated == 0
    ensures a.Seconds? ==> a.value * (s.totalAudioGenerated as real) == s.totalAudioDuration as real
  {
    if s.totalAudioGenerated > 0 then Seconds((s.totalAudioDuration as real) / (s.totalAudioGenerated as real))
    else NotAvailable
  }

  /** The parts of get_formatted_statistics that do not format floats. */
  datatype FormattedStatistics = FormattedStatistics(
    firstLaunch: string,
    lastLaunch: string,
    totalLaunches: string,
    usageDays: string,
    totalAudioGenerated: string,
    mostUsedModel: string,
    average: Average)

  function Formatted(s: UsageStatistics): (f: FormattedStatistics)
    ensures f.mostUsedModel == MostUsedModel(s.modelUsageCount)
    ensures f.average == AverageDuration(s)
    ensures f.totalLaunches == NatToString(s.totalLaunches) && f.usageDays == NatToString(s.totalUsageDays)
    ensures f.firstLaunch == s.firstLaunchDate && f.lastLaunch == s.lastLaunchDate
  {
    FormattedStatistics(s.firstLaunchDate, s.lastLaunchDate, NatToString(s.totalLaunches),
      NatToString(s.totalUsageDays), NatToString(s.totalAudioGenerated),
      MostUsedModel(s.modelUsageCount), AverageDuration(s))
  }

  // ---------------------------------------------------------------------
  // The service

  class StatisticsService {
    var stats: UsageStatistics
    var sessionStart: Option<int>
    var sessionDate: Option<string>

    /** Counters that every recorded event keeps in step: a session has a
        start time and a date together, and the model keys are distinct. */
    ghost predicate Valid()
      reads this
    {
      && (sessionStart.Some? <==> sessionDate.Some?)
      && DistinctKeys(stats.modelUsageCount)
    }

    /** The counts only ever grow together: no more usage days than launches
        and no more per-model uses than generations. */
    ghost predicate CountersConsistent()
      reads this
    {
      && stats.totalUsageDays <= stats.totalLaunches
      && UsageTotal(stats.modelUsageCount) <= stats.totalAudioGenerated
    }

    /** Loading: the statistics file's contents, or defaults when the file is
        missing or unreadable. No session is open. */
    constructor(loaded: Option<UsageStatistics>)
      requires loaded.Some? ==> DistinctKeys(loaded.value.modelUsageCount)
      ensures stats == (if loaded.Some? then loaded.value else DefaultStatistics)
      ensures sessionStart.None? && sessionDate.None?
      ensures Valid()
    {
      stats := if loaded.Some? then loaded.value else DefaultStatistics;
      sessionStart := None;
      sessionDate := None;
    }

    /** record_launch. `ok` is false where the source raises inside its try
        block (a stored last launch whose date cannot be read), in which case
        nothing changes. */
    method RecordLaunch(nowDate: string, nowTime: string, nowSeconds: int) returns (ok: bool)
      requires Valid()
      modifies this
      ensures Valid()
      ensures ok <==> old(stats.firstLaunchDate) == "" || LaunchDay(old(stats.lastLaunchDate)).Some?
      ensures !ok ==> stats == old(stats) && sessionStart == old(sessionStart) && sessionDate == old(sessionDate)
      ensures ok ==> stats.totalLaunches == old(stats.totalLaunches) + 1
      ensures ok ==> stats.lastLaunchDate == LaunchStamp(nowDate, nowTime)
      ensures ok ==> sessionStart == Some(nowSeconds) && sessionDate == Some(nowDate)
      ensures ok && old(stats.firstLaunchDate) == "" ==>
        stats.firstLaunchDate == LaunchStamp(nowDate, nowTime) && stats.totalUsageDays == 1
      ensures ok && old(stats.firstLaunchDate) != "" ==>
        stats.firstLaunchDate == old(stats.firstLaunchDate) &&
        stats.totalUsageDays == old(stats.totalUsageDays) + (if Some(nowDate) == LaunchDay(old(stats.lastLaunchDate)) then 0 else 1)
      ensures ok ==> (stats.totalAudioGenerated == old(stats.totalAudioGenerated) &&
        stats.totalAudioDuration == old(stats.totalAudioDuration) &&
        stats.modelUsageCount == old(stats.modelUsageCount) &&
        stats.totalUsageTime == old(stats.totalUsageTime) &&
        stats.lastSessionDuration == old(stats.lastSessionDuration))
      ensures old(CountersConsistent()) ==> CountersConsistent()
    {
      var nowStr := LaunchStamp(nowDate, nowTime);
      if stats.firstLaunchDate == "" {
        stats := stats.(firstLaunchDate := nowStr, totalUsageDays := 1);
      } else {
        ok := CountUsageDay(nowDate);
        if !ok {
          return;
        }
      }
      stats := stats.(lastLaunchDate := nowStr);
      stats := stats.(totalLaunches := stats.totalLaunches + 1);
      sessionStart := Some(nowSeconds);
      sessionDate := Some(nowDate);
      ok := true;
    }

    /** The usage-day step of record_launch after the first launch: the
        stored last launch's date is read, and a different current date
        counts one more usage day. `ok` is false where reading it raises. */
    method CountUsageDay(nowDate: string) returns (ok: bool)
      modifies this`stats
      ensures ok <==> LaunchDay(old(stats.lastLaunchDate)).Some?
      ensures !ok ==> stats == old(stats)
      ensures ok ==> stats == old(stats).(totalUsageDays := old(stats.totalUsageDays) +
                        (if Some(nowDate) == LaunchDay(old(stats.lastLaunchDate)) then 0 else 1))
    {
      var lastDate := LaunchDay(stats.lastLaunchDate);
      if lastDate.None? {
        return false;
      }
      if nowDate != lastDate.value {
        stats := stats.(totalUsageDays := stats.totalUsageDays + 1);
      }
      ok := true;
    }

    /** record_shutdown: without an open session nothing happens; otherwise
        the session's length is added to the usage time and the session closes. */
    method RecordShutdown(nowSeconds: int)
      requires Valid()
      modifies this
      ensures Valid()
      ensures old(sessionStart).None? ==> stats == old(stats) && sessionStart.None? && sessionDate == old(sessionDate)
      ensures old(sessionStart).Some? ==>
        var duration := nowSeconds - old(sessionStart).value;
        && stats == old(stats).(lastSessionDuration := duration, totalUsageTime := old(stats.totalUsageTime) + duration)
        && sessionStart.None? && sessionDate.None?
      ensures old(CountersConsistent()) ==> CountersConsistent()
    {
      if sessionStart.None? {
        return;
      }
      var duration := nowSeconds - sessionStart.value;
      stats := stats.(lastSessionDuration := duration);
      stats := stats.(totalUsageTime := stats.totalUsageTime + duration);
      sessionStart := None;
      sessionDate := None;
    }

    /** record_audio_generation: one more generation of the given length; the
        model's count grows by one only for a non-empty model id. */
    method RecordAudioGeneration(duration: int, modelId: string)
      requires Valid()
      modifies this
      ensures Valid()
      ensures stats.totalAudioGenerated == old(stats.totalAudioGenerated) + 1
      ensures stats.totalAudioDuration == old(stats.totalAudioDuration) + duration
      ensures forall k :: (CountOf(stats.modelUsageCount, k) ==
        CountOf(old(stats.modelUsageCount), k) + (if modelId != "" && k == modelId then 1 else 0))
      ensures modelId == "" ==> stats.modelUsageCount == old(stats.modelUsageCount)
      ensures stats.firstLaunchDate == old(stats.firstLaunchDate) && stats.lastLaunchDate == old(stats.lastLaunchDate)
      ensures stats.totalLaunches == old(stats.totalLaunches) && stats.totalUsageDays == old(stats.totalUsageDays)
      ensures stats.totalUsageTime == old(stats.totalUsageTime) && stats.lastSessionDuration == old(stats.lastSessionDuration)
      ensures sessionStart == old(sessionStart) && sessionDate == old(sessionDate)
      ensures old(CountersConsistent()) ==> CountersConsistent()
    {
      var usage := stats.modelUsageCount;
      if modelId != "" {
        forall k {
          IncrementCounts(usage, modelId, k);
        }
        IncrementTotal(usage, modelId);
        IncrementKeepsDistinct(usage, modelId);
        usage := Increment(usage, modelId);
      }
      stats := stats.(totalAudioGenerated := stats.totalAudioGenerated + 1,
                      totalAudioDuration := stats.totalAudioDuration + duration,
                      modelUsageCount := usage);
    }

    /** get_formatted_statistics */
    function GetFormattedStatistics(): (f: FormattedStatistics)
      reads this
      ensures f == Formatted(stats)
    {
      Formatted(stats)
    }

    /** get_model_usage_stats: the counts as a value, which later recording
        cannot alter. */
    function GetModelUsageStats(): (u: Usage)
      reads this
      ensures forall k :: CountOf(u, k) == CountOf(stats.modelUsageCount, k)
    {
      stats.modelUsageCount
    }

    /** reset_statistics: backs up the file, then replaces every counter by
        its default. When the backup copy fails the source returns false
        before resetting anything. The session is left as it is. */
    method ResetStatistics(backupFails: bool) returns (ok: bool)
      requires Valid()
      modifies this
      ensures Valid()
      ensures ok == !backupFails
      ensures ok ==> stats == DefaultStatistics
      ensures !ok ==> stats == old(stats)
      ensures sessionStart == old(sessionStart) && sessionDate == old(sessionDate)
      ensures CountersConsistent() || stats == old(stats)
    {
      if backupFails {
        return false;
      }
      stats := DefaultStatistics;
      ok := true;
    }
  }
}

=== FILE: system_info.dfy ===
// The system information service: what it collects about the machine, the
// GPU it detects, the text it shows for CPU and GPU, and the 30-second
// cache in front of collection.
//
// Probing the machine (platform calls, subprocesses, psutil, pynvml,
// torch) is replaced by a Probe value holding what each probe answered;
// the clock is a parameter.

module SystemInformation {
  import opened Common
  import SizeFormat

  /** _get_cpu_cores: os.cpu_count(), or 1 when it gives no answer or 0. */
  function CpuCores(reported: Option<nat>): (n: nat)
    ensures n >= 1
    ensures reported.Some? && reported.value > 0 ==> n == reported.value
    ensures !(reported.Some? && reported.value > 0) ==> n == 1
  {
    if reported.Some? && reported.value > 0 then reported.value else 1
  }

  /** The GPU memory field: empty before collection, "N/A", unified memory,
      a size formatted by the size formatter, or the total PyTorch reports
      (rendered in GB with two decimals, which is not modelled). */
  datatype GpuMemory = Unreported | MemoryNotAvailable | UnifiedMemory
                     | MemorySize(size: SizeFormat.SizeText) | TorchMemory(totalBytes: nat)

  datatype GpuInfo = GpuInfo(gpuType: string, gpuName: string, gpuMemory: GpuMemory)

  /** What _get_gpu_info starts from and returns when nothing is found. */
  function NoGpu(): GpuInfo
  {
    GpuInfo("None", "None", MemoryNotAvailable)
  }

  /** What pynvml answers: nothing (not installed, or initialisation
      raised), or a device count, the first device's name (None when asking
      for it raised) and its memory (None when asking for it raised). */
  datatype NvidiaProbe = NoNvidia | Nvidia(deviceCount: nat, name: Option<string>, memoryBytes: Option<nat>)

  /** What torch answers: not installed, CUDA with the first device's name
      and memory, MPS, or neither. */
  datatype TorchProbe = NoTorch | TorchCuda(deviceName: string, totalMemoryBytes: nat) | TorchMps | TorchCpuOnly

  /** The NVIDIA step: the type is "NVIDIA" as soon as a device is counted;
      the name and memory stay at their defaults when asking for them
      raised. */
  function NvidiaGpu(nvidia: NvidiaProbe): (g: GpuInfo)
    ensures g.gpuType == "None" <==> !(nvidia.Nvidia? && nvidia.deviceCount > 0)
    ensures g.gpuType == "None" ==> g == NoGpu()
  {
    match nvidia
    case Nvidia(count, name, memory) =>
      if count == 0 then NoGpu()
      else if name.None? then GpuInfo("NVIDIA", "None", MemoryNotAvailable)
      else GpuInfo("NVIDIA", name.value,
                   if memory.Some? then MemorySize(SizeFormat.SizeTextOf(memory.value)) else MemoryNotAvailable)
    case NoNvidia => NoGpu()
  }

  /** The sysctl answer on macOS names an Apple chip. */
  predicate AppleChip(isDarwin: bool, sysctl: Option<string>)
  {
    isDarwin && sysctl.Some? && Contains(sysctl.value, "Apple")
  }

  /** _get_gpu_info: NVIDIA first, then an Apple chip on macOS, then what
      torch reports; each later step only when no GPU was found yet. */
  function DetectGpu(nvidia: NvidiaProbe, isDarwin: bool, sysctl: Option<string>, torch: TorchProbe): (g: GpuInfo)
    ensures g.gpuType == "None" <==>
      !(nvidia.Nvidia? && nvidia.deviceCount > 0) && !AppleChip(isDarwin, sysctl) && !(torch.TorchCuda? || torch.TorchMps?)
    ensures g.gpuType == "None" ==> g == NoGpu()
    ensures nvidia.Nvidia? && nvidia.deviceCount > 0 ==> g == NvidiaGpu(nvidia)
  {
    var g := NvidiaGpu(nvidia);
    if g.gpuType != "None" then g
    else if AppleChip(isDarwin, sysctl) then GpuInfo("Apple Silicon", Strip(sysctl.value), UnifiedMemory)
    else match torch
      case TorchCuda(name, bytes) => GpuInfo("NVIDIA (PyTorch)", name, TorchMemory(bytes))
      case TorchMps => GpuInfo("Apple Silicon (PyTorch)", "MPS (Metal Performance Shaders)", UnifiedMemory)
      case _ => g
  }

  /** _get_compute_backend */
  function ComputeBackend(torch: TorchProbe): (r: string)
    ensures torch.NoTorch? <==> r == "Not Available"
  {
    match torch
    case TorchCuda(_, _) => "CUDA"
    case TorchMps => "MPS (Metal)"
    case TorchCpuOnly => "CPU"
    case NoTorch => "Not Available"
  }

  datatype PlatformInfo = PlatformInfo(system: string, version: string, architecture: string,
                                       hostname: string, pythonVersion: string)

  datatype CpuInfo = CpuInfo(brand: string, cores: nat, frequency: string)

  /** Sizes are None while unset (the empty string of a fresh record). */
  datatype MemoryInfo = MemoryInfo(total: Option<SizeFormat.SizeText>, available: Option<SizeFormat.SizeText>,
                                   usagePercent: real)

  datatype DiskInfo = DiskInfo(total: Option<SizeFormat.SizeText>, used: Option<SizeFormat.SizeText>,
                               free: Option<SizeFormat.SizeText>, usagePercent: real)

  /** SystemInfo, its fields grouped by topic. */
  datatype SystemInfo = SystemInfo(platform: PlatformInfo, cpu: CpuInfo, gpu: GpuInfo,
                                   computeBackend: string, memory: MemoryInfo, disk: DiskInfo)

  /** A freshly constructed SystemInfo: empty strings and zeros. */
  function DefaultInfo(): SystemInfo
  {
    SystemInfo(PlatformInfo("", "", "", "", ""), CpuInfo("", 0, ""), GpuInfo("", "", Unreported), "",
               MemoryInfo(None, None, 0.0), DiskInfo(None, None, None, 0.0))
  }

  /** What the probes answered. psutil's memory and disk figures are None
      when psutil is missing; failed is true when collection raised. */
  datatype Probe = Probe(
    platform: PlatformInfo,
    cpuBrand: string,
    cpuCount: Option<nat>,
    cpuFrequency: string,
    nvidia: NvidiaProbe,
    isDarwin: bool,
    sysctl: Option<string>,
    torch: TorchProbe,
    memory: Option<(nat, nat, real)>,
    disk: Option<(nat, nat, nat, real)>,
    failed: bool)

  /** The memory fields; without psutil the figures are zero. */
  function MemoryOf(memory: Option<(nat, nat, real)>): (m: MemoryInfo)
    ensures memory.None? ==> m == MemoryInfo(Some(SizeFormat.ZeroBytes), Some(SizeFormat.ZeroBytes), 0.0)
  {
    var (total, available, percent) := if memory.Some? then memory.value else (0, 0, 0.0);
    MemoryInfo(Some(SizeFormat.SizeTextOf(total)), Some(SizeFormat.SizeTextOf(available)), percent)
  }

  /** The disk fields; without psutil the figures are zero. */
  function DiskOf(disk: Option<(nat, nat, nat, real)>): (d: DiskInfo)
    ensures disk.None? ==> d == DiskInfo(Some(SizeFormat.ZeroBytes), Some(SizeFormat.ZeroBytes), Some(SizeFormat.ZeroBytes), 0.0)
  {
    var (total, used, free, percent) := if disk.Some? then disk.value else (0, 0, 0, 0.0);
    DiskInfo(Some(SizeFormat.SizeTextOf(total)), Some(SizeFormat.SizeTextOf(used)), Some(SizeFormat.SizeTextOf(free)), percent)
  }

  /** _collect_system_info: every field from its probe, or a fresh record
      when collection raised. */
  function CollectSystemInfo(probe: Probe): (info: SystemInfo)
    ensures probe.failed ==> info == DefaultInfo()
    ensures !probe.failed ==> info.cpu.cores >= 1 && info.memory.total.Some? && info.disk.total.Some?
    ensures !probe.failed ==> info.gpu.gpuType == "None" ==> info.gpu == NoGpu()
  {
    if probe.failed then DefaultInfo()
    else
      SystemInfo(probe.platform,
                 CpuInfo(probe.cpuBrand, CpuCores(probe.cpuCount), probe.cpuFrequency),
                 DetectGpu(probe.nvidia, probe.isDarwin, probe.sysctl, probe.torch),
                 ComputeBackend(probe.torch),
                 MemoryOf(probe.memory),
                 DiskOf(probe.disk))
  }

  /** The "GPU" entry of the formatted information: "None" exactly when the
      type is "None", otherwise type and name joined by " - ". */
  function FormattedGpu(gpu: GpuInfo): (r: string)
    ensures r == "None" <==> gpu.gpuType == "None"
    ensures gpu.gpuType != "None" ==> StartsWith(r, gpu.gpuType) && EndsWith(r, gpu.gpuName) && |r| == |gpu.gpuType| + 3 + |gpu.gpuName|
  {
    if gpu.gpuType != "None" then
      var r := gpu.gpuType + " - " + gpu.gpuName;
      assert r[|gpu.gpuType| + 1] == '-';
      assert r[..|gpu.gpuType|] == gpu.gpuType;
      r
    else "None"
  }

  /** The "CPU" entry: the brand and the core count. */
  function FormattedCpu(cpu: CpuInfo): string
  {
    cpu.brand + " (" + NatToString(cpu.cores) + " cores)"
  }

  /** get_formatted_info's entries that hold text; the size, percentage and
      GPU memory entries render floating point and are not modelled. */
  function FormattedInfo(info: SystemInfo): (m: map<string, string>)
    ensures "GPU" in m && (m["GPU"] == "None" <==> info.gpu.gpuType == "None")
    ensures "CPU" in m && m["CPU"] == FormattedCpu(info.cpu)
  {
    map["Platform" := info.platform.system + " " + info.platform.version,
        "Architecture" := info.platform.architecture,
        "Hostname" := info.platform.hostname,
        "Python" := info.platform.pythonVersion,
        "CPU" := FormattedCpu(info.cpu),
        "CPU Frequency" := info.cpu.frequency,
        "GPU" := FormattedGpu(info.gpu),
        "Compute Backend" := info.computeBackend]
  }

  /** When no probe finds a GPU the entry reads "None". */
  lemma NoGpuFormatsAsNone(probe: Probe)
    requires !probe.failed
    requires !(probe.nvidia.Nvidia? && probe.nvidia.deviceCount > 0) && !AppleChip(probe.isDarwin, probe.sysctl)
    requires !(probe.torch.TorchCuda? || probe.torch.TorchMps?)
    ensures FormattedInfo(CollectSystemInfo(probe))["GPU"] == "None"
    ensures CollectSystemInfo(probe).gpu == NoGpu()
  {
    var info := CollectSystemInfo(probe);
    assert info.gpu == DetectGpu(probe.nvidia, probe.isDarwin, probe.sysctl, probe.torch);
  }

  /** After a failed collection the record's type is empty, not "None", so
      the entry reads " - ". */
  lemma FailedCollectionGpuText(probe: Probe)
    requires probe.failed
    ensures FormattedInfo(CollectSystemInfo(probe))["GPU"] == " - "
  {
  }

  class SystemInfoService {
    var infoCache: Option<SystemInfo>
    /** When the cache was filled, in seconds. */
    var cacheTimestamp: real
    const cacheTtl: real

    constructor()
      ensures infoCache == None && cacheTimestamp == 0.0 && cacheTtl == 30.0
    {
      infoCache := None;
      cacheTimestamp := 0.0;
      cacheTtl := 30.0;
    }

    /** The cache answers a call made at `now` unless it is forced, empty
        or at least cacheTtl old. */
    predicate CacheAnswers(forceRefresh: bool, now: real)
      reads this
    {
      !forceRefresh && infoCache.Some? && now - cacheTimestamp < cacheTtl
    }

    /** get_system_info */
    method GetSystemInfo(forceRefresh: bool, now: real, probe: Probe) returns (info: SystemInfo)
      modifies this
      ensures old(CacheAnswers(forceRefresh, now)) ==>
        info == old(infoCache).value && infoCache == old(infoCache) && cacheTimestamp == old(cacheTimestamp)
      ensures !old(CacheAnswers(forceRefresh, now)) ==>
        info == CollectSystemInfo(probe) && cacheTimestamp == now
      ensures infoCache == Some(info)
    {
      if !forceRefresh && infoCache.Some? && now - cacheTimestamp < cacheTtl {
        return infoCache.value;
      }
      infoCache := Some(CollectSystemInfo(probe));
      cacheTimestamp := now;
      info := infoCache.value;
    }

    /** get_formatted_info: the entries of what get_system_info answers. */
    method GetFormattedInfo(now: real, probe: Probe) returns (m: map<string, string>)
      modifies this
      ensures infoCache.Some? && m == FormattedInfo(infoCache.value)
      ensures old(CacheAnswers(false, now)) ==> infoCache == old(infoCache) && cacheTimestamp == old(cacheTimestamp)
      ensures !old(CacheAnswers(false, now)) ==> infoCache == Some(CollectSystemInfo(probe)) && cacheTimestamp == now
    {
      var info := GetSystemInfo(false, now, probe);
      m := FormattedInfo(info);
    }
  }
}

=== FILE: version.dfy ===
/** The update check: a dotted version comparison with zero padding, the
    stripping of a leading 'v' from the release tag, and the shaping of the
    update information. The HTTP request to the release API is not modelled:
    its outcome is a parameter (None when the request or the library fails,
    otherwise the tag name, "" when the reply has none). */
module Version {
  import opened Common

  // ---------------------------------------------------------------------
  // Parsing dotted versions

  /** int(x) on one component. Only plain digit strings are modelled as
      numbers; every other text is a parse failure. */
  function ParseComponent(s: string): (r: Option<nat>)
    ensures r.Some? <==> s != [] && AllDigits(s)
  {
    if s != [] && AllDigits(s) then Some(DigitsValue(s)) else None
  }

  /** [int(x) for x in parts]: fails as soon as one component fails. */
  function ParseParts(parts: seq<string>): (r: Option<seq<nat>>)
    ensures r.Some? <==> forall i :: 0 <= i < |parts| ==> ParseComponent(parts[i]).Some?
    ensures r.Some? ==> |r.value| == |parts|
    ensures r.Some? ==> forall i :: 0 <= i < |parts| ==> r.value[i] == ParseComponent(parts[i]).value
    decreases |parts|
  {
    if parts == [] then Some([])
    else
      match (ParseComponent(parts[0]), ParseParts(parts[1..]))
      case (Some(n), Some(ns)) =>
        assert forall i :: 1 <= i < |parts| ==> parts[i] == parts[1..][i - 1];
        Some([n] + ns)
      case (_, _) =>
        assert forall i :: 1 <= i < |parts| ==> parts[i] == parts[1..][i - 1];
        None
  }

  function ParseVersion(v: string): Option<seq<nat>>
  {
    ParseParts(Split(v, '.'))
  }

  /** The shorter list is padded with zeros up to length n. */
  function PadZeros(parts: seq<nat>, n: nat): (r: seq<nat>)
    ensures |r| == if |parts| >= n then |parts| else n
    ensures r[..|parts|] == parts
    ensures forall i :: |parts| <= i < |r| ==> r[i] == 0
  {
    if |parts| >= n then parts else parts + seq(n - |parts|, _ => 0)
  }

  /** Python's `a > b` on two lists of integers. */
  function ListGreater(a: seq<nat>, b: seq<nat>): bool
    decreases |a|
  {
    if a == [] then false
    else if b == [] then true
    else if a[0] != b[0] then a[0] > b[0]
    else ListGreater(a[1..], b[1..])
  }

  /** True iff latest is a strictly newer version than current. A component
      that does not parse makes the answer false. */
  function CompareVersions(current: string, latest: string): (r: bool)
    ensures r ==> ParseVersion(current).Some? && ParseVersion(latest).Some?
  {
    match (ParseVersion(current), ParseVersion(latest))
    case (Some(c), Some(l)) =>
      var n := if |c| >= |l| then |c| else |l|;
      ListGreater(PadZeros(l, n), PadZeros(c, n))
    case (_, _) => false
  }

  // ---------------------------------------------------------------------
  // What the comparison means

  /** On lists of equal length, `>` holds iff the lists agree up to some
      position where the left one is larger. */
  lemma {:induction false} ListGreaterMeaning(a: seq<nat>, b: seq<nat>)
    requires |a| == |b|
    ensures ListGreater(a, b) <==> exists k :: 0 <= k < |a| && a[..k] == b[..k] && a[k] > b[k]
    decreases |a|
  {
    if a != [] {
      if ListGreater(a, b) {
        if a[0] != b[0] {
          assert a[..0] == b[..0];
        } else {
          ListGreaterMeaning(a[1..], b[1..]);
          var k :| 0 <= k < |a[1..]| && a[1..][..k] == b[1..][..k] && a[1..][k] > b[1..][k];
          assert a[..k + 1] == [a[0]] + a[1..][..k];
          assert b[..k + 1] == [b[0]] + b[1..][..k];
        }
      }
      if exists k :: 0 <= k < |a| && a[..k] == b[..k] && a[k] > b[k] {
        var k :| 0 <= k < |a| && a[..k] == b[..k] && a[k] > b[k];
        if k > 0 {
          assert a[0] == a[..k][0] == b[..k][0] == b[0];
          assert a[1..][..k - 1] == a[..k][1..] && b[1..][..k - 1] == b[..k][1..];
          ListGreaterMeaning(a[1..], b[1..]);
        }
      }
    }
  }

  lemma {:induction false} ListGreaterIrreflexive(a: seq<nat>)
    ensures !ListGreater(a, a)
    decreases |a|
  {
    if a != [] {
      ListGreaterIrreflexive(a[1..]);
    }
  }

  lemma {:induction false} ListGreaterAsymmetric(a: seq<nat>, b: seq<nat>)
    ensures ListGreater(a, b) ==> !ListGreater(b, a)
    decreases |a|
  {
    if a != [] && b != [] && a[0] == b[0] {
      ListGreaterAsymmetric(a[1..], b[1..]);
    }
  }

  /** The update flag says: both versions parse, and after padding they
      agree up to a component where latest is larger. */
  lemma CompareVersionsMeaning(current: string, latest: string)
    ensures CompareVersions(current, latest) <==>
      match (ParseVersion(current), ParseVersion(latest))
      case (Some(c), Some(l)) =>
        var n := if |c| >= |l| then |c| else |l|;
        exists k :: 0 <= k < n && PadZeros(l, n)[..k] == PadZeros(c, n)[..k] && PadZeros(l, n)[k] > PadZeros(c, n)[k]
      case (_, _) => false
  {
    match (ParseVersion(current), ParseVersion(latest))
    case (Some(c), Some(l)) =>
      var n := if |c| >= |l| then |c| else |l|;
      ListGreaterMeaning(PadZeros(l, n), PadZeros(c, n));
    case (_, _) =>
  }

  /** The same version never reports an update. */
  lemma SameVersionNoUpdate(v: string)
    ensures !CompareVersions(v, v)
  {
    match ParseVersion(v)
    case Some(c) => ListGreaterIrreflexive(PadZeros(c, |c|));
    case None =>
  }

  /** If latest is newer than current, current is not newer than latest. */
  lemma CompareVersionsAsymmetric(a: string, b: string)
    ensures CompareVersions(a, b) ==> !CompareVersions(b, a)
  {
    match (ParseVersion(a), ParseVersion(b))
    case (Some(c), Some(l)) =>
      var n := if |c| >= |l| then |c| else |l|;
      ListGreaterAsymmetric(PadZeros(l, n), PadZeros(c, n));
    case (_, _) =>
  }

  // ---------------------------------------------------------------------
  // Trailing zeros

  /** A version and the same version with ".0" appended parse to lists that
      pad to the same list, so neither is newer than the other: "1.0" and
      "1.0.0" report no update. */
  lemma TrailingZeroNoUpdate(v: string)
    ensures !CompareVersions(v, v + ".0")
    ensures !CompareVersions(v + ".0", v)
  {
    SplitAppend(v, '.', "0");
    assert v + ".0" == v + ['.'] + "0";
    var parts := Split(v, '.');
    SplitWithoutSeparator("0", '.');
    assert ParseComponent("0") == Some(0);
    match ParseParts(parts)
    case Some(c) =>
      var longer := ParseParts(parts + ["0"]);
      assert longer.Some? by {
        forall i | 0 <= i < |parts + ["0"]|
          ensures ParseComponent((parts + ["0"])[i]).Some?
        {
          if i < |parts| {
            assert (parts + ["0"])[i] == parts[i];
          }
        }
      }
      assert longer.value == c + [0] by {
        forall i | 0 <= i < |parts + ["0"]|
          ensures longer.value[i] == (c + [0])[i]
        {
          if i < |parts| {
            assert (parts + ["0"])[i] == parts[i];
          }
        }
      }
      assert PadZeros(c, |c| + 1) == c + [0];
      ListGreaterIrreflexive(c + [0]);
    case None =>
  }

  // ---------------------------------------------------------------------
  // Rendering and parsing round trip

  /** The dotted text of a list of components: ".".join(map(str, parts)). */
  function VersionText(parts: seq<nat>): (s: string)
    ensures parts != [] ==> s != []
    decreases |parts|
  {
    if parts == [] then ""
    else if |parts| == 1 then NatToString(parts[0])
    else NatToString(parts[0]) + "." + VersionText(parts[1..])
  }

  lemma {:induction false} SplitVersionText(parts: seq<nat>)
    requires parts != []
    ensures Split(VersionText(parts), '.') == seq(|parts|, i requires 0 <= i < |parts| => NatToString(parts[i]))
    decreases |parts|
  {
    var head := NatToString(parts[0]);
    assert forall j :: 0 <= j < |head| ==> IsDigit(head[j]);
    SplitWithoutSeparator(head, '.');
    if |parts| > 1 {
      SplitAppend(head, '.', VersionText(parts[1..]));
      assert head + "." + VersionText(parts[1..]) == head + ['.'] + VersionText(parts[1..]);
      SplitVersionText(parts[1..]);
    }
  }

  /** Parsing the dotted text of any non-empty list of numbers gives the list back. */
  lemma ParseVersionText(parts: seq<nat>)
    requires parts != []
    ensures ParseVersion(VersionText(parts)) == Some(parts)
  {
    SplitVersionText(parts);
    var texts := Split(VersionText(parts), '.');
    forall i | 0 <= i < |parts|
      ensures ParseComponent(texts[i]) == Some(parts[i])
    {
      ParseComponentOfNat(parts[i]);
    }
    var r := ParseParts(texts);
    assert r.Some?;
    assert r.value == parts;
  }

  lemma ParseComponentOfNat(n: nat)
    ensures ParseComponent(NatToString(n)) == Some(n)
  {
    DigitsValueOfNatToString(n);
  }

  // ---------------------------------------------------------------------
  // The update check

  datatype UpdateInfo = UpdateInfo(
    hasUpdate: bool,
    currentVersion: string,
    latestVersion: string,
    downloadUrl: string,
    releaseNotes: string)

  /** The answer when nothing could be checked. */
  function NoUpdateInfo(current: string): (info: UpdateInfo)
    ensures !info.hasUpdate
    ensures info.currentVersion == current && info.latestVersion == current
    ensures info.downloadUrl == "" && info.releaseNotes == ""
  {
    UpdateInfo(false, current, current, "", "")
  }

  /** A single leading 'v' is dropped from the release tag. */
  function StripV(tag: string): (r: string)
    ensures tag != [] && tag[0] == 'v' ==> "v" + r == tag
    ensures tag == [] || tag[0] != 'v' ==> r == tag
  {
    if StartsWith(tag, "v") then tag[1..] else tag
  }

  /** The version the release API reports: None when the request failed,
      otherwise the tag with its 'v' removed. */
  function FetchedVersion(tag: Option<string>): (r: Option<string>)
    ensures tag.None? <==> r.None?
    ensures tag.Some? ==> r.value == StripV(tag.value)
  {
    match tag
    case None => None
    case Some(t) => Some(StripV(t))
  }

  function ReleaseUrl(owner: string, repo: string): string
  {
    "https://github.com/" + owner + "/" + repo + "/releases/latest"
  }

  /** check_for_updates, with the release tag as a parameter. */
  function CheckForUpdates(owner: string, repo: string, current: string, tag: Option<string>): (info: UpdateInfo)
    ensures owner == "" || repo == "" ==> info == NoUpdateInfo(current)
    ensures FetchedVersion(tag) in {None, Some("")} ==> info == NoUpdateInfo(current)
    ensures owner != "" && repo != "" && tag.Some? && StripV(tag.value) != "" ==>
      info.currentVersion == current &&
      info.latestVersion == StripV(tag.value) &&
      info.hasUpdate == CompareVersions(current, StripV(tag.value)) &&
      info.downloadUrl == ReleaseUrl(owner, repo) &&
      info.releaseNotes == "Please visit GitHub for release notes"
  {
    if owner == "" || repo == "" then NoUpdateInfo(current)
    else
      match FetchedVersion(tag)
      case None => NoUpdateInfo(current)
      case Some(latest) =>
        if latest == "" then NoUpdateInfo(current)
        else
          UpdateInfo(CompareVersions(current, latest), current, latest, ReleaseUrl(owner, repo),
            "Please visit GitHub for release notes")
  }

  /** An update is only ever offered for a version that parses, differs from
      the current one, and is not itself older than the current one. */
  lemma UpdateOffersNewerVersion(owner: string, repo: string, current: string, tag: Option<string>)
    ensures var info := CheckForUpdates(owner, repo, current, tag);
      info.hasUpdate ==>
        info.latestVersion != current &&
        ParseVersion(info.latestVersion).Some? &&
        !CompareVersions(info.latestVersion, current) &&
        info.downloadUrl == ReleaseUrl(owner, repo)
  {
    var info := CheckForUpdates(owner, repo, current, tag);
    if info.hasUpdate {
      SameVersionNoUpdate(current);
      CompareVersionsAsymmetric(current, info.latestVersion);
    }
  }
}

=== FILE: voice_adapter.dfy ===
// The voice-generation adapter layer: the factory that keeps the registered
// adapters and the default one, and how the CosyVoice adapter turns a
// generation request into a result. The CosyVoice service, the pitch-shift
// module and the clock are outside the model; what they answer is passed in.

module VoiceAdapter {
  import opened Common

  /** The adapters the application creates. A CosyVoice adapter records
      whether its service reported itself available. */
  datatype Adapter = CVCloneAdapter(serviceAvailable: bool) | MockAdapter | CustomAdapter(id: string)

  /** is_available */
  predicate IsAvailable(a: Adapter)
  {
    match a
    case CVCloneAdapter(available) => available
    case MockAdapter => true
    case CustomAdapter(_) => true
  }

  // ---------------------------------------------------------------------
  // The factory

  /** Registration order of names after registering one more: a name seen
      before keeps its place, a new one goes last. */
  function OrderAfter(order: seq<string>, name: string): (r: seq<string>)
    ensures name in r
    ensures forall n :: n in r <==> n in order || n == name
    ensures order != [] ==> r != [] && r[0] == order[0]
    ensures order == [] ==> r == [name]
    ensures Distinct(order) ==> Distinct(r)
  {
    if name in order then order else order + [name]
  }

  predicate Distinct(s: seq<string>)
  {
    forall i, j :: 0 <= i < j < |s| ==> s[i] != s[j]
  }

  /** The default after registering one more name: the first name ever
      registered. */
  function DefaultAfter(default: Option<string>, name: string): (r: Option<string>)
    ensures r.Some?
    ensures default.Some? ==> r == default
  {
    if default.None? then Some(name) else default
  }

  /** Registering a sequence of names from an empty factory: the order is
      the names without repeats in first-registration order, and the default
      is the first name. */
  function RegisterAll(names: seq<string>): (r: (seq<string>, Option<string>))
    decreases |names|
  {
    if names == [] then ([], None)
    else
      var before := RegisterAll(names[..|names| - 1]);
      (OrderAfter(before.0, names[|names| - 1]), DefaultAfter(before.1, names[|names| - 1]))
  }

  lemma {:induction false} RegisterAllFirstIsDefault(names: seq<string>)
    ensures RegisterAll(names).1 == (if names == [] then None else Some(names[0]))
    ensures names != [] ==> RegisterAll(names).0 != [] && RegisterAll(names).0[0] == names[0]
    ensures Distinct(RegisterAll(names).0)
    ensures forall n :: n in RegisterAll(names).0 <==> n in names
    decreases |names|
  {
    if names != [] {
      var init := names[..|names| - 1];
      RegisterAllFirstIsDefault(init);
      if init != [] {
        assert init[0] == names[0];
      }
      assert forall n :: n in names <==> n in init || n == names[|names| - 1] by {
        assert names == init + [names[|names| - 1]];
      }
    }
  }

  /** VoiceAdapterFactory's class-level state: the registered adapters,
      their names in insertion order, and the default name. */
  class VoiceAdapterFactory {
    var adapters: map<string, Adapter>
    var order: seq<string>
    var defaultAdapter: Option<string>

    /** The registry's invariant: every registered name appears once in the
        order, and the default is the first registered name. */
    ghost predicate Valid()
      reads this
    {
      Distinct(order) &&
      (forall n :: n in order <==> n in adapters) &&
      (defaultAdapter.None? <==> order == []) &&
      (order != [] ==> defaultAdapter == Some(order[0]))
    }

    constructor()
      ensures Valid() && adapters == map[] && order == [] && defaultAdapter.None?
    {
      adapters := map[];
      order := [];
      defaultAdapter := None;
    }

    /** register_adapter: stores the adapter under the name, replacing any
        earlier one; the first name registered becomes the default. */
    method RegisterAdapter(name: string, adapter: Adapter)
      requires Valid()
      modifies this
      ensures Valid()
      ensures adapters == old(adapters)[name := adapter]
      ensures order == OrderAfter(old(order), name)
      ensures defaultAdapter == DefaultAfter(old(defaultAdapter), name)
    {
      adapters := adapters[name := adapter];
      order := OrderAfter(order, name);
      if defaultAdapter.None? {
        defaultAdapter := Some(name);
      }
    }

    /** get_adapter: the named adapter, or the default one when no name is
        given; nothing when there is no default or the name is unknown. */
    function GetAdapter(name: Option<string>): (r: Option<Adapter>)
      reads this
      ensures name.Some? ==> (r.Some? <==> name.value in adapters)
      ensures name.Some? && r.Some? ==> r.value == adapters[name.value]
      ensures name.None? ==> (r.Some? <==> defaultAdapter.Some? && defaultAdapter.value in adapters)
      ensures name.None? && r.Some? ==> r.value == adapters[defaultAdapter.value]
    {
      var resolved := if name.None? then defaultAdapter else name;
      if resolved.None? || resolved.value !in adapters then None
      else Some(adapters[resolved.value])
    }

    /** get_available_adapters: the registered names, each once, in the
        order they were first registered. */
    function GetAvailableAdapters(): (r: seq<string>)
      requires Valid()
      reads this
      ensures Distinct(r)
      ensures forall n :: n in r <==> n in adapters
      ensures r != [] ==> defaultAdapter == Some(r[0])
    {
      order
    }

    /** create_best_adapter: the CosyVoice adapter when its service is
        available, registered as "cosyvoice"; otherwise a mock adapter,
        registered as "mock". */
    method CreateBestAdapter(serviceAvailable: bool) returns (adapter: Adapter)
      requires Valid()
      modifies this
      ensures Valid()
      ensures IsAvailable(adapter)
      ensures serviceAvailable ==> adapter == CVCloneAdapter(true) && adapters == old(adapters)["cosyvoice" := adapter]
      ensures !serviceAvailable ==> adapter == MockAdapter && adapters == old(adapters)["mock" := adapter]
      ensures defaultAdapter == DefaultAfter(old(defaultAdapter), if serviceAvailable then "cosyvoice" else "mock")
    {
      var cv := CVCloneAdapter(serviceAvailable);
      if IsAvailable(cv) {
        RegisterAdapter("cosyvoice", cv);
        return cv;
      }
      adapter := MockAdapter;
      RegisterAdapter("mock", adapter);
    }
  }

  /** Once some adapter is registered, asking for the default adapter
      always yields one: the first adapter registered. */
  lemma DefaultAlwaysResolves(f: VoiceAdapterFactory)
    requires f.Valid() && f.order != []
    ensures f.GetAdapter(None) == Some(f.adapters[f.order[0]])
  {
  }

  // ---------------------------------------------------------------------
  // Generation by the CosyVoice adapter

  datatype GenerationRequest = GenerationRequest(
    text: string,
    referenceAudio: string,
    pitchShift: real,
    outputPath: Option<string>,
    promptText: Option<string>,
    speed: real,
    enablePreprocessing: bool,
    enablePitchShift: bool)

  /** The audio properties the service reports with a clip. */
  datatype AudioMetadata = AudioMetadata(duration: real, sampleRate: int, fileSize: int)

  /** What the CosyVoice service's clone_voice answers: a valid clip, an
      invalid result with its optional message, or an exception. */
  datatype CloneOutcome =
    | CloneOk(audioPath: string, audioMetadata: Option<AudioMetadata>)
    | CloneFailed(errorMessage: Option<string>)
    | CloneRaised(exceptionText: string)

  /** What the pitch-shift module answers. */
  datatype PitchOutcome = PitchOk(outputPath: string) | PitchFailed | PitchModuleMissing | PitchRaised

  /** The metadata of a generated clip: what the CosyVoice adapter records,
      or the mock adapter's fixed values (its "mock" flag is implied). */
  datatype Metadata =
    | CloneMetadata(duration: real, sampleRate: int, fileSize: int,
                    preprocessed: bool, pitchShifted: bool, pitchValue: real)
    | MockMetadata(duration: real, sampleRate: int)

  datatype GenerationResult = GenerationResult(
    success: bool,
    outputPath: Option<string>,
    errorMessage: Option<string>,
    metadata: Option<Metadata>)

  /** preprocess_audio: the reference audio is used as it is, whether or not
      its name marks it as already preprocessed. */
  function PreprocessAudio(audioPath: string): (r: (string, bool))
    ensures r.1 && r.0 == audioPath
  {
    (audioPath, true)
  }

  /** postprocess_audio: no shift keeps the path and succeeds; a successful
      shift gives the shifted file; any failure keeps the original path and
      reports false. */
  function PostprocessAudio(audioPath: string, pitchShift: real, outcome: PitchOutcome): (r: (string, bool))
    ensures pitchShift == 0.0 ==> r == (audioPath, true)
    ensures !r.1 ==> r.0 == audioPath
    ensures r.1 <==> pitchShift == 0.0 || outcome.PitchOk?
    ensures pitchShift != 0.0 && outcome.PitchOk? ==> r.0 == outcome.outputPath
  {
    if pitchShift == 0.0 then (audioPath, true)
    else match outcome
      case PitchOk(out) => (out, true)
      case _ => (audioPath, false)
  }

  /** Whether post-processing runs: pitch shifting enabled and a non-zero
      shift. */
  predicate ShiftsPitch(request: GenerationRequest)
  {
    request.enablePitchShift && request.pitchShift != 0.0
  }

  /** The reference audio handed to the service: the preprocessed path when
      preprocessing succeeds, otherwise the original. */
  function ReferenceForService(request: GenerationRequest): (r: string)
    ensures r == request.referenceAudio
  {
    if request.enablePreprocessing then
      var (path, ok) := PreprocessAudio(request.referenceAudio);
      if ok then path else request.referenceAudio
    else request.referenceAudio
  }

  /** CVCloneAdapter.generate. available is is_available(); clone is what
      the service answers for the request (consulted only when available);
      pitch is what the pitch-shift module answers (consulted only when
      the pitch is shifted). */
  function Generate(available: bool, request: GenerationRequest, clone: CloneOutcome, pitch: PitchOutcome): (r: GenerationResult)
    ensures !available ==> r == GenerationResult(false, None, Some("CosyVoice服务不可用"), None)
    ensures r.success <==> available && clone.CloneOk?
    ensures r.success ==> r.metadata.Some? && r.metadata.value.CloneMetadata?
    ensures r.success ==> r.metadata.value.pitchShifted == ShiftsPitch(request)
    ensures r.success ==> r.metadata.value.preprocessed == request.enablePreprocessing
    ensures r.success && !ShiftsPitch(request) ==> r.outputPath == Some(clone.audioPath)
    ensures r.success && ShiftsPitch(request) ==>
      r.outputPath == Some(PostprocessAudio(clone.audioPath, request.pitchShift, pitch).0)
    ensures !r.success ==> r.outputPath.None? && r.metadata.None? && r.errorMessage.Some?
    ensures available && clone.CloneFailed? ==>
      r.errorMessage == Some(if clone.errorMessage.None? || clone.errorMessage.value == [] then "生成失败" else clone.errorMessage.value)
    ensures available && clone.CloneRaised? ==> r.errorMessage == Some(clone.exceptionText)
  {
    if !available then GenerationResult(false, None, Some("CosyVoice服务不可用"), None)
    else
      var _ := ReferenceForService(request);
      match clone
      case CloneOk(audioPath, meta) =>
        var outputPath := if ShiftsPitch(request) then PostprocessAudio(audioPath, request.pitchShift, pitch).0 else audioPath;
        var metadata := CloneMetadata(
          if meta.Some? then meta.value.duration else 0.0,
          if meta.Some? then meta.value.sampleRate else 24000,
          if meta.Some? then meta.value.fileSize else 0,
          request.enablePreprocessing,
          ShiftsPitch(request),
          request.pitchShift);
        GenerationResult(true, Some(outputPath), None, Some(metadata))
      case CloneFailed(message) =>
        var text := if message.None? || message.value == [] then "生成失败" else message.value;
        GenerationResult(false, None, Some(text), None)
      case CloneRaised(text) =>
        GenerationResult(false, None, Some(text), None)
  }

  /** A failed pitch shift never fails the generation: the unshifted clip
      is delivered instead. */
  lemma PitchFailureKeepsClip(request: GenerationRequest, audioPath: string, meta: Option<AudioMetadata>, pitch: PitchOutcome)
    requires !pitch.PitchOk?
    ensures var r := Generate(true, request, CloneOk(audioPath, meta), pitch);
            r.success && r.outputPath == Some(audioPath)
  {
  }

  /** MockAdapter.generate: writes placeholder audio to the temporary path
      and reports fixed metadata, or fails with the write error's text. */
  function MockGenerate(tempPath: string, writeError: Option<string>): (r: GenerationResult)
    ensures r.success <==> writeError.None?
    ensures r.success ==> r.outputPath == Some(tempPath) && r.metadata == Some(MockMetadata(5.0, 24000))
    ensures !r.success ==> r.errorMessage == writeError
  {
    match writeError
    case None => GenerationResult(true, Some(tempPath), None, Some(MockMetadata(5.0, 24000)))
    case Some(e) => GenerationResult(false, None, Some(e), None)
  }
}
